=== FILE: README.md ===
# miniorm core in Dafny

This project models the logic of `miniorm`, a small Python ORM. The ORM turns
Domain entities into DTOs, DTOs into SQL text, and database rows back into
DTOs and hydrated entities. The model covers:

- SQL literal rendering: `sql_escape`, `sql_value`, `normalize_query_params`.
- UUID checks: `is_valid_uuid` and the `looks_like_uuid` regex.
- Attribute synchronisation: `Object.sync`, `sync_objects`, `sync_with_dict`,
  the deep `update` merge, `obj_to_dict`, `vars` and
  `get_nested_list_metadata`.
- DTOs: `Dto.__init__`'s `id` normalisation, `vars()` and `columns()`.
- Validation: the `restrictions` rules, the `@validate` decorator's operation
  name, `validate_args` and `validate_attributes`.
- The DAO: SELECT, WHERE, INSERT and UPDATE text; the `<param>` substitution,
  missing-parameter detection and `= null` rewrite of `joint_find`; row
  coercion; the 0 / 1 / many outcomes of `find_one` and `exists`; the id
  write-back of `save`.
- Domain entities:
  - `join` and the tuple patch of `__init__`;
  - `as_dto`, `sync`, `cleanup_foreign_keys`, the effective
    `normalize_foreign_keys` and `delete`;
  - `encapsulate_nested` with the finders it calls;
  - `find`, `find_all`, `list` and the classmethod `encapsulate`;
  - `save`, `persist` and `update`;
  - the result classification of `call_dao_method` and `joint_find`.
- The re-entrant log-suppression counter, `query_format`, and the parameter
  rendering of `log`.

An object is an ordered list of attributes (`seq<Attr>`), not a map. Python
dicts keep insertion order, and that order shows in the SQL text. `Put`
replaces a key in place or appends it, `Del` removes it, and `Find` returns
the first match. A value is None, a bool, an int, a string, a UUID (held as
its canonical text), a date, time or datetime, a dict, a list, or an object
of a DTO or Domain class.

The database is a parameter. Its `columns` function gives the valid columns
of a table. Its `execute` function gives the rows a statement returns, or
None when the driver fails. Domain classes are looked up by name in a map;
a name missing from the map is the `ImportError` of `resolve_class_by_name`.

As written, hydration is not bounded by `encapsulate_nested`'s `depth`
argument (see Findings). The hydration functions therefore take a flag,
`asWritten`, and a `fuel` count. Running out of fuel stands for Python's
`RecursionError`. The public operations in `Operations` use the corrected
behaviour. The class documentation promises that hydration stops after
`depth` levels, and the code does not keep that promise; the model follows
the code in `SelfReference` and the documentation in `Operations`.

Files, in dependency order:

- `text.dfy`: `Replace`, occurrence and case helpers.
- `values.dfy`: values and attribute lists.
- `exceptions.dfy`: the error datatype.
- `uuid_utils.dfy`, `sql_utils.dfy`, `reflection.dfy`, `dto.dfy`,
  `utilities.dfy`, `dao.dfy`, `validation.dfy`, `log_control.dfy`: one file
  per source module.
- `domain.dfy`: entity construction, the DTO projection and foreign-key
  housekeeping.
- `normalize_stores.dfy`: what `normalize_foreign_keys` stores in each
  entry, and when it fails.
- `hydration.dfy`: `encapsulate_nested` and the finders.
- `hydration_stores.dfy`: what `encapsulate_nested` stores under nested names
  and `@nested_list` attributes.
- `operations.dfy`: the public operations.
- `self_reference.dfy`: a self-referencing class, where hydration as written
  never ends.

## Model

| member | source | states |
|---|---|---|
| SqlUtils.SqlEscape | miniorm/sql_utils.py:3-5 | Escaping adds exactly one character per single quote, and un-doubling the quotes of the result gives the input back. |
| SqlUtils.EscapeRoundTrip | miniorm/sql_utils.py:3-5 | For every text, replacing `''` by `'` in its escape returns the text: escaping is invertible. |
| SqlUtils.EscapeNoQuote | miniorm/sql_utils.py:3-5 | A text without a single quote is left unchanged by escaping. |
| SqlUtils.SqlValue | miniorm/sql_utils.py:7-30 | The literal is `null` exactly for None. It is quoted exactly for values other than None, bool and int. A string's literal is its escape in quotes, longer by the quote count plus 2, and un-escaping the inside gives the string back. A UUID renders as its canonical text in quotes. Booleans render as `True`/`False`. |
| SqlUtils.UuidRendersAsText | miniorm/sql_utils.py:23-27 | A UUID and its canonical text render to the same SQL literal. |
| SqlUtils.NormalizeQueryParams | miniorm/sql_utils.py:32-39 | Same keys in the same order. Each UUID becomes its text, every other value is unchanged, and no UUID remains. |
| SqlUtils.NormalizeIdempotent | miniorm/sql_utils.py:32-39 | Normalising the parameters twice is the same as normalising once. |
| SqlUtils.NormalizeKeepsLiteral | miniorm/sql_utils.py:23-39 | Normalising a parameter never changes the SQL literal it renders to. |
| UuidUtils.ParseUuid | miniorm/uuid_utils.py:5 | The model's rule for `uuid.UUID(s)`: it accepts exactly the strings whose hex part (after removing `urn:`/`uuid:`, stripping braces and dropping hyphens) is 32 ASCII hex digits, and its text is those digits lower-cased in 8-4-4-4-12 groups. The source accepts more (see Left out). |
| UuidUtils.ParseShaped | miniorm/uuid_utils.py:5-6 | Every 8-4-4-4-12 hex string parses, and its canonical text is the lower-cased input. |
| UuidUtils.IsValidUuidText | miniorm/uuid_utils.py:3-8 | `is_valid_uuid` holds for a string exactly when it has the 8-4-4-4-12 hex layout, in either case. |
| UuidUtils.IsValidUuid | miniorm/uuid_utils.py:3-8 | `is_valid_uuid` never raises; it is false for every non-string and, on strings, true exactly for the 8-4-4-4-12 layout. |
| UuidUtils.ParseCanonical | miniorm/uuid_utils.py:5-6 | Canonical UUID text parses to itself and is accepted. |
| UuidUtils.CaseInsensitive | miniorm/uuid_utils.py:6 | `is_valid_uuid(s) == is_valid_uuid(s.lower())` for every string. |
| UuidUtils.BracedRejected | miniorm/uuid_utils.py:5-6 | The `{...}` form parses to the same UUID but is rejected. |
| UuidUtils.UrnRejected | miniorm/uuid_utils.py:5-6 | The `urn:uuid:...` form parses to the same UUID but is rejected. |
| UuidUtils.HyphenlessRejected | miniorm/uuid_utils.py:5-6 | The 32-digit form without hyphens parses but is rejected. |
| Reflection.Vars | miniorm/reflection_base.py:358-363 | The result reads as the object outside the ignored keys and holds no ignored key. Every entry comes from the object. |
| Reflection.SyncObjects | miniorm/reflection_base.py:170-203 | With `add_attr=False` the target keeps exactly its keys. Source keys absent or skipped as private leave the target's value. Every other source key is present afterwards; without `add_attr` only when the target already had it. Flat inputs give a flat result. |
| Reflection.SyncObjectsCopies | miniorm/reflection_base.py:197-203 | With distinct source keys, each copied key holds exactly the source's value. |
| Reflection.LooksLikeUuid | miniorm/reflection_base.py:216 | As written, `looks_like_uuid` holds exactly for what `is_valid_uuid` accepts and for such a string followed by one newline. |
| Reflection.LooksLikeUuidStrict | miniorm/reflection_base.py:206-216 | The documented check (the whole string has the UUID layout) agrees with `is_valid_uuid` on every value. |
| Reflection.LooksLikeUuidAcceptsNewline | miniorm/reflection_base.py:216 | The regex as written accepts the nil UUID followed by a newline, which `is_valid_uuid` rejects. |
| Reflection.ShapedNewlineAccepted | miniorm/reflection_base.py:216 | The same holds for every 8-4-4-4-12 string followed by a newline. |
| Reflection.NewlineSuffixFailsParse | miniorm/reflection_base.py:251-264 | Such a string fails `uuid.UUID`, because 33 characters remain once the hyphens are dropped. |
| Reflection.ParseOrKeep | miniorm/reflection_base.py:251-264 | Parsing with `except ValueError: pass` gives the UUID exactly when the string parses; otherwise the string is kept. |
| Reflection.SyncValue | miniorm/reflection_base.py:251-264 | A dict value is changed only when it is a parseable string, and then into its UUID. That happens only when the existing attribute is a UUID, or when it is absent and the string has the UUID layout. In those cases a parseable string always becomes its UUID. |
| Reflection.SyncValueSame | miniorm/reflection_base.py:216-264 | The regex's newline leniency never changes what `sync_with_dict` stores: the strict and the as-written coercion agree on every input. |
| Reflection.SyncWithDict | miniorm/reflection_base.py:247-266 | Keys absent from the dict, or skipped as private, keep the target's value. Every other dict key is present afterwards. Flat inputs give a flat result. |
| Reflection.SyncWithDictStores | miniorm/reflection_base.py:247-266 | With distinct dict keys, each stored key holds the dict value coerced against the target's attribute before the sync. |
| Reflection.Sync | miniorm/reflection_base.py:87-92 | `Object.sync` succeeds exactly on dicts and objects. A dict goes through `sync_with_dict`, an object through `sync_objects` with `add_attr=True`. |
| Reflection.DeepUpdate | miniorm/reflection_base.py:135-147 | Keys the update does not mention are unchanged, and every key it mentions is present afterwards. |
| Reflection.DeepUpdateMerges | miniorm/reflection_base.py:135-147 | An object attribute updated with a dict is merged recursively. It keeps its class and the attributes the dict does not mention. |
| Reflection.DeepUpdateOverwrites | miniorm/reflection_base.py:135-147 | Any other mentioned attribute takes the new value as given. |
| Reflection.ObjToDict | miniorm/reflection_base.py:284-306 | An object becomes a dict without ignored keys. With `clean_nested_keys`, a class declaring `foreign_keys` loses those fields. Otherwise the dict has exactly the object's non-ignored keys. A list maps element-wise with the same length. Any other value is returned unchanged. A dict-free input has no ignored key at any nesting level of the result. |
| Reflection.ConvertedValue | miniorm/reflection_base.py:287-292 | Each kept attribute holds its recursively converted value. |
| Reflection.GetNestedListMetadata | miniorm/reflection_base.py:369-379 | The metadata holds exactly the callable members that carry a `@nested_list` marker. |
| Dto.IdValue | miniorm/dto_base.py:34-44 | A string id that parses becomes its UUID. An unparseable string and every other value pass through. |
| Dto.DtoInit | miniorm/dto_base.py:34-46 | After `Dto.__init__` an `id` always exists, holding the normalised argument, or None when none was passed, appended last. All other arguments are kept. |
| Dto.DtoVars | miniorm/dto_base.py:82-98 | `Dto.vars()` holds none of `table`, `dao`, `__dao__`, `dto`, `__dto__` and agrees with the object on every other key. |
| Dto.Columns | miniorm/dto_base.py:126-140 | No UUID remains in `columns()`. With `assigned_only` no None value remains. |
| Dto.ColumnsKeys | miniorm/dto_base.py:126-132 | Every column is an attribute key outside `ignore`. With `ignore` defaulted, no infrastructure name is a column. |
| Dto.ColumnsFind | miniorm/dto_base.py:130-138 | With distinct keys, a column is missing exactly for an ignored key or, under `assigned_only`, for a None value. `False` and `0` are kept. Otherwise the column holds the value, with a UUID as its text. |
| Dto.AssignedAmongColumns | miniorm/dto_base.py:130-138 | The keys of `columns(assigned_only=True)` are among those of `columns()`. |
| Dto.AllColumnsKeys | miniorm/dto_base.py:126-138 | The keys of `columns()` are exactly the attribute keys outside `ignore`. |
| Validation.Evaluate | miniorm/validation_base.py:40-64 | A rule passes exactly when every required field is filled, a non-empty `required_any` has a filled member, and no exclusive group has two filled members. The first violated group alone is reported, whatever else is missing. Otherwise the unfilled required fields come first, in order, then one `[any of: ...]` entry. |
| Validation.MissingRequired | miniorm/validation_base.py:43-45 | The reported required fields are exactly the unfilled ones, in declaration order. |
| Validation.MissingAny | miniorm/validation_base.py:48-51 | Exactly one combined entry when `required_any` is non-empty and none of it is filled, else none. |
| Validation.Validate | miniorm/validation_base.py:34-64 | No rule for the operation means validation passes. Otherwise it passes exactly when the rule holds over the non-None attributes. A failure names the operation. |
| Validation.RequiredReported | miniorm/validation_base.py:43-45 | A required field that is absent or None is reported under its own name unless an exclusive group is violated. |
| Validation.ValidateArgs | miniorm/validation_base.py:160-192 | Only non-None keyword arguments count as filled. A required field passed only positionally fails the check. |
| Validation.ValidateAttributes | miniorm/validation_base.py:212-245 | The same three checks over the instance attributes, reported under the decorated function's name. |
| Validation.AttributesAgreeWithValidate | miniorm/validation_base.py:212-245 | The attribute decorator and the restrictions-driven check of lines 34-64 give the same result for the same rule. |
| Dao.Instance | miniorm/dao_base.py:144-146 | A DTO value counts as a DTO instance exactly when its class is a subclass, not `Dto` itself. |
| Dao.Load | miniorm/dao_base.py:178-187 | A loaded row is a flat DTO of the model class holding every row key; keys the row lacks keep the fresh instance's value. |
| Dao.SelectColumns | miniorm/dao_base.py:154-155 | The SELECT list is exactly the DTO's columns that the table has, in DTO order. |
| Dao.Literal | miniorm/dao_base.py:160-165 | A filter literal is `sql_value` for bools, ints, strings and UUIDs. A None renders as `'None'`. |
| Dao.Filtered | miniorm/dao_base.py:157-158 | The assigned columns that yield a predicate are exactly those the table has with a non-None value, kept in column order. |
| Dao.Filters | miniorm/dao_base.py:157-165 | Exactly one predicate per filtered column, in column order, so the WHERE text lists them as the DTO orders its columns. A predicate is in the list exactly when some assigned column the table has renders as it. |
| Dao.WhereClause | miniorm/dao_base.py:167-168 | No predicates give no WHERE; otherwise ` WHERE ` and the predicates joined by ` AND `. |
| Dao.FindAll | miniorm/dao_base.py:142-187 | `DtoExpectedError` exactly when the argument (a fresh model instance when None) is not a DTO-subclass instance. A driver failure is a query error. Otherwise every returned row is loaded, in order. |
| Dao.FindAllStrict | miniorm/dao_base.py:219-264 | `_find_all` refuses a DTO with no assigned column and otherwise agrees with `find_all`. |
| Dao.UnfilteredSelect | miniorm/dao_base.py:157-168 | Without an assigned column the table has, the SELECT has no WHERE and returns the whole table. |
| Dao.FindOne | miniorm/dao_base.py:364-384 | No match gives None, or `RegisterNotFoundError` when asked. Exactly one match gives that row. More than one gives None. |
| Dao.Exists | miniorm/dao_base.py:404-411 | No assigned column raises. Otherwise `exists` is true exactly when one row matches, so an ambiguous match is false. |
| Dao.InsertColumns | miniorm/dao_base.py:436-446 | The INSERT lists exactly the non-`id`, non-None columns, in column order. |
| Dao.Literals | miniorm/dao_base.py:445-446 | The rendered values are aligned with the listed columns. |
| Dao.InsertQuery | miniorm/dao_base.py:448-451 | The statement starts with `INSERT INTO <table> (` and ends with `) RETURNING id`. |
| Dao.ReturnedId | miniorm/dao_base.py:462-471 | The written-back id is the first returned row's `id`, normalised like `Dto.__init__` does, or None when no row or no `id` comes back. |
| Dao.Save | miniorm/dao_base.py:430-477 | A non-DTO is refused. A driver failure is a query error. Otherwise the result is the same DTO with `id` replaced by the returned id, every other attribute unchanged. |
| Dao.SetClauses | miniorm/dao_base.py:504-507 | There is a SET clause for every non-`id` column, None included. |
| Dao.UpdateWritesNulls | miniorm/dao_base.py:504-507 | A None column is written as `= null`, so `update` clears it. |
| Dao.UpdateQuery | miniorm/dao_base.py:504-509 | The statement starts with `UPDATE <table> SET ` and ends with `WHERE id = ` and the id's literal. |
| Dao.Update | miniorm/dao_base.py:497-520 | A missing id is an error, and a None id is refused. A success means the statement ran on a DTO with an id. With an id, the result is true when the driver succeeds and an error otherwise. |
| Dao.JointSubs | miniorm/dao_base.py:287-290 | Each supplied key's `<key>` is replaced by `%(key)s`, in parameter order. |
| Dao.SuppliedSubstituted | miniorm/dao_base.py:287-290 | No supplied parameter's `<key>` survives the substitution. |
| Dao.MissingName | miniorm/dao_base.py:293-296 | The reported name is the first `<word>` left in the query, with `\w` taken as ASCII letters, digits and `_`. None is reported exactly when no such `<word>` remains. |
| Dao.NullRewrite | miniorm/dao_base.py:299 | No `= null` or `=null` remains, and a query without them is unchanged. |
| Dao.CoerceValue | miniorm/dao_base.py:315-331 | Datetimes and dates become their text and times their `%H:%M` prefix. A string becomes a UUID exactly when it parses. Any other value is kept. No date or time value remains. |
| Dao.CoerceRow | miniorm/dao_base.py:315-331 | Every value of a row is coerced, and keys keep their order. |
| Dao.CoercedLiteral | miniorm/dao_base.py:315-331 | A string column keeps its SQL literal through the coercion exactly when it is not a UUID, or is one in canonical form. |
| Dao.JointFind | miniorm/dao_base.py:285-346 | `MissingParameterError` exactly when a `<word>` of ASCII word characters is left after substitution, naming the first one. Otherwise the null-rewritten query runs, and each returned row is coerced and loaded, in order. |
| Dao.MissingIsNotSupplied | miniorm/dao_base.py:287-296 | The parameter reported missing is never one that was supplied. |
| Dao.JointFindClassFails | miniorm/dao_base.py:332-338 | Given the DTO class instead of its dotted name, `joint_find` fails with `DtoMappingError` exactly when the statement returns a row. With no rows, or a failed statement, it agrees with the named form. |
| Domain.JoinOne | miniorm/domain_base.py:124-132 | An entity binds `key_id` to its `id` and is stored under `key` only when `key` is a declared foreign key. An entity without `id` is an `AttributeError`. A plain value is stored verbatim. No other attribute changes. |
| Domain.Join | miniorm/domain_base.py:122-134 | `join` succeeds exactly when every entity argument has an `id`. Without entities, every argument is stored verbatim and every other attribute is kept. |
| Domain.PatchValue | miniorm/domain_base.py:85-94 | A tuple entry takes the passed object's lookup field (the third item, else the field itself), only when the object and the value are truthy. A direct entry is never patched. |
| Domain.TuplePatch | miniorm/domain_base.py:85-94 | Only declared fields with a patch value change, and each holds its patch value. With no object argument nothing changes. |
| Domain.DomainInit | miniorm/domain_base.py:34-94 | Construction succeeds exactly when every entity argument has an `id`. With flat, distinct arguments, each argument overrides the class's own field. |
| Domain.ResolveFkIds | miniorm/domain_base.py:166-170 | Only declared fields change, and a flat entity is unchanged. |
| Domain.ResolveFkIdsSets | miniorm/domain_base.py:166-170 | For distinct fields, each declared field whose object has an `id` ends up holding that id. |
| Domain.CopyFields | miniorm/domain_base.py:177-184 | The DTO keeps its keys. Nested-list attributes and attributes the entity lacks keep the fresh DTO's value. Every other DTO field takes the entity's value. |
| Domain.AsDto | miniorm/domain_base.py:148-186 | The entity has its foreign-key ids resolved. The DTO is a flat instance of the class's DTO, with the fresh instance's keys. Nested-list attributes and attributes the entity lacks keep the fresh value; every other field takes the entity's value. A flat entity projects unchanged and always succeeds. |
| Domain.DomainSync | miniorm/domain_base.py:666-700 | `Domain.sync` succeeds exactly on dicts and objects, and takes both through `sync_with_dict`. |
| Domain.DomainSyncCoerces | miniorm/domain_base.py:694-699 | Unlike `Object.sync`, which copies an object's value verbatim, the Domain override applies the UUID coercion. |
| Domain.Cleanup | miniorm/domain_base.py:702-719 | No declared field remains. Every other attribute is unchanged, and nothing is added. |
| Domain.CleanupIdempotent | miniorm/domain_base.py:702-719 | Cleaning twice is cleaning once. |
| Domain.MappedField | miniorm/domain_base.py:734-740 | A name is mapped exactly when some entry's nested name is that name, and it is mapped to that entry's field. |
| Domain.NormalizeOwnId | miniorm/domain_base.py:729-731 | An `id` that `is_valid_uuid` accepts becomes its lower-cased UUID. Otherwise nothing changes. No other attribute changes. |
| Domain.NormalizeAttrs | miniorm/domain_base.py:743-750 | The attribute loop keeps the keys and their order, never deepens a value and never turns a scalar into a structure. Writing a new key fails, as the dict being iterated grows. |
| Domain.Normalize | miniorm/domain_base.py:721-752 | `normalize_foreign_keys` never adds an attribute; where it would, it fails with `RuntimeError`. Keys and order are kept, nothing gets deeper, and a flat entity stays flat. |
| NormalizeStores.LoopStep | miniorm/domain_base.py:743-750 | One pass of the attribute loop fails only with `RuntimeError`. A success keeps the keys, their order and the length, leaves each entry not yet reached as it was or a UUID, and never deepens a value or turns a scalar into a structure. |
| NormalizeStores.LoopUnfold | miniorm/domain_base.py:743-750 | The loop from one position is one pass there, then the loop from the next position; a failing pass fails the loop. |
| NormalizeStores.LoopRunIsLoop | miniorm/domain_base.py:743-750 | Running the passes one after another gives exactly the attribute loop's result. |
| NormalizeStores.StepFails | miniorm/domain_base.py:745-749 | A pass fails exactly when its entry is a valid UUID string whose mapped `*_id` field is not an attribute, or an entity whose own normalisation fails. |
| NormalizeStores.StepAt | miniorm/domain_base.py:745-749 | A successful pass sets its own entry as `LoopEntry` describes and leaves every other entry that no entry writes to unchanged. |
| NormalizeStores.LoopEntryAt | miniorm/domain_base.py:743-750 | When the loop succeeds, each entry no other entry writes to ends as `LoopEntry` describes if the loop had yet to pass it: a valid UUID string under a `*_id` name that maps to itself becomes its UUID, a nested entity becomes its successful normalisation, and anything else is kept. An entry already passed is unchanged. |
| NormalizeStores.LoopFails | miniorm/domain_base.py:743-750 | With distinct keys and no entry written by another, the loop fails exactly when some entry it has yet to pass fails as `StepFails` describes. |
| NormalizeStores.OwnIdAt | miniorm/domain_base.py:729-731 | With distinct keys, the `id` pass turns only an `id` string that `is_valid_uuid` accepts into its UUID; every other entry is unchanged. |
| NormalizeStores.NormalizeEntry | miniorm/domain_base.py:721-752 | For an entry no other entry writes to, a successful `normalize_foreign_keys` stores the UUID for a valid `id` string and for a valid string under a `*_id` name that maps to itself. A nested entity's own normalisation succeeded and the entry holds its result. Any other entry is unchanged. |
| NormalizeStores.NormalizeFails | miniorm/domain_base.py:721-752 | With distinct keys and no entry written by another, `normalize_foreign_keys` fails exactly when some entry other than a valid `id` is a valid UUID string whose mapped `*_id` field is not an attribute, or an entity whose own normalisation fails. |
| Domain.DomainDelete | miniorm/domain_base.py:646-664 | `delete` never succeeds: a falsy `id` is a `ValueError` (an absent one an `AttributeError`), and otherwise it reaches the undefined `get_dao`. |
| Domain.PersistAction | miniorm/domain_base.py:606-635 | An id means update. Without one, duplicates allowed means insert. Otherwise a single `find_one` match is updated under its id, no or an ambiguous match means insert, and a failing lookup is `SaveOperationError`. |
| Domain.PersistAdoptsUniqueMatch | miniorm/domain_base.py:613-624 | Without an id and with duplicates refused, a filter matching one row updates that row under its id. |
| Domain.PersistInsertsOnAmbiguousMatch | miniorm/domain_base.py:613-629 | A filter matching several rows counts as no match, and `persist` inserts. |
| Hydration.ClassOf | miniorm/domain_base.py:270-271 | Resolving a class by name succeeds exactly for a registered name; otherwise it is `ImportError`. |
| Hydration.LookupDefaultsDiffer | miniorm/domain_base.py:256-264 | For a tuple entry without a third item, hydration looks up by `id`, while `__init__` (line 88) reads the declared field itself. |
| Hydration.Encapsulate | miniorm/domain_base.py:246-297 | Nothing changes at `depth <= 0` or without `foreign_keys`. With every foreign key None and no `@nested_list`, no lookup happens and only the cleanup applies. With `clean_nested_keys` no declared field remains. Corrected, `depth` units of fuel never reach the recursion limit, and the result is at most `depth` levels deep. |
| Hydration.HydrateFks | miniorm/domain_base.py:254-278 | Only nested names are written. A None foreign key triggers no lookup: with every declared field None the entity is returned unchanged. Corrected, the related entities are at most `depth` deep. |
| Hydration.HydrateOne | miniorm/domain_base.py:256-277 | The related entity has the target class. An unknown class is `ImportError`. Corrected, it is at most `depth` deep. |
| Hydration.Related | miniorm/domain_base.py:275-277 | The result is an entity of the named class. Corrected, it never ends in `RecursionError` with enough fuel and is at most `depth` deep. |
| Hydration.LoadNestedLists | miniorm/domain_base.py:280-292 | Only `@nested_list` attributes are written. Corrected, they stay within the depth bound. |
| Hydration.LoadList | miniorm/domain_base.py:283-291 | A nested list holds entities of the target class. An entity without `id` fails. Corrected, it is at most `depth` deep. |
| HydrationStores.HydrateFksStores | miniorm/domain_base.py:254-278 | With distinct nested names that are not declared fields, a successful loop stores an entity of the entry's target class under the nested name of an entry whose field is not None. Under the nested name of an entry whose field is None it keeps what was there. |
| HydrationStores.LoadNestedListsStores | miniorm/domain_base.py:280-292 | With distinct `@nested_list` attributes, a successful loop stores under each one a list whose items are all entities of its target class. |
| HydrationStores.EncapsulateStoresEntity | miniorm/domain_base.py:246-297 | For `depth > 0`, a class with `foreign_keys` and nested names that are distinct and not declared fields: a successful `encapsulate_nested` holds an entity of the related class under the nested name of each entry whose field is not None, unless a `@nested_list` attribute of that name replaces it. |
| HydrationStores.EncapsulateStoresList | miniorm/domain_base.py:246-297 | For `depth > 0`, a class with `foreign_keys` and distinct `@nested_list` attributes: a successful `encapsulate_nested` holds under each such attribute a list of entities of its target class. |
| Hydration.Absorb | miniorm/domain_base.py:330-331 | Syncing a loaded row succeeds only for dicts and objects. A flat entity and a flat row give a flat result. |
| Hydration.FindEntity | miniorm/domain_base.py:311-336 | `find` fails with the validation error when its rule fails. Corrected, it never reaches the recursion limit and its result is within the depth bound. |
| Hydration.FindAllEntities | miniorm/domain_base.py:338-364 | `find_all` fails with the validation error when its rule fails. Corrected, every entity is within the depth bound. |
| Hydration.EncapsulateAll | miniorm/domain_base.py:459-486 | One entity per DTO. Any DTO that is neither dict nor object fails. Corrected, every entity is within the depth bound. |
| Hydration.RehydrateOne | miniorm/domain_base.py:360-363 | Without hydration this is `normalize_foreign_keys`. Corrected, the bound is kept. |
| Operations.DomainFind | miniorm/domain_base.py:311-336 | `find()` reports a failed rule as it is. With corrected hydration it never ends in `RecursionError` and its result nests at most one level. |
| Operations.FindWithoutMatch | miniorm/domain_base.py:327-336 | Without a single match, `find()` returns the entity as `as_dto` left it. |
| Operations.FindWithMatch | miniorm/domain_base.py:327-334 | With a single match, `find()` is `sync`, `normalize_foreign_keys` and `encapsulate_nested()` on the row. |
| Operations.DomainFindAll | miniorm/domain_base.py:338-364 | `find_all()` reports a failed rule as it is. With corrected hydration it never ends in `RecursionError` and nests at most one level. |
| Operations.DomainList | miniorm/domain_base.py:298-309 | With corrected hydration, `list()` never ends in `RecursionError` and each entity nests at most one level. |
| Operations.ListIsUnfilteredFindAll | miniorm/domain_base.py:299-309 | `list()` is `find_all()` filtered only on what the constructor sets. |
| Operations.EncapsulateDtos | miniorm/domain_base.py:459-486 | `encapsulate` gives one entity per DTO and fails on any non-dict non-object. With corrected hydration each entity nests at most one level. |
| Operations.Classify | miniorm/domain_base.py:388-410 | None, `[]`, a list not starting with an object, and a primitive are returned unchanged. A list starting with an object becomes as many entities of the class. A single object becomes one entity. |
| Operations.CallDaoMethod | miniorm/domain_base.py:380-410 | A name the DAO lacks is `AttributeError`. A DAO error passes through. A result that is not wrapped is returned as it is. |
| Operations.JointFindEntities | miniorm/domain_base.py:412-455 | Corrected to pass the DTO class by its dotted name (see Findings): DAO errors pass through, and a success is a list with one entity per row the DAO's `joint_find` returned. |
| Operations.JointFindIsDaoCall | miniorm/domain_base.py:412-455 | `joint_find` is `call_dao_method` on the DAO's own `joint_find`. |
| Operations.JointFindAsWrittenFails | miniorm/domain_base.py:429-445 | As written, with the DAO's `model` class passed as `dto_model`, `joint_find` raises `DtoMappingError` whenever the statement returns a row. It returns `[]` for no rows and passes the same errors through as the corrected call. |
| Operations.SaveInserts | miniorm/domain_base.py:569-571 | With `allow_duplicates` `save` always inserts. Otherwise it inserts exactly when `exists` answers False, and fails with `SaveOperationError` exactly when `exists` fails. |
| Operations.SaveAgreesWithPersist | miniorm/domain_base.py:569-635 | For a DTO without id and with an assigned field, `save` inserts exactly when `persist` inserts, skips exactly when `persist` updates the match, and fails exactly when `persist` fails to decide. |
| Operations.SaveSteps | miniorm/domain_base.py:566-578 | A failing insert fails the save. A success has no declared field under `clean_nested_keys` and, with corrected hydration, nests at most one level. |
| Operations.SaveEntity | miniorm/domain_base.py:537-580 | Besides validation and projection errors, every failure is `SaveOperationError`, including a failed insert. With corrected hydration a success nests at most one level. |
| Operations.PersistWrite | miniorm/domain_base.py:607-635 | An insert failure is `SaveOperationError`, an update failure `UpdateOperationError`, including the DAO's refusal of a base `Dto`. A success holds a proper DTO, and an update of a matched row writes that row's id into it. |
| Operations.PersistSteps | miniorm/domain_base.py:603-644 | `UpdateOperationError` only comes from an update decision. With a truthy id it is the error exactly when the DAO update fails. A failed insert is `SaveOperationError`. A base `Dto` is refused on either path. A flat entity stays flat. |
| Operations.PersistEntity | miniorm/domain_base.py:582-644 | `persist` fails only with validation, projection, save or update errors. With a truthy id the error is `UpdateOperationError` exactly when the DAO update fails; a base `Dto` projection gives `UpdateOperationError` with a truthy id and `SaveOperationError` without; a failed insert is `SaveOperationError`. It never hydrates, so a flat entity stays flat. |
| Operations.Reload | miniorm/domain_base.py:513-528 | A failed reload reports `find_one`'s error and never ends in `RecursionError`. With `clean_nested_keys` no declared field remains. |
| Operations.ReloadRow | miniorm/domain_base.py:516-517 | The reload needs the entity's `id` and returns a loaded row, or None on an ambiguous match. |
| Operations.UpdateSteps | miniorm/domain_base.py:505-530 | A success means the DAO reported the row updated. |
| Operations.UpdateCleanupIsRedundant | miniorm/domain_base.py:522-528 | The field removal at the end of `update` finds nothing left: hydration already removed the declared fields. |
| Operations.UpdateEntity | miniorm/domain_base.py:488-535 | Besides validation and projection errors, every failure is `UpdateOperationError`. A returned entity was written by the DAO under a non-None id, and with `clean_nested_keys` holds no declared field. |
| SelfReference.SelfLoopNeverEnds | miniorm/domain_base.py:274-277 | As written (the nested `find()` hydrates before the depth-decremented call), hydrating an entity whose one foreign key leads back to itself ends in `RecursionError` for any amount of fuel. |
| SelfReference.SelfReferenceLoops | miniorm/domain_base.py:327-334 | As written, `Node(id=1).find()` on the row `id=1, parent_id=1` ends in `RecursionError` for any amount of fuel. |
| LogControl.Run | miniorm/log_control.py:21-43 | The counter is back to its starting value after a fragment, whether it ends normally or by an exception, and no `log()` call sees it below that value. |
| LogControl.Prints | miniorm/utilities_base.py:16-31 | As written, `log` prints whatever `suppress_logs()` answers; the corrected `log` prints exactly when it answers False. |
| LogControl.TopLevelLogNotSuppressed | miniorm/log_control.py:21-27 | Outside every scope `suppress_logs()` is False and a `log()` call prints. |
| LogControl.ScopeSuppressesAll | miniorm/log_control.py:38-41 | `suppress_logs()` answers True at every `log()` call inside a scope, however deeply the scopes nest and whatever the counter was before. |
| LogControl.SuppressionIgnored | miniorm/utilities_base.py:16-31 | As written, every `log()` call inside a suppressed scope prints although `suppress_logs()` answers True there. |
| LogControl.ScopeSilent | miniorm/log_control.py:8-10 | With the corrected `log`, no call inside a suppressed scope prints. |
| LogControl.HydrationLogPrints | miniorm/domain_base.py:252-253 | As written, a `log()` call inside the scope that hydration opens prints; the corrected `log` keeps it silent. |
| LogControl.LoggingResumes | miniorm/log_control.py:39-43 | Once the outermost scope exits, `suppress_logs()` is False again and the next `log()` call prints. |
| Utilities.QueryFormat | miniorm/utilities_base.py:13-14 | The output has no leading or trailing whitespace, and whitespace only as single spaces between words. |
| Utilities.QueryFormatKeepsWords | miniorm/utilities_base.py:13-14 | `query_format` keeps the sequence of non-whitespace tokens. |
| Utilities.QueryFormatIdempotent | miniorm/utilities_base.py:13-14 | `query_format` is idempotent. |
| Utilities.WordsOfJoin | miniorm/utilities_base.py:14 | Splitting the single-space join of a word list gives the list back. |
| Utilities.LogParamText | miniorm/utilities_base.py:18-27 | Strings are quoted without escaping, dates and datetimes show their date in quotes, times show `%H:%M:%S` in quotes, None becomes `NULL`, and booleans, integers and UUIDs show their `str()`. |
| Utilities.LogText | miniorm/utilities_base.py:16-29 | Without parameters only the formatting applies; the output is always in normal form. |
| Utilities.PlaceholdersReplaced | miniorm/utilities_base.py:17-27 | Each `%(key)s` placeholder is replaced and none is left, given rendered values that do not recreate it. |
| Utilities.LogMatchesSqlIffNoQuote | miniorm/utilities_base.py:19-20 | `log` shows a string as its SQL literal exactly when the string has no single quote. |

## Left out

- The database driver, the `.env` loading and the connection lifecycle are not modelled. The database is a parameter, and a driver failure is `execute` returning None. The exception wrapping around `db.execute` becomes the `QueryExecution` error.
- `resolve_class_by_name` and the module scanning behind it are a map from names to classes.
- `ReflectionUtils.new_instance` and `getdao` are not modelled. A DTO class is looked up by name, and a fresh instance is its declared fields with the normalised `id`. Where `joint_find` hands `new_instance` a class instead of a name, `Dao.JointFindWithClass` models the failure that follows (see Findings).
- Floats are not values of the model. `sql_value`, the filter literals and the `log` rendering cover every other scalar.
- Dates and times are integer fields, and their text is zero-padded formatting rather than `strftime`.
- A dict or list value in a DTO, and its `str()`, are not modelled. A projection holding one is refused with `TypeMismatch`, and SQL text is built only from flat DTOs.
- UuidUtils.ParseUuid: `uuid.UUID` is modelled on strings only, and the 32 characters must be ASCII hex digits. `int(hex, 16)` is more lenient, and these leniencies are left out: surrounding whitespace, a `0x` prefix, a leading `+`, underscores between digits, and non-ASCII decimal digits. `Dto.IdValue`, `Reflection.ParseOrKeep` and `Dao.CoerceValue` therefore keep such a string where the source turns it into a UUID.
- `Domain.delete` is modelled up to its `id` check. It then calls `get_dao`, which no class defines, and `Dao` has no `delete`.
- `validate_args_being_fixed` is not modelled: it relies on `inspect.signature`.
- The first `normalize_foreign_keys` (`domain_base.py` lines 188-216) is not modelled. The definition at line 721 replaces it.
- Printing is not modelled: `print_color`, the print in `log`, the `__str__`/`__repr__` JSON dumps and `list_utils.py`. The `log()` call in `update`'s error handler is dropped for the same reason. Whether a `log()` call prints is stated by `LogControl.Prints`; as written, `log_suppressed` changes only what `suppress_logs()` answers (see Findings).
- Exception messages are not modelled; errors are the constructors of one datatype.
- `nesting_utils.py`'s decorator is not modelled. A class's `dir()` is given as data, with its `@nested_list` markers.
- `pgsql.py`, `lib_explorer.py` and `setup.py` are not part of this model.
- `RecursionError` is represented by running out of `fuel`. The proofs show that corrected hydration never needs more fuel than its depth.
- `call_dao_method` takes the DAO's methods as a map from name to the result each returns for the given parameters.
- Operations.SaveEntity: the `as_dto()` call in the error handler is taken to succeed. The reported error is `SaveOperationError` either way.
- Operations.PersistEntity: the `as_dto()` call in the error handler is taken to succeed. The reported error is `SaveOperationError` either way.
- Operations.DomainList: hydrates with the corrected `encapsulate_nested`, as `Operations.DomainFindAll` does.
- Dao.MissingName: `\w` is taken as ASCII letters, digits and `_`. Python's `\w` on a str pattern also matches non-ASCII letters and digits, so a placeholder such as `<é>` is not reported.
- Dao.JointFind: inherits the ASCII `\w` of `Dao.MissingName`. A query left with `<é>` is run where the source raises `MissingParameterError`.
- Operations.DomainFind: hydrates with the corrected `encapsulate_nested`. As written, the one-level result fails for any chain of two links A to B to C, because B's `find()` hydrates C at its default depth of 1; the no-`RecursionError` result fails for a cycle such as a self-referencing row (`SelfReference.SelfReferenceLoops`).
- Operations.DomainFindAll: hydrates with the corrected `encapsulate_nested`. As written, the one-level result fails for any chain of two links A to B to C, because B's `find()` hydrates C at its default depth of 1; the no-`RecursionError` result fails for a cycle such as a self-referencing row (`SelfReference.SelfReferenceLoops`).
- Operations.EncapsulateDtos: hydrates with the corrected `encapsulate_nested`. As written, the one-level result fails for any chain of two links A to B to C, because B's `find()` hydrates C at its default depth of 1, and a cycle such as a self-referencing row ends in `RecursionError` (`SelfReference.SelfReferenceLoops`).
- Operations.SaveSteps: hydrates with the corrected `encapsulate_nested`. As written, the one-level result fails for any chain of two links A to B to C, because B's `find()` hydrates C at its default depth of 1, and a cycle such as a self-referencing row ends in `RecursionError` (`SelfReference.SelfReferenceLoops`).
- Operations.SaveEntity: hydrates with the corrected `encapsulate_nested`. As written, the one-level result fails for any chain of two links A to B to C, because B's `find()` hydrates C at its default depth of 1, and a cycle such as a self-referencing row ends in `RecursionError` (`SelfReference.SelfReferenceLoops`).
- Only instance attributes are modelled. Python's `hasattr` and `getattr` also see class attributes and methods, so `sync_with_dict`, `deep_update` and the foreign-key id resolution can take a class-level name as present; the model sees only the instance's own attributes.
- Objects are values, not shared references. The source updates nested objects in place in `deep_update` and `normalize_foreign_keys`, so an object held under two attributes sees both updates; the model copies it, and each attribute changes on its own.
- Operations.UpdateEntity: the `as_dto()` call in the error handler is taken to succeed. The reported error is `UpdateOperationError` either way.
- Operations.UpdateEntity: no depth bound is stated for the result, because the entity synced with the reloaded row keeps its earlier attributes, which may already hold nested entities.
- Operations.Reload: no depth bound is stated, for the same reason.
- Domain.ResolveFkIdsSets: requires that no declared field reads back as another entry's object name, as dict keys like `a_id` and `a_id_id` would.
- Domain.PatchValue: for a truthy non-object argument under the nested name, `getattr` is taken to find no lookup field.
- Hydration.Absorb: only flatness is stated. The values stored are described by `Domain.DomainSync`, and by `NormalizeStores.NormalizeEntry` and `NormalizeStores.NormalizeFails` for the entries they cover.
- NormalizeStores.NormalizeEntry: states nothing about an entry that another entry writes to, that is, one whose key is the mapped `*_id` field of another entry holding a valid UUID string. It also assumes distinct keys, as Python attributes are.
- NormalizeStores.NormalizeFails: assumes distinct keys and no entry written by another.
- NormalizeStores.LoopEntryAt: states nothing about an entry that another entry writes to.
- HydrationStores.HydrateFksStores: assumes distinct nested names that are not declared fields. With two entries sharing a nested name the later entity wins, and that is not stated.
- HydrationStores.EncapsulateStoresEntity: assumes the same, and states nothing about a nested name that is also a `@nested_list` attribute, which the list loop overwrites.
- HydrationStores.EncapsulateStoresList: assumes distinct `@nested_list` attributes.
- Domain.Normalize: its own contract states keys, depth, flatness and the `RuntimeError` only. What it stores in each entry is stated by `NormalizeStores.NormalizeEntry`, and when it fails by `NormalizeStores.NormalizeFails`, under their assumptions.
- Domain.NormalizeAttrs: its own contract states keys, depth and the `RuntimeError` only. What it stores is stated by `NormalizeStores.LoopEntryAt` and `NormalizeStores.LoopFails`, through `NormalizeStores.LoopRunIsLoop`.
- Hydration.HydrateFks: its own contract does not state what is stored under a nested name. `HydrationStores.HydrateFksStores` states it, under its assumptions.
- Hydration.LoadNestedLists: its own contract does not state what is stored. `HydrationStores.LoadNestedListsStores` states it, under its assumptions.
- Hydration.Encapsulate: its own contract does not state what is stored. `HydrationStores.EncapsulateStoresEntity` and `HydrationStores.EncapsulateStoresList` state it, under their assumptions.
- Operations.JointFindEntities: models the corrected call, which names the DTO class. As written, any statement that returns a row raises `DtoMappingError` (`Operations.JointFindAsWrittenFails`, see Findings).

## Findings

| source | as written | input that shows it | evidently intended | confidence | as-written member | corrected member |
|---|---|---|---|---|---|---|
| miniorm/reflection_base.py:216 | `re.match` with a pattern ending in `$` also matches before a final newline | `"00000000-0000-0000-0000-000000000000\n"` looks like a UUID although `is_valid_uuid` rejects it | the whole string has the 8-4-4-4-12 layout, as the docstring says; `Reflection.SyncValueSame` shows that `sync_with_dict` stores the same either way | not executed | Reflection.LooksLikeUuidAcceptsNewline | Reflection.LooksLikeUuidStrict |
| miniorm/domain_base.py:274-277 | the nested `find()` runs `encapsulate_nested()` (line 334) at its default depth of 1 before `encapsulate_nested(depth - 1)` runs, so `depth` bounds nothing | class `Node` with `foreign_keys = {"parent_id": "Node"}` and the row `id = 1, parent_id = 1`: `Node(id=1).find()` ends in `RecursionError` | hydration stops after `depth` levels, as the method's docstring says | not executed | SelfReference.SelfReferenceLoops | Hydration.Encapsulate |
| miniorm/utilities_base.py:16-31 | `log` never calls `suppress_logs()`, so `with log_suppressed():` silences nothing | the SELECT that `find_all` logs (dao_base.py line 170) while `encapsulate_nested` runs the nested `find()` inside its scope (domain_base.py lines 252-253) still prints | `log` returns without printing while `suppress_logs()` answers True, as the module docstring of `log_control.py` says | high, not executed | LogControl.SuppressionIgnored | LogControl.ScopeSilent |
| miniorm/domain_base.py:429-431 | `joint_find` passes the DAO's `model`, a class, as `dto_model`. `new_instance` hands it to `pydoc.locate` (reflection_base.py lines 329-331), which needs a dotted name, so mapping the first row raises and the DAO reports `DtoMappingError` (dao_base.py lines 332-338) | any `Domain.joint_find` call whose statement returns at least one row | each row is mapped to an instance of the DAO's DTO class, as the method's docstring says | high, not executed | Operations.JointFindAsWrittenFails | Operations.JointFindEntities |

=== FILE: dao.dfy ===
/** The Data Access Object: SQL text built from a flat DTO, and the result
    logic around the database call. The database is a parameter: the valid
    columns of a table, and the rows a statement returns (or a failure). */
module Dao {
  import opened Text
  import opened Values
  import opened Exceptions
  import opened UuidUtils
  import opened SqlUtils
  import opened Reflection
  import opened Dto
  import Utilities

  /** The database as the DAO sees it. `execute` returns None when the driver
      fails on the statement. */
  datatype Db = Db(columns: string -> seq<string>, execute: (string, seq<Attr>) -> Option<seq<Row>>)

  /** The database and the DTO classes by name (`ReflectionUtils.new_instance`). */
  datatype Env = Env(db: Db, dtoClass: string -> DtoClass)

  /** `isinstance(x, Dto) and type(x) is not Dto` */
  predicate IsDtoInstance(v: Value) {
    v.VObj? && v.kind.DtoKind? && v.kind.cls != "Dto"
  }

  /** DTOs are flat records of a table row. */
  predicate FlatDto(v: Value) {
    IsDtoInstance(v) ==> Flat(v.attrs)
  }

  /** A DTO of class `cls` holding `row`. */
  function Instance(cls: string, row: Row): (v: Value)
    ensures IsDtoInstance(v) <==> cls != "Dto"
  {
    VObj(DtoKind(cls), row)
  }

  /** `new_instance(dto.model())` followed by `instance.sync(row)`. */
  function Load(env: Env, cls: string, row: Row): (v: Value)
    ensures v.VObj? && v.kind == DtoKind(cls) && Flat(v.attrs)
    ensures forall k :: Has(row, k) ==> Has(v.attrs, k)
    ensures forall k :: !Has(row, k) ==> Find(v.attrs, k) == Find(Blank(env.dtoClass(cls)), k)
  {
    Instance(cls, SyncWithDict(Blank(env.dtoClass(cls)), row, false))
  }

  /** Every row loaded, in order. */
  function LoadAll(env: Env, cls: string, rows: seq<Row>): (r: seq<Value>)
    ensures |r| == |rows|
    ensures forall i :: 0 <= i < |rows| ==> r[i] == Load(env, cls, rows[i])
  {
    seq(|rows|, i requires 0 <= i < |rows| => Load(env, cls, rows[i]))
  }

  // ---------------------------------------------------------------------------
  // SELECT
  // ---------------------------------------------------------------------------

  /** The DTO's column keys that the table has, in DTO order. */
  function SelectColumns(cols: seq<Attr>, valid: seq<string>): (r: seq<string>)
    ensures forall k :: k in r <==> Has(cols, k) && k in valid
    ensures IsSubsequence(r, Keys(cols))
    decreases |cols|
  {
    if cols == [] then []
    else
      var rest := SelectColumns(cols[1..], valid);
      assert Keys(cols) == [cols[0].key] + Keys(cols[1..]);
      if cols[0].key in valid then
        var r := [cols[0].key] + rest;
        assert r[1..] == rest;
        r
      else rest
  }

  /** How a filter or an INSERT renders a non-None value: booleans and
      integers bare, UUIDs quoted, anything else quoted after escaping. */
  function Literal(v: Value): (r: string)
    requires IsScalar(v)
    ensures v.VBool? || v.VInt? || v.VStr? || v.VUuid? ==> r == SqlValue(v)
    ensures '\'' !in PyStr(v) ==> r == SqlValue(v) || v.VNone?
    ensures v.VNone? ==> r == "'None'"
  {
    match v
    case VBool(_) | VInt(_) => PyStr(v)
    case VUuid(u) => Quote(u)
    case VNone | VStr(_) | VDateTime(_, _, _, _, _, _) | VDate(_, _, _) | VTime(_, _, _) | VOther(_) =>
      assert '\'' !in PyStr(v) ==> SqlEscape(PyStr(v)) == PyStr(v) by {
        if '\'' !in PyStr(v) { EscapeNoQuote(PyStr(v)); }
      }
      Quote(SqlEscape(PyStr(v)))
  }

  /** `k = literal` */
  function Predicate(k: string, v: Value): string
    requires IsScalar(v)
  {
    k + " = " + Literal(v)
  }

  /** The assigned columns that give a WHERE predicate: those the table has
      and whose value is not None, in column order. */
  function Filtered(present: seq<Attr>, valid: seq<string>): (u: seq<Attr>)
    requires Flat(present)
    ensures Flat(u)
    ensures forall a :: a in u <==> a in present && a.key in valid && a.val != VNone
    ensures IsSubsequence(Keys(u), Keys(present)) && |u| <= |present|
    decreases |present|
  {
    if present == [] then []
    else
      var a := present[0];
      var rest := Filtered(present[1..], valid);
      assert Keys(present) == [a.key] + Keys(present[1..]);
      assert forall b :: b in present <==> b == a || b in present[1..];
      if a.key in valid && a.val != VNone then
        var u := [a] + rest;
        assert u[1..] == rest && Keys(u) == [a.key] + Keys(rest);
        u
      else
        SubsequenceCons(Keys(rest), Keys(present[1..]), a.key);
        rest
  }

  /** The WHERE predicates: exactly one per filtered column, in column order. */
  /** Some column of `present` that the table has and whose value is not None
      renders as the predicate `p`. */
  ghost predicate Chosen(present: seq<Attr>, valid: seq<string>, p: string)
    requires Flat(present)
  {
    exists i :: 0 <= i < |present| && present[i].key in valid && present[i].val != VNone
                && p == Predicate(present[i].key, present[i].val)
  }

  function Filters(present: seq<Attr>, valid: seq<string>): (r: seq<string>)
    requires Flat(present)
    ensures var u := Filtered(present, valid);
      |r| == |u| && forall j :: 0 <= j < |r| ==> r[j] == Predicate(u[j].key, u[j].val)
    ensures forall p :: p in r <==> Chosen(present, valid, p)
    ensures |r| <= |present|
  {
    var u := Filtered(present, valid);
    var r := seq(|u|, j requires 0 <= j < |u| => Predicate(u[j].key, u[j].val));
    FilteredPredicates(present, valid, u, r);
    r
  }

  /** A predicate comes from a filtered column exactly when some column of
      `present` that the table has, holding a value, renders as it. */
  lemma FilteredPredicates(present: seq<Attr>, valid: seq<string>, u: seq<Attr>, r: seq<string>)
    requires Flat(present) && u == Filtered(present, valid)
    requires |r| == |u| && forall j :: 0 <= j < |r| ==> r[j] == Predicate(u[j].key, u[j].val)
    ensures forall p :: p in r <==> Chosen(present, valid, p)
  {
    forall p ensures p in r <==> Chosen(present, valid, p) {
      if p in r { PredicateChosen(present, valid, u, r, p); }
      if Chosen(present, valid, p) { ChosenPredicate(present, valid, u, r, p); }
    }
  }

  lemma PredicateChosen(present: seq<Attr>, valid: seq<string>, u: seq<Attr>, r: seq<string>, p: string)
    requires Flat(present) && Flat(u)
    requires forall a :: a in u <==> a in present && a.key in valid && a.val != VNone
    requires |r| == |u| && forall j :: 0 <= j < |r| ==> r[j] == Predicate(u[j].key, u[j].val)
    requires p in r
    ensures Chosen(present, valid, p)
  {
    var j :| 0 <= j < |r| && r[j] == p;
    assert u[j] in u;
    var i :| 0 <= i < |present| && present[i] == u[j];
  }

  lemma ChosenPredicate(present: seq<Attr>, valid: seq<string>, u: seq<Attr>, r: seq<string>, p: string)
    requires Flat(present) && Flat(u)
    requires forall a :: a in u <==> a in present && a.key in valid && a.val != VNone
    requires |r| == |u| && forall j :: 0 <= j < |r| ==> r[j] == Predicate(u[j].key, u[j].val)
    requires Chosen(present, valid, p)
    ensures p in r
  {
    var i :| 0 <= i < |present| && present[i].key in valid && present[i].val != VNone
             && p == Predicate(present[i].key, present[i].val);
    assert present[i] in u;
    var j :| 0 <= j < |u| && u[j] == present[i];
    assert r[j] == p;
  }

  /** ` WHERE p1 AND p2 ...`, or nothing at all without predicates. */
  function WhereClause(filters: seq<string>): (r: string)
    ensures r == "" <==> filters == []
    ensures filters != [] ==> StartsWith(r, " WHERE ") && r[7..] == JoinSep(filters, " AND ")
  {
    if filters == [] then "" else " WHERE " + JoinSep(filters, " AND ")
  }

  /** The SELECT statement `find_all` sends for a DTO. */
  function SelectQuery(env: Env, dto: Value): string
    requires IsDtoInstance(dto) && Flat(dto.attrs)
  {
    var table := env.dtoClass(dto.kind.cls).table;
    var valid := env.db.columns(table);
    var cols := Columns(dto.attrs, None, false);
    var present := Columns(dto.attrs, None, true);
    "SELECT " + JoinSep(SelectColumns(cols, valid), ", ") + " FROM " + table + WhereClause(Filters(present, valid))
  }

  /** `dao.find_all(dto)`: None stands for a fresh instance of the DAO's model. */
  function FindAll(env: Env, model: string, dto: Option<Value>): (r: Result<seq<Value>>)
    requires dto.Some? ==> FlatDto(dto.value)
    ensures var d := if dto.Some? then dto.value else Instance(model, Blank(env.dtoClass(model)));
      && (r == Err(DtoExpected) <==> !IsDtoInstance(d))
      && (IsDtoInstance(d) ==>
            var rows := env.db.execute(SelectQuery(env, d), []);
            && (rows.None? ==> r == Err(QueryExecution(SelectQuery(env, d))))
            && (rows.Some? ==> r == Ok(LoadAll(env, d.kind.cls, rows.value))))
  {
    var d := if dto.Some? then dto.value else Instance(model, Blank(env.dtoClass(model)));
    if !IsDtoInstance(d) then Err(DtoExpected)
    else
      var q := SelectQuery(env, d);
      match env.db.execute(q, [])
      case None => Err(QueryExecution(q))
      case Some(rows) => Ok(LoadAll(env, d.kind.cls, rows))
  }

  /** `dao._find_all(dto)`: also refuses a DTO with no assigned column. */
  function FindAllStrict(env: Env, dto: Value): (r: Result<seq<Value>>)
    requires FlatDto(dto)
    ensures !IsDtoInstance(dto) ==> r == Err(DtoExpected)
    ensures IsDtoInstance(dto) ==>
      (r == Err(DtoMissingAssignedFields) <==> Columns(dto.attrs, None, true) == [])
    ensures IsDtoInstance(dto) && Columns(dto.attrs, None, true) != [] ==> r == FindAll(env, dto.kind.cls, Some(dto))
  {
    if !IsDtoInstance(dto) then Err(DtoExpected)
    else if Columns(dto.attrs, None, true) == [] then Err(DtoMissingAssignedFields)
    else FindAll(env, dto.kind.cls, Some(dto))
  }

  /** With no assigned column there is no WHERE clause: `find_all` returns
      the whole table. */
  lemma UnfilteredSelect(present: seq<Attr>, valid: seq<string>)
    requires Flat(present)
    requires forall i :: 0 <= i < |present| ==> present[i].key !in valid || present[i].val == VNone
    ensures WhereClause(Filters(present, valid)) == ""
  {
  }

  // ---------------------------------------------------------------------------
  // find_one / exists
  // ---------------------------------------------------------------------------

  /** `dao.find_one(dto, raise_if_not_found)`: the single match, None for no
      match or for an ambiguous one. */
  function FindOne(env: Env, dto: Value, raiseIfNotFound: bool): (r: Result<Option<Value>>)
    requires FlatDto(dto)
    ensures !IsDtoInstance(dto) ==> r == Err(DtoExpected)
    ensures IsDtoInstance(dto) ==>
      var all := FindAll(env, dto.kind.cls, Some(dto));
      && (all.Err? ==> r == Err(all.error))
      && (all.Ok? && |all.value| == 0 ==> r == if raiseIfNotFound then Err(RegisterNotFound) else Ok(None))
      && (all.Ok? && |all.value| == 1 ==> r == Ok(Some(all.value[0])))
      && (all.Ok? && |all.value| > 1 ==> r == Ok(None))
  {
    if !IsDtoInstance(dto) then Err(DtoExpected)
    else
      var results :- FindAll(env, dto.kind.cls, Some(dto));
      if |results| == 0 then (if raiseIfNotFound then Err(RegisterNotFound) else Ok(None))
      else if |results| > 1 then Ok(None)
      else Ok(Some(results[0]))
  }

  /** `dao.exists(dto)`: true exactly when the filter matches one row, so an
      ambiguous match counts as absent. */
  function Exists(env: Env, dto: Value): (r: Result<bool>)
    requires FlatDto(dto)
    ensures !IsDtoInstance(dto) ==> r == Err(DtoExpected)
    ensures IsDtoInstance(dto) && Columns(dto.attrs, None, true) == [] ==> r == Err(DtoMissingAssignedFields)
    ensures IsDtoInstance(dto) && Columns(dto.attrs, None, true) != [] ==>
      var all := FindAll(env, dto.kind.cls, Some(dto));
      && (all.Err? ==> r == Err(all.error))
      && (all.Ok? ==> r == Ok(|all.value| == 1))
  {
    if !IsDtoInstance(dto) then Err(DtoExpected)
    else if Columns(dto.attrs, None, true) == [] then Err(DtoMissingAssignedFields)
    else
      var obj :- FindOne(env, dto, false);
      Ok(obj.Some?)
  }

  // ---------------------------------------------------------------------------
  // INSERT
  // ---------------------------------------------------------------------------

  /** The columns an INSERT lists: every column but `id` and the None ones. */
  function InsertColumns(cols: seq<Attr>): (r: seq<Attr>)
    ensures forall x {:trigger x in r} {:trigger x in cols} :: x in r <==> x in cols && x.key != "id" && x.val != VNone
    ensures IsSubsequence(Keys(r), Keys(cols))
    ensures Flat(cols) ==> Flat(r)
    decreases |cols|
  {
    if cols == [] then []
    else
      var rest := InsertColumns(cols[1..]);
      assert Keys(cols) == [cols[0].key] + Keys(cols[1..]);
      if cols[0].key != "id" && cols[0].val != VNone then
        var r := [cols[0]] + rest;
        assert r[1..] == rest;
        assert Keys(r) == [cols[0].key] + Keys(rest);
        r
      else
        SubsequenceCons(Keys(rest), Keys(cols[1..]), cols[0].key);
        rest
  }

  /** The rendered values, aligned with the listed columns. */
  function Literals(cols: seq<Attr>): (r: seq<string>)
    requires Flat(cols)
    ensures |r| == |cols|
    ensures forall i :: 0 <= i < |cols| ==> r[i] == Literal(cols[i].val)
  {
    seq(|cols|, i requires 0 <= i < |cols| => Literal(cols[i].val))
  }

  /** `INSERT INTO t (k1, k2) VALUES (v1, v2) RETURNING id` */
  function InsertQuery(table: string, cols: seq<Attr>): (r: string)
    requires Flat(cols)
    ensures StartsWith(r, "INSERT INTO " + table + " (")
    ensures EndsWith(r, ") RETURNING id")
  {
    var ic := InsertColumns(cols);
    var head := "INSERT INTO " + table + " (";
    var mid := JoinSep(Keys(ic), ", ") + ") VALUES (" + JoinSep(Literals(ic), ", ");
    Framed(head, mid, ") RETURNING id");
    head + mid + ") RETURNING id"
  }

  /** The id `save` writes back: the `id` of the first returned row, a string
      parsed as in `Dto.__init__`, or None when no row or no `id` came back. */
  function ReturnedId(rows: seq<Row>): (r: Value)
    ensures rows != [] && Has(rows[0], "id") ==> r == IdValue(Get(rows[0], "id"))
    ensures rows == [] || !Has(rows[0], "id") ==> r == VNone
  {
    if rows != [] && Has(rows[0], "id") then IdValue(Get(rows[0], "id")) else VNone
  }

  /** `dao.save(dto)`: the DTO after the write-back of its id. */
  function Save(env: Env, dto: Value): (r: Result<Value>)
    requires FlatDto(dto)
    ensures !IsDtoInstance(dto) ==> r == Err(DtoExpected)
    ensures IsDtoInstance(dto) ==>
      var q := InsertQuery(env.dtoClass(dto.kind.cls).table, Columns(dto.attrs, None, false));
      && (env.db.execute(q, []).None? ==> r == Err(QueryExecution(q)))
      && (env.db.execute(q, []).Some? ==>
            && r.Ok? && r.value.VObj? && r.value.kind == dto.kind
            && Find(r.value.attrs, "id") == Some(ReturnedId(env.db.execute(q, []).value))
            && (forall k :: k != "id" ==> Find(r.value.attrs, k) == Find(dto.attrs, k)))
    ensures r.Ok? ==> IsDtoInstance(r.value) && Flat(r.value.attrs)
  {
    if !IsDtoInstance(dto) then Err(DtoExpected)
    else
      var q := InsertQuery(env.dtoClass(dto.kind.cls).table, Columns(dto.attrs, None, false));
      match env.db.execute(q, [])
      case None => Err(QueryExecution(q))
      case Some(rows) =>
        var id := ReturnedId(rows);
        assert IsScalar(id) by {
          if rows != [] && Has(rows[0], "id") {
            assert Attr("id", Find(rows[0], "id").value) in rows[0];
          }
        }
        PutFlat(dto.attrs, "id", id);
        Ok(VObj(dto.kind, Put(dto.attrs, "id", id)))
  }

  // ---------------------------------------------------------------------------
  // UPDATE
  // ---------------------------------------------------------------------------

  /** `k = sql_value(v)` for every column but `id`, None included. */
  function SetClauses(cols: seq<Attr>): (r: seq<string>)
    requires Flat(cols)
    ensures forall p :: p in r <==>
      exists i :: 0 <= i < |cols| && cols[i].key != "id" && p == cols[i].key + " = " + SqlValue(cols[i].val)
    decreases |cols|
  {
    if cols == [] then []
    else
      var rest := SetClauses(cols[1..]);
      assert forall i :: 0 < i < |cols| ==> cols[i] == cols[1..][i - 1];
      if cols[0].key != "id" then
        var r := [cols[0].key + " = " + SqlValue(cols[0].val)] + rest;
        assert r[1..] == rest;
        r
      else rest
  }

  /** `UPDATE t SET ... WHERE id = <id literal>` */
  function UpdateQuery(table: string, cols: seq<Attr>, id: Value): (r: string)
    requires Flat(cols) && IsScalar(id)
    ensures StartsWith(r, "UPDATE " + table + " SET ")
    ensures EndsWith(r, " WHERE id = " + SqlValue(id))
  {
    var head := "UPDATE " + table + " SET ";
    var tail := " WHERE id = " + SqlValue(id);
    var r := head + JoinSep(SetClauses(cols), ", ") + tail;
    assert r[..|head|] == head;
    assert r[|r| - |tail|..] == tail;
    r
  }

  /** A None column is written as `= null`: `update` clears it. */
  lemma {:induction false} UpdateWritesNulls(cols: seq<Attr>, i: nat)
    requires Flat(cols) && i < |cols|
    requires cols[i].key != "id" && cols[i].val == VNone
    ensures cols[i].key + " = null" in SetClauses(cols)
    decreases i
  {
    if i == 0 {
      assert SqlValue(cols[0].val) == "null";
      assert SetClauses(cols)[0] == cols[0].key + " = null";
    } else {
      assert cols[i] == cols[1..][i - 1];
      UpdateWritesNulls(cols[1..], i - 1);
    }
  }

  /** `dao.update(dto)` */
  function Update(env: Env, dto: Value): (r: Result<bool>)
    requires FlatDto(dto)
    ensures !IsDtoInstance(dto) ==> r == Err(DtoExpected)
    ensures IsDtoInstance(dto) && !Has(dto.attrs, "id") ==> r == Err(AttributeMissing("id"))
    ensures IsDtoInstance(dto) && Find(dto.attrs, "id") == Some(VNone) ==> r == Err(DtoMissingAssignedFields)
    ensures r.Ok? ==> r.value && IsDtoInstance(dto) && Get(dto.attrs, "id") != VNone
    ensures IsDtoInstance(dto) && Get(dto.attrs, "id") != VNone ==>
      var q := UpdateQuery(env.dtoClass(dto.kind.cls).table, Columns(dto.attrs, None, false), Get(dto.attrs, "id"));
      r == (if env.db.execute(q, []).Some? then Ok(true) else Err(QueryExecution(q)))
  {
    if !IsDtoInstance(dto) then Err(DtoExpected)
    else match Find(dto.attrs, "id")
      case None => Err(AttributeMissing("id"))
      case Some(id) =>
        if id == VNone then Err(DtoMissingAssignedFields)
        else
          assert Attr("id", id) in dto.attrs;
          var q := UpdateQuery(env.dtoClass(dto.kind.cls).table, Columns(dto.attrs, None, false), id);
          if env.db.execute(q, []).Some? then Ok(true) else Err(QueryExecution(q))
  }

  // ---------------------------------------------------------------------------
  // joint_find
  // ---------------------------------------------------------------------------

  /** `\w` restricted to ASCII. */
  predicate IsWordChar(c: char) {
    ('a' <= c <= 'z') || ('A' <= c <= 'Z') || ('0' <= c <= '9') || c == '_'
  }

  /** A non-empty run of word characters: what `\w+` matches. */
  predicate IsWord(w: string) {
    |w| > 0 && forall i :: 0 <= i < |w| ==> IsWordChar(w[i])
  }

  /** `<key>` */
  function Marker(key: string): (m: string)
    ensures |m| == |key| + 2 && m[0] == '<'
  {
    "<" + key + ">"
  }

  /** The replacements `joint_find` performs, in parameter order. */
  function JointSubs(params: seq<Attr>): (subs: seq<Sub>)
    ensures |subs| == |params| && PatternsNonEmpty(subs)
    ensures forall i :: 0 <= i < |params| ==>
              subs[i] == Sub(Marker(params[i].key), Utilities.Placeholder(params[i].key))
  {
    seq(|params|, i requires 0 <= i < |params| => Sub(Marker(params[i].key), Utilities.Placeholder(params[i].key)))
  }

  /** Length of the leading run of word characters. */
  function WordRun(s: string): (n: nat)
    ensures n <= |s|
    ensures forall j :: 0 <= j < n ==> IsWordChar(s[j])
    ensures n < |s| ==> !IsWordChar(s[n])
    decreases |s|
  {
    if s != [] && IsWordChar(s[0]) then 1 + WordRun(s[1..]) else 0
  }

  /** `<(\w+)>` matches at the start of `s`. */
  predicate PlaceholderAt(s: string) {
    && |s| > 0 && s[0] == '<'
    && var n := WordRun(s[1..]);
       n > 0 && 1 + n < |s| && s[1 + n] == '>'
  }

  /** The group the regex captures at the start of `s`. */
  function PlaceholderName(s: string): (w: string)
    requires PlaceholderAt(s)
    ensures IsWord(w) && StartsWith(s, Marker(w))
  {
    var w := s[1..1 + WordRun(s[1..])];
    assert s[..|w| + 2] == Marker(w);
    w
  }

  /** The leftmost position at or after `i` where the regex matches. */
  function FirstPlaceholder(s: string, i: nat): (r: Option<nat>)
    ensures r.Some? ==> i <= r.value < |s| && PlaceholderAt(s[r.value..])
    ensures r.Some? ==> forall j :: i <= j < r.value ==> !PlaceholderAt(s[j..])
    ensures r.None? ==> forall j :: i <= j < |s| ==> !PlaceholderAt(s[j..])
    decreases |s| - i
  {
    if i >= |s| then None
    else if PlaceholderAt(s[i..]) then Some(i)
    else FirstPlaceholder(s, i + 1)
  }

  /** A word between angle brackets is a match of the regex. */
  lemma {:induction false} MarkerMatches(s: string, w: string)
    requires IsWord(w) && StartsWith(s, Marker(w))
    ensures PlaceholderAt(s) && PlaceholderName(s) == w
  {
    assert s[..|w| + 2] == "<" + w + ">";
    assert s[1..][..|w|] == s[..|w| + 2][1..|w| + 1] == w;
    assert s[1..][|w|] == s[..|w| + 2][|w| + 1] == '>';
    WordRunOfWord(s[1..], w);
  }

  lemma {:induction false} WordRunOfWord(t: string, w: string)
    requires IsWord(w) && |w| < |t| && t[..|w|] == w && t[|w|] == '>'
    ensures WordRun(t) == |w|
    decreases |w|
  {
    if |w| > 1 {
      assert t[1..][..|w| - 1] == w[1..];
      WordRunOfWord(t[1..], w[1..]);
    } else {
      assert t[1..][0] == '>';
    }
  }

  /** Every occurrence of a marker is found by the scan. */
  lemma {:induction false} OccurrenceFound(s: string, w: string)
    requires IsWord(w) && Occurs(s, Marker(w))
    ensures exists j :: 0 <= j < |s| && PlaceholderAt(s[j..])
    decreases |s|
  {
    if StartsWith(s, Marker(w)) {
      MarkerMatches(s, w);
      assert s[0..] == s;
    } else {
      OccurrenceFound(s[1..], w);
      var j :| 0 <= j < |s[1..]| && PlaceholderAt(s[1..][j..]);
      assert s[1..][j..] == s[j + 1..];
    }
  }

  /** The name `MissingParameterError` reports: the first `<word>` left in the query. */
  function MissingName(s: string): (r: Option<string>)
    ensures r.Some? ==> IsWord(r.value) && Occurs(s, Marker(r.value))
    ensures r.Some? ==> FirstPlaceholder(s, 0).Some? && StartsWith(s[FirstPlaceholder(s, 0).value..], Marker(r.value))
    ensures r.None? ==> forall w :: IsWord(w) ==> !Occurs(s, Marker(w))
  {
    match FirstPlaceholder(s, 0)
    case Some(k) =>
      var w := PlaceholderName(s[k..]);
      assert Occurs(s[k..], Marker(w));
      OccursInSuffix(s, k, Marker(w));
      Some(w)
    case None =>
      assert forall w :: IsWord(w) ==> !Occurs(s, Marker(w)) by {
        forall w | IsWord(w) ensures !Occurs(s, Marker(w)) {
          if Occurs(s, Marker(w)) {
            OccurrenceFound(s, w);
          }
        }
      }
      None
  }

  /** `query.replace('= null', 'IS NULL').replace('=null', 'IS NULL')` */
  function NullRewrite(q: string): (r: string)
    ensures !Occurs(r, "= null") && !Occurs(r, "=null")
    ensures !Occurs(q, "= null") && !Occurs(q, "=null") ==> r == q
  {
    var a := Replace(q, "= null", "IS NULL");
    ReplaceLeavesNoOccurrence(q, "= null", "IS NULL", "= null");
    var r := Replace(a, "=null", "IS NULL");
    ReplaceLeavesNoOccurrence(a, "=null", "IS NULL", "=null");
    ReplaceLeavesNoOccurrence(a, "=null", "IS NULL", "= null");
    assert !Occurs(q, "= null") && !Occurs(q, "=null") ==> r == q by {
      if !Occurs(q, "= null") && !Occurs(q, "=null") {
        ReplaceAbsent(q, "= null", "IS NULL");
        ReplaceAbsent(q, "=null", "IS NULL");
      }
    }
    r
  }

  /** How `joint_find` converts one row value before the sync: a datetime to
      `%Y-%m-%d %H:%M:%S`, a time to `%H:%M`, a date to `%Y-%m-%d`, a string
      to a UUID when it parses; anything else is kept. */
  function CoerceValue(v: Value): (r: Value)
    requires IsScalar(v)
    ensures IsScalar(r) && !r.VDateTime? && !r.VDate? && !r.VTime?
    ensures v.VDateTime? || v.VDate? ==> r == VStr(PyStr(v))
    ensures v.VTime? ==> r.VStr? && StartsWith(PyStr(v), r.s + ":")
    ensures v.VStr? ==> r == ParseOrKeep(v.s)
    ensures !(v.VDateTime? || v.VDate? || v.VTime? || v.VStr?) ==> r == v
  {
    match v
    case VDateTime(y, mo, d, h, mi, s) => VStr(DateText(y, mo, d) + " " + ClockText(h, mi, s))
    case VTime(h, mi, _) =>
      var t := Pad(h, 2) + ":" + Pad(mi, 2);
      assert PyStr(v) == (t + ":") + Pad(v.tSecond, 2);
      VStr(t)
    case VDate(y, mo, d) => VStr(DateText(y, mo, d))
    case VStr(s) => ParseOrKeep(s)
    case VNone | VBool(_) | VInt(_) | VUuid(_) | VOther(_) => v
  }

  /** A row with every value coerced. */
  function CoerceRow(row: Row): (r: Row)
    ensures Keys(r) == Keys(row)
    ensures forall i :: 0 <= i < |row| ==> r[i] == Attr(row[i].key, CoerceValue(row[i].val))
    decreases |row|
  {
    if row == [] then []
    else
      var r := [Attr(row[0].key, CoerceValue(row[0].val))] + CoerceRow(row[1..]);
      assert r[1..] == CoerceRow(row[1..]);
      r
  }

  /** A string column keeps its SQL literal through the coercion exactly when
      it is not a UUID, or is one written in canonical form. */
  lemma CoercedLiteral(s: string)
    ensures SqlValue(CoerceValue(VStr(s))) == SqlValue(VStr(s)) <==>
            ParseUuid(s).None? || ParseUuid(s).value == s
  {
    match ParseUuid(s)
    case None =>
    case Some(u) =>
      UuidNoQuote(u);
      if u == s {
        EscapeNoQuote(s);
      } else if SqlValue(VUuid(u)) == SqlValue(VStr(s)) {
        assert Quote(u) == Quote(SqlEscape(s));
        assert u == Quote(u)[1..|u| + 1] == SqlEscape(s);
        assert !Occurs(u, "''") by {
          if Occurs(u, "''") { OccursChar(u, "''", 0); }
        }
        ReplaceAbsent(u, "''", "'");
        assert false;
      }
  }

  /** The rows `dao.joint_find` maps: each `<key>` of a supplied parameter
      substituted, the first unfilled `<word>` reported, `= null` rewritten,
      and the statement run. */
  function JointRows(env: Env, query: string, params: seq<Attr>): Result<seq<Row>> {
    var q1 := ReplaceEach(query, JointSubs(params));
    match MissingName(q1)
    case Some(w) => Err(MissingParameter(w))
    case None =>
      var q2 := NullRewrite(q1);
      match env.db.execute(q2, params)
      case None => Err(QueryExecution(q2))
      case Some(rows) => Ok(rows)
  }

  /** `dao.joint_find(query, dto_model, **params)`, with `dto_model` the
      dotted name `new_instance` resolves. */
  function JointFind(env: Env, query: string, dtoModel: string, params: seq<Attr>): (r: Result<seq<Value>>)
    ensures var q1 := ReplaceEach(query, JointSubs(params));
      && (MissingName(q1).Some? <==> r.Err? && r.error.MissingParameter?)
      && (MissingName(q1).Some? ==> r == Err(MissingParameter(MissingName(q1).value)))
      && (MissingName(q1).None? ==>
            var rows := env.db.execute(NullRewrite(q1), params);
            && (rows.None? ==> r == Err(QueryExecution(NullRewrite(q1))))
            && (rows.Some? ==>
                  && r.Ok? && |r.value| == |rows.value|
                  && forall i :: 0 <= i < |rows.value| ==>
                       r.value[i] == Load(env, dtoModel, CoerceRow(rows.value[i]))))
  {
    var rows :- JointRows(env, query, params);
    Ok(seq(|rows|, i requires 0 <= i < |rows| => Load(env, dtoModel, CoerceRow(rows[i]))))
  }

  /** `dao.joint_find` as `Domain.joint_find` calls it: `dto_model` is the
      DAO's `model`, a class, and `new_instance` hands it to `pydoc.locate`,
      which takes only a dotted name. Mapping the first row raises, and the
      handler reports `DtoMappingError`. */
  function JointFindWithClass(env: Env, query: string, params: seq<Attr>): Result<seq<Value>> {
    var rows :- JointRows(env, query, params);
    if rows == [] then Ok([]) else Err(DtoMapping)
  }

  /** Given the class instead of its dotted name, `joint_find` fails exactly
      when the named form returns a row, and otherwise agrees with it. */
  lemma JointFindClassFails(env: Env, query: string, dtoModel: string, params: seq<Attr>)
    ensures var named := JointFind(env, query, dtoModel, params);
      && (named.Ok? && named.value != [] <==> JointFindWithClass(env, query, params) == Err(DtoMapping))
      && (named.Err? || named.value == [] ==> JointFindWithClass(env, query, params) == named)
  {
  }

  /** Keys that are words, as keyword-argument names are. */
  predicate WordKeys(params: seq<Attr>) {
    forall i :: 0 <= i < |params| ==> IsWord(params[i].key)
  }

  /** Every supplied parameter's marker is substituted. */
  lemma SuppliedSubstituted(query: string, params: seq<Attr>, j: nat)
    requires WordKeys(params) && j < |params|
    ensures !Occurs(ReplaceEach(query, JointSubs(params)), Marker(params[j].key))
  {
    var subs := JointSubs(params);
    var q := Marker(params[j].key);
    assert SeamSafe(subs[j..], q) by {
      forall i | 0 <= i < |subs[j..]|
        ensures |subs[j..][i].rep| > 0 && q[0] !in subs[j..][i].rep && subs[j..][i].rep[0] !in q[1..]
      {
        var k := params[j + i].key;
        var rep := Utilities.Placeholder(k);
        assert subs[j..][i].rep == rep;
        assert rep == "%(" + k + ")s";
        assert '<' !in k;
        assert q[1..] == params[j].key + ">";
        assert '%' !in params[j].key;
      }
    }
    ReplaceEachRemoves(query, subs, j);
  }

  /** The parameter reported missing is never one that was supplied. */
  lemma MissingIsNotSupplied(env: Env, query: string, dtoModel: string, params: seq<Attr>)
    requires WordKeys(params)
    requires JointFind(env, query, dtoModel, params).Err?
    requires JointFind(env, query, dtoModel, params).error.MissingParameter?
    ensures !Has(params, JointFind(env, query, dtoModel, params).error.name)
  {
    var n := JointFind(env, query, dtoModel, params).error.name;
    if Has(params, n) {
      var j :| 0 <= j < |params| && Keys(params)[j] == n;
      KeysIndex(params, j);
      SuppliedSubstituted(query, params, j);
    }
  }
}

=== FILE: domain.dfy ===
/** Domain entities: construction with foreign-key binding, the DTO
    projection, and the foreign-key housekeeping around hydration. An entity
    is its class's declarations plus an ordered attribute list; a nested
    entity is stored as `VObj(DomainKind(name), attrs)`. */
module Domain {
  import opened Text
  import opened Values
  import opened Exceptions
  import opened UuidUtils
  import opened Reflection
  import opened Validation
  import opened Dto
  import opened Dao

  /** The right-hand side of a `foreign_keys` entry: a related class, or a
      tuple `(nested_attr, class, lookup_field)` whose third item may be absent. */
  datatype FkMapping =
    | Direct(target: string)
    | Tuple(nestedAttr: string, target: string, lookup: Option<string>)

  /** One `foreign_keys` entry: the `*_id` field and its mapping. */
  datatype FkDecl = FkDecl(field: string, mapping: FkMapping)

  /** What a Domain subclass declares. `fields` are the attributes its
      constructor sets before `Domain.__init__` binds the keyword arguments;
      `foreignKeys` is None when the class has no `foreign_keys` attribute;
      `members` is `dir(cls)`, where the `@nested_list` markers are found;
      `dto` names the DTO class of `self.dto`. */
  datatype DomainClass = DomainClass(
    fields: Row,
    foreignKeys: Option<seq<FkDecl>>,
    members: seq<Member>,
    cleanNestedKeys: bool,
    restrictions: Restrictions,
    dto: string)

  /** `isinstance(v, Domain)` */
  predicate IsEntity(v: Value) {
    v.VObj? && v.kind.DomainKind?
  }

  /** The declared entries, none when `foreign_keys` is absent. */
  function Decls(cls: DomainClass): seq<FkDecl> {
    cls.foreignKeys.GetOr([])
  }

  /** `foreign_keys.keys()` */
  function FkFields(cls: DomainClass): (fs: seq<string>)
    ensures |fs| == |Decls(cls)|
    ensures forall i :: 0 <= i < |fs| ==> fs[i] == Decls(cls)[i].field
  {
    var ds := Decls(cls);
    seq(|ds|, i requires 0 <= i < |ds| => ds[i].field)
  }

  /** Declared fields are distinct, as the keys of a dict are. */
  predicate DistinctFields(decls: seq<FkDecl>) {
    forall i, j :: 0 <= i < j < |decls| ==> decls[i].field != decls[j].field
  }

  /** The attribute `encapsulate_nested` stores the related entity under: the
      tuple's first item, or the field with every `_id` removed. */
  function NestedName(d: FkDecl): string {
    match d.mapping
    case Direct(_) => Replace(d.field, "_id", "")
    case Tuple(n, _, _) => n
  }

  /** The attribute `as_dto` reads the related entity from, for either kind
      of entry: the field with every `_id` removed. */
  function ObjName(d: FkDecl): string {
    Replace(d.field, "_id", "")
  }

  // ---------------------------------------------------------------------------
  // join and __init__
  // ---------------------------------------------------------------------------

  /** One keyword argument of `join`: an entity binds `key_id` to its `id`,
      and is itself stored under `key` only when `key` is a declared field;
      any other value is stored under `key` as it is. */
  function JoinOne(fks: seq<string>, attrs: seq<Attr>, key: string, value: Value): (r: Result<seq<Attr>>)
    ensures IsEntity(value) ==> (r.Ok? <==> Has(value.attrs, "id"))
    ensures r.Err? ==> r.error == AttributeMissing("id")
    ensures !IsEntity(value) ==> r == Ok(Put(attrs, key, value))
    ensures IsEntity(value) && r.Ok? ==>
      && Find(r.value, key + "_id") == Find(value.attrs, "id")
      && Find(r.value, key) == (if key in fks then Some(value) else Find(attrs, key))
      && forall k :: k != key && k != key + "_id" ==> Find(r.value, k) == Find(attrs, k)
  {
    if IsEntity(value) then
      match Find(value.attrs, "id")
      case None => Err(AttributeMissing("id"))
      case Some(id) =>
        var a := Put(attrs, key + "_id", id);
        assert key != key + "_id" by {
          assert |key + "_id"| == |key| + 3;
        }
        Ok(if key in fks then Put(a, key, value) else a)
    else Ok(Put(attrs, key, value))
  }

  /** `join(**kwargs)`: the keyword arguments in order. It fails on the first
      entity without an `id`. */
  function Join(fks: seq<string>, attrs: seq<Attr>, kwargs: seq<Attr>): (r: Result<seq<Attr>>)
    ensures r.Ok? <==> forall i :: 0 <= i < |kwargs| && IsEntity(kwargs[i].val) ==> Has(kwargs[i].val.attrs, "id")
    ensures r.Err? ==> r.error == AttributeMissing("id")
    // without entities every argument is stored verbatim
    ensures NoDup(kwargs) && (forall i :: 0 <= i < |kwargs| ==> !IsEntity(kwargs[i].val)) ==>
      r.Ok? && forall k :: Find(r.value, k) == if Has(kwargs, k) then Find(kwargs, k) else Find(attrs, k)
    ensures r.Ok? && Flat(attrs) && Flat(kwargs) ==> Flat(r.value)
    decreases |kwargs|
  {
    if kwargs == [] then Ok(attrs)
    else
      assert forall i :: 0 < i < |kwargs| ==> kwargs[i] == kwargs[1..][i - 1];
      assert Keys(kwargs) == [kwargs[0].key] + Keys(kwargs[1..]);
      var a :- JoinOne(fks, attrs, kwargs[0].key, kwargs[0].val);
      assert Flat(attrs) && Flat(kwargs) ==> Flat(a) by {
        if Flat(attrs) && Flat(kwargs) {
          assert IsScalar(kwargs[0].val);
          PutFlat(attrs, kwargs[0].key, kwargs[0].val);
        }
      }
      assert NoDup(kwargs) ==> NoDup(kwargs[1..]) && !Has(kwargs[1..], kwargs[0].key) by {
        if NoDup(kwargs) { NoDupHead(kwargs); }
      }
      Join(fks, a, kwargs[1..])
  }

  /** What the tuple patch of `__init__` stores for one entry: the lookup
      field (the third item, else the field itself) of the object passed under
      the nested name, when the object is truthy and so is that value. Only
      objects have attributes to look up. */
  function PatchValue(d: FkDecl, kwargs: seq<Attr>): (r: Option<Value>)
    ensures r.Some? ==> d.mapping.Tuple? && Truthy(r.value)
    ensures d.mapping.Tuple? && Get(kwargs, d.mapping.nestedAttr).VObj? ==>
      var v := Get(Get(kwargs, d.mapping.nestedAttr).attrs, d.mapping.lookup.GetOr(d.field));
      r == if Truthy(v) then Some(v) else None
    ensures !(d.mapping.Tuple? && Get(kwargs, d.mapping.nestedAttr).VObj?) ==> r.None?
  {
    match d.mapping
    case Direct(_) => None
    case Tuple(n, _, l) =>
      var nested := Get(kwargs, n);
      if !Truthy(nested) then None
      else
        var value := if nested.VObj? then Get(nested.attrs, l.GetOr(d.field)) else VNone;
        if Truthy(value) then Some(value) else None
  }

  /** The tuple patch of `__init__`, entry by entry. */
  function TuplePatch(decls: seq<FkDecl>, kwargs: seq<Attr>, attrs: seq<Attr>): (r: seq<Attr>)
    ensures Untouched(decls, kwargs, attrs, r)
    ensures Patched(decls, kwargs, r)
    // flat arguments hold no object to look into
    ensures Flat(kwargs) ==> r == attrs
    decreases |decls|
  {
    if decls == [] then attrs
    else
      var next := match PatchValue(decls[0], kwargs)
                  case None => attrs
                  case Some(v) => Put(attrs, decls[0].field, v);
      assert Flat(kwargs) ==> PatchValue(decls[0], kwargs).None? by {
        if Flat(kwargs) && decls[0].mapping.Tuple? {
          GetFlat(kwargs, decls[0].mapping.nestedAttr);
        }
      }
      var r := TuplePatch(decls[1..], kwargs, next);
      PatchStep(decls, kwargs, attrs, next, r);
      r
  }

  /** Only declared fields with a patch value change. */
  ghost predicate Untouched(decls: seq<FkDecl>, kwargs: seq<Attr>, attrs: seq<Attr>, r: seq<Attr>) {
    forall k :: (forall i :: 0 <= i < |decls| && decls[i].field == k ==> PatchValue(decls[i], kwargs).None?) ==>
      Find(r, k) == Find(attrs, k)
  }

  /** With distinct fields, each patched field holds its patch value. */
  ghost predicate Patched(decls: seq<FkDecl>, kwargs: seq<Attr>, r: seq<Attr>) {
    DistinctFields(decls) ==>
      forall j :: 0 <= j < |decls| && PatchValue(decls[j], kwargs).Some? ==>
        Find(r, decls[j].field) == PatchValue(decls[j], kwargs)
  }

  /** Patching the first entry, then the rest, keeps both properties. */
  lemma PatchStep(decls: seq<FkDecl>, kwargs: seq<Attr>, attrs: seq<Attr>, next: seq<Attr>, r: seq<Attr>)
    requires decls != []
    requires next == match PatchValue(decls[0], kwargs)
                     case None => attrs
                     case Some(v) => Put(attrs, decls[0].field, v)
    requires Untouched(decls[1..], kwargs, next, r) && Patched(decls[1..], kwargs, r)
    ensures Untouched(decls, kwargs, attrs, r) && Patched(decls, kwargs, r)
  {
    assert forall i :: 0 < i < |decls| ==> decls[i] == decls[1..][i - 1];
    if DistinctFields(decls) {
      assert DistinctFields(decls[1..]);
      var k := decls[0].field;
      assert forall i :: 0 <= i < |decls[1..]| ==> decls[1..][i].field != k;
      assert Find(r, k) == Find(next, k);
    }
  }

  /** `cls(**kwargs)` for a Domain subclass: the declared fields, the
      arguments bound by `join`, then the tuple patch. */
  function DomainInit(cls: DomainClass, kwargs: seq<Attr>): (r: Result<seq<Attr>>)
    ensures r.Ok? <==> forall i :: 0 <= i < |kwargs| && IsEntity(kwargs[i].val) ==> Has(kwargs[i].val.attrs, "id")
    ensures NoDup(kwargs) && Flat(kwargs) ==>
      && r.Ok? && Flat(r.value)
      && forall k :: Find(r.value, k) == if Has(kwargs, k) then Find(kwargs, k) else Find(cls.fields, k)
  {
    var a :- Join(FkFields(cls), cls.fields, kwargs);
    Ok(TuplePatch(Decls(cls), kwargs, a))
  }

  // ---------------------------------------------------------------------------
  // as_dto
  // ---------------------------------------------------------------------------

  /** The first step of `as_dto`: each declared field takes the `id` of the
      object held under the field's name without `_id`, when there is such an
      object and it has an `id` (an object is always truthy). */
  function ResolveFkIds(decls: seq<FkDecl>, attrs: seq<Attr>): (r: seq<Attr>)
    ensures forall k :: (forall i :: 0 <= i < |decls| ==> decls[i].field != k) ==> Find(r, k) == Find(attrs, k)
    ensures Flat(attrs) ==> r == attrs
    ensures NoDup(attrs) ==> NoDup(r)
    decreases |decls|
  {
    if decls == [] then attrs
    else
      var obj := Get(attrs, ObjName(decls[0]));
      var next := if obj.VObj? && Has(obj.attrs, "id") then Put(attrs, decls[0].field, Get(obj.attrs, "id")) else attrs;
      assert forall i :: 0 < i < |decls| ==> decls[i] == decls[1..][i - 1];
      assert Flat(attrs) ==> next == attrs by {
        if Flat(attrs) { GetFlat(attrs, ObjName(decls[0])); }
      }
      assert NoDup(attrs) ==> NoDup(next) by {
        if NoDup(attrs) && next != attrs { PutNoDup(attrs, decls[0].field, Get(obj.attrs, "id")); }
      }
      ResolveFkIds(decls[1..], next)
  }

  /** Distinct foreign-key fields, none of which reads back as the object
      name of a declaration. */
  ghost predicate NamesApart(decls: seq<FkDecl>) {
    && DistinctFields(decls)
    && forall i, l :: 0 <= i < |decls| && 0 <= l < |decls| ==> ObjName(decls[i]) != decls[l].field
  }

  /** `NamesApart` carries over to the remaining declarations, none of which
      shares the first one's field or reads back as it. */
  lemma ResolveTail(decls: seq<FkDecl>)
    requires |decls| > 0 && NamesApart(decls)
    ensures NamesApart(decls[1..])
    ensures forall i :: 0 <= i < |decls[1..]| ==> decls[1..][i].field != decls[0].field
    ensures forall i :: 0 <= i < |decls[1..]| ==> ObjName(decls[1..][i]) != decls[0].field
  {
    assert forall i :: 0 <= i < |decls[1..]| ==> decls[1..][i] == decls[i + 1];
  }

  /** The value `resolve_fk_ids` writes for the first declaration, if any. */
  function ResolveNext(d: FkDecl, attrs: seq<Attr>): seq<Attr> {
    var obj := Get(attrs, ObjName(d));
    if obj.VObj? && Has(obj.attrs, "id") then Put(attrs, d.field, Get(obj.attrs, "id")) else attrs
  }

  /** The first declaration's field ends up holding its object's id: no later
      declaration writes that field again. */
  lemma ResolveFirst(decls: seq<FkDecl>, attrs: seq<Attr>)
    requires |decls| > 0
    requires forall i :: 0 <= i < |decls[1..]| ==> decls[1..][i].field != decls[0].field
    requires Get(attrs, ObjName(decls[0])).VObj? && Has(Get(attrs, ObjName(decls[0])).attrs, "id")
    ensures Find(ResolveFkIds(decls, attrs), decls[0].field) == Find(Get(attrs, ObjName(decls[0])).attrs, "id")
  {
    var next := ResolveNext(decls[0], attrs);
    assert ResolveFkIds(decls, attrs) == ResolveFkIds(decls[1..], next);
    assert Find(next, decls[0].field) == Find(Get(attrs, ObjName(decls[0])).attrs, "id");
  }

  /** Writing the first declaration's field leaves a later declaration's
      object where it was. */
  lemma ResolveKeeps(decls: seq<FkDecl>, attrs: seq<Attr>, j: nat)
    requires 0 < j < |decls|
    requires ObjName(decls[j]) != decls[0].field
    ensures decls[1..][j - 1] == decls[j]
    ensures Get(ResolveNext(decls[0], attrs), ObjName(decls[j])) == Get(attrs, ObjName(decls[j]))
  {
  }

  /** With distinct fields, none of them read back as an object name, each
      field whose object has an `id` ends up holding that id. */
  lemma {:induction false} ResolveFkIdsSets(decls: seq<FkDecl>, attrs: seq<Attr>, j: nat)
    requires NamesApart(decls)
    requires j < |decls|
    requires Get(attrs, ObjName(decls[j])).VObj? && Has(Get(attrs, ObjName(decls[j])).attrs, "id")
    ensures Find(ResolveFkIds(decls, attrs), decls[j].field) == Find(Get(attrs, ObjName(decls[j])).attrs, "id")
    decreases |decls|, 1
  {
    ResolveTail(decls);
    if j == 0 {
      ResolveFirst(decls, attrs);
    } else {
      assert decls[1..][j - 1] == decls[j];
      ResolveLater(decls, attrs, j);
    }
  }

  /** The case of a later declaration: the first write leaves its object in
      place, and the remaining declarations set its field. */
  lemma {:induction false} ResolveLater(decls: seq<FkDecl>, attrs: seq<Attr>, j: nat)
    requires 0 < j < |decls|
    requires NamesApart(decls[1..]) && ObjName(decls[j]) != decls[0].field
    requires Get(attrs, ObjName(decls[j])).VObj? && Has(Get(attrs, ObjName(decls[j])).attrs, "id")
    ensures Find(ResolveFkIds(decls, attrs), decls[j].field) == Find(Get(attrs, ObjName(decls[j])).attrs, "id")
    decreases |decls|, 0
  {
    ResolveKeeps(decls, attrs, j);
    ResolveFkIdsSets(decls[1..], ResolveNext(decls[0], attrs), j - 1);
  }

  /** The copy loop of `as_dto`: every entity attribute whose key is a field
      of the fresh DTO, and not a nested-list attribute, is set on the DTO. */
  function CopyFields(dto: seq<Attr>, attrs: seq<Attr>, nested: seq<string>): (r: seq<Attr>)
    ensures Keys(r) == Keys(dto)
    ensures forall k :: k in nested || !Has(attrs, k) ==> Find(r, k) == Find(dto, k)
    ensures NoDup(attrs) ==>
      forall k :: Has(dto, k) && k !in nested && Has(attrs, k) ==> Find(r, k) == Find(attrs, k)
    ensures Flat(dto) && Flat(attrs) ==> Flat(r)
    decreases |attrs|
  {
    if attrs == [] then dto
    else
      var k := attrs[0].key;
      var next := if Has(dto, k) && k !in nested then Put(dto, k, attrs[0].val) else dto;
      assert Keys(attrs) == [k] + Keys(attrs[1..]);
      assert Flat(dto) && Flat(attrs) ==> Flat(next) && Flat(attrs[1..]) by {
        if Flat(dto) && Flat(attrs) && next != dto {
          assert IsScalar(attrs[0].val);
          PutFlat(dto, k, attrs[0].val);
        }
      }
      assert NoDup(attrs) ==> NoDup(attrs[1..]) && !Has(attrs[1..], k) by {
        if NoDup(attrs) { NoDupHead(attrs); }
      }
      CopyFields(next, attrs[1..], nested)
  }

  /** `self.as_dto()` changes the entity (the resolved ids) and returns a DTO. */
  datatype Projection = Projection(attrs: seq<Attr>, dto: Value)

  /** The `@nested_list` attribute names of a class. */
  function NestedListAttrs(cls: DomainClass): seq<string> {
    NestedAttrs(GetNestedListMetadata(cls.members))
  }

  /** `as_dto()`. A DTO that would hold an object is refused with a type
      error: SQL text is only modelled for scalar values. */
  function AsDto(env: Env, cls: DomainClass, attrs: seq<Attr>): (r: Result<Projection>)
    ensures r.Err? ==> r.error == TypeMismatch
    ensures r.Ok? ==> r.value.attrs == ResolveFkIds(Decls(cls), attrs)
    ensures r.Ok? ==>
      && r.value.dto.VObj? && r.value.dto.kind == DtoKind(cls.dto) && Flat(r.value.dto.attrs)
      && Keys(r.value.dto.attrs) == Keys(Blank(env.dtoClass(cls.dto)))
    // nested-list attributes and attributes the entity lacks keep the fresh DTO's value
    ensures r.Ok? ==>
      forall k :: k in NestedListAttrs(cls) || !Has(r.value.attrs, k) ==>
        Find(r.value.dto.attrs, k) == Find(Blank(env.dtoClass(cls.dto)), k)
    // every other DTO field takes the entity's value
    ensures r.Ok? && NoDup(attrs) ==>
      forall k :: Has(Blank(env.dtoClass(cls.dto)), k) && k !in NestedListAttrs(cls) && Has(r.value.attrs, k) ==>
        Find(r.value.dto.attrs, k) == Find(r.value.attrs, k)
    ensures Flat(attrs) ==> r.Ok? && r.value.attrs == attrs
  {
    var a := ResolveFkIds(Decls(cls), attrs);
    var blank := Blank(env.dtoClass(cls.dto));
    var d := CopyFields(blank, a, NestedListAttrs(cls));
    if Flat(d) then Ok(Projection(a, VObj(DtoKind(cls.dto), d))) else Err(TypeMismatch)
  }

  // ---------------------------------------------------------------------------
  // sync and cleanup_foreign_keys
  // ---------------------------------------------------------------------------

  /** `Domain.sync(obj)`: a dict, or the `vars()` of an object, goes through
      `sync_with_dict`; `vars()` of anything else raises `TypeError`. */
  function DomainSync(attrs: seq<Attr>, src: Value, ignorePrivate: bool): (r: Result<seq<Attr>>)
    ensures r.Ok? <==> src.VDict? || src.VObj?
    ensures r.Err? ==> r.error == TypeMismatch
    ensures src.VDict? ==> r == Ok(SyncWithDict(attrs, src.entries, ignorePrivate))
    ensures src.VObj? ==> r == Ok(SyncWithDict(attrs, src.attrs, ignorePrivate))
  {
    match src
    case VDict(e) => Ok(SyncWithDict(attrs, e, ignorePrivate))
    case VObj(_, a) => Ok(SyncWithDict(attrs, a, ignorePrivate))
    case _ => Err(TypeMismatch)
  }

  /** Unlike `Object.sync`, which copies an object's attributes verbatim, the
      Domain override takes an object's values through the UUID coercion. */
  lemma DomainSyncCoerces(attrs: seq<Attr>, kind: Kind, src: seq<Attr>, k: string)
    requires NoDup(src) && Has(src, k)
    ensures DomainSync(attrs, VObj(kind, src), false).Ok?
    ensures Find(DomainSync(attrs, VObj(kind, src), false).value, k) == Some(SyncValue(Find(attrs, k), Find(src, k).value))
    ensures Find(Sync(attrs, VObj(kind, src), false).value, k) == Find(src, k)
  {
    SyncWithDictStores(attrs, src, false, k);
    SyncObjectsCopies(attrs, src, true, false, k);
  }

  /** `cleanup_foreign_keys()`: every declared field is removed. */
  function Cleanup(cls: DomainClass, attrs: seq<Attr>): (r: seq<Attr>)
    ensures forall k :: k in FkFields(cls) ==> !Has(r, k)
    ensures forall k :: k !in FkFields(cls) ==> Find(r, k) == Find(attrs, k)
    ensures forall x :: x in r ==> x in attrs
  {
    if cls.foreignKeys.None? then attrs else DelAll(attrs, FkFields(cls))
  }

  /** Cleaning twice is cleaning once. */
  lemma CleanupIdempotent(cls: DomainClass, attrs: seq<Attr>)
    ensures Cleanup(cls, Cleanup(cls, attrs)) == Cleanup(cls, attrs)
  {
    if cls.foreignKeys.Some? {
      DelAllAbsent(Cleanup(cls, attrs), FkFields(cls));
    }
  }

  // ---------------------------------------------------------------------------
  // normalize_foreign_keys
  // ---------------------------------------------------------------------------

  /** The field the last entry whose nested name is `name` declares, if any:
      the `fk_mappings` dict built at the start of `normalize_foreign_keys`. */
  function MappedField(decls: seq<FkDecl>, name: string): (r: Option<string>)
    ensures r.Some? <==> exists i :: 0 <= i < |decls| && NestedName(decls[i]) == name
    ensures r.Some? ==> exists i :: 0 <= i < |decls| && NestedName(decls[i]) == name && decls[i].field == r.value
    decreases |decls|
  {
    if decls == [] then None
    else
      assert forall i :: 0 < i < |decls| ==> decls[i] == decls[1..][i - 1];
      match MappedField(decls[1..], name)
      case Some(f) => Some(f)
      case None => if NestedName(decls[0]) == name then Some(decls[0].field) else None
  }

  /** `fk_mappings.get(name, name)` */
  function FieldFor(decls: seq<FkDecl>, name: string): string {
    MappedField(decls, name).GetOr(name)
  }

  /** `uuid.UUID(s)` for a string `is_valid_uuid` accepts. */
  function ToUuid(s: string): (u: UuidText)
    requires UuidShape(s)
    ensures u == Lower(s)
    ensures ParseUuid(s) == Some(u)
  {
    ParseShaped(s);
    ParseUuid(s).value
  }

  /** The foreign keys of a nested entity's class; a class outside the
      registry is taken to declare none. */
  function ClassDecls(classes: map<string, DomainClass>, name: string): seq<FkDecl> {
    if name in classes then Decls(classes[name]) else []
  }

  /** The first statement of `normalize_foreign_keys`: an `id` string that
      `is_valid_uuid` accepts becomes a UUID. */
  function NormalizeOwnId(attrs: seq<Attr>): (r: seq<Attr>)
    ensures Keys(r) == Keys(attrs) && |r| == |attrs|
    ensures forall j :: 0 <= j < |attrs| ==> r[j] == attrs[j] || r[j].val.VUuid?
    ensures IsValidUuid(Get(attrs, "id")) ==> Find(r, "id") == Some(VUuid(Lower(Get(attrs, "id").s)))
    ensures !IsValidUuid(Get(attrs, "id")) ==> r == attrs
    ensures forall k :: k != "id" ==> Find(r, k) == Find(attrs, k)
  {
    var id := Get(attrs, "id");
    if Has(attrs, "id") && IsValidUuid(id) then Put(attrs, "id", VUuid(ToUuid(id.s))) else attrs
  }

  /** The attribute loop of `normalize_foreign_keys` from position `i`, over
      the live attribute list `cur`. `orig` is the list before the loop: only
      UUIDs were written since, so every entity met is an original value. */
  function NormalizeAttrs(classes: map<string, DomainClass>, decls: seq<FkDecl>, orig: seq<Attr>, cur: seq<Attr>, i: nat): (r: Result<seq<Attr>>)
    requires LoopInv(orig, cur, i)
    ensures r.Err? ==> r.error == DictChangedSize
    ensures r.Ok? ==> Keys(r.value) == Keys(orig) && |r.value| == |orig|
    ensures r.Ok? ==> forall j :: 0 <= j < |orig| ==>
      Depth(r.value[j].val) <= Depth(orig[j].val) && (IsScalar(orig[j].val) ==> IsScalar(r.value[j].val))
    decreases orig, 0, |orig| - i
  {
    if i == |orig| then Ok(cur)
    else
      var name, value := cur[i].key, cur[i].val;
      var f := FieldFor(decls, name);
      if EndsWith(f, "_id") && value.VStr? && IsValidUuidText(value.s) then
        if !Has(cur, f) then Err(DictChangedSize)
        else
          var next := Put(cur, f, VUuid(ToUuid(value.s)));
          UuidStep(orig, cur, i, f, ToUuid(value.s));
          NormalizeAttrs(classes, decls, orig, next, i + 1)
      else if IsEntity(value) then
        assert value == orig[i].val;
        assert orig[i] in orig;
        var inner :- Normalize(classes, ClassDecls(classes, value.kind.cls), value.attrs);
        var next := cur[i := Attr(name, VObj(value.kind, inner))];
        EntityStep(orig, cur, i, inner);
        NormalizeAttrs(classes, decls, orig, next, i + 1)
      else NormalizeAttrs(classes, decls, orig, cur, i + 1)
  }

  /** The loop invariant holds when the loop starts, after the `id` pass. */
  lemma OwnIdInv(attrs: seq<Attr>)
    ensures LoopInv(attrs, NormalizeOwnId(attrs), 0)
  {
    var a := NormalizeOwnId(attrs);
    forall j | 0 <= j < |attrs|
      ensures Depth(a[j].val) <= Depth(attrs[j].val) && (IsScalar(attrs[j].val) ==> IsScalar(a[j].val))
    {
    }
  }

  /** The loop invariant of `NormalizeAttrs` at position `i`. */
  predicate LoopInv(orig: seq<Attr>, cur: seq<Attr>, i: nat) {
    && i <= |orig| && Keys(cur) == Keys(orig) && |cur| == |orig|
    && (forall j :: i <= j < |orig| ==> cur[j].val == orig[j].val || cur[j].val.VUuid?)
    && (forall j :: 0 <= j < |orig| ==>
          Depth(cur[j].val) <= Depth(orig[j].val) && (IsScalar(orig[j].val) ==> IsScalar(cur[j].val)))
  }

  /** Storing a UUID over an existing attribute keeps the invariant. */
  lemma UuidStep(orig: seq<Attr>, cur: seq<Attr>, i: nat, f: string, u: UuidText)
    requires LoopInv(orig, cur, i) && i < |orig| && Has(cur, f)
    ensures LoopInv(orig, Put(cur, f, VUuid(u)), i + 1)
  {
    var next := Put(cur, f, VUuid(u));
    assert Keys(next) == Keys(orig) && |next| == |orig|;
    forall j | 0 <= j < |orig|
      ensures next[j].val == cur[j].val || next[j].val == VUuid(u)
    {
    }
    forall j | i + 1 <= j < |orig|
      ensures next[j].val == orig[j].val || next[j].val.VUuid?
    {
    }
    forall j | 0 <= j < |orig|
      ensures Depth(next[j].val) <= Depth(orig[j].val) && (IsScalar(orig[j].val) ==> IsScalar(next[j].val))
    {
      if next[j].val != cur[j].val {
        assert Depth(next[j].val) == 0;
      }
    }
  }

  /** Replacing the entity at `i` by its normalised form keeps the invariant. */
  lemma EntityStep(orig: seq<Attr>, cur: seq<Attr>, i: nat, inner: seq<Attr>)
    requires LoopInv(orig, cur, i) && i < |orig| && cur[i].val.VObj? && cur[i].val == orig[i].val
    requires |inner| == |cur[i].val.attrs|
    requires forall j :: 0 <= j < |inner| ==> Depth(inner[j].val) <= Depth(cur[i].val.attrs[j].val)
    ensures LoopInv(orig, cur[i := Attr(cur[i].key, VObj(cur[i].val.kind, inner))], i + 1)
  {
    var next := cur[i := Attr(cur[i].key, VObj(cur[i].val.kind, inner))];
    DepthAllMono(inner, cur[i].val.attrs);
    forall j | 0 <= j < |next| ensures Keys(next)[j] == Keys(cur)[j] {
      KeysIndex(next, j);
      KeysIndex(cur, j);
    }
  }

  /** `normalize_foreign_keys()` on an entity with the given declarations.
      It never adds an attribute: where it would, it fails. */
  function Normalize(classes: map<string, DomainClass>, decls: seq<FkDecl>, attrs: seq<Attr>): (r: Result<seq<Attr>>)
    ensures r.Err? ==> r.error == DictChangedSize
    ensures r.Ok? ==> Keys(r.value) == Keys(attrs) && |r.value| == |attrs|
    ensures r.Ok? ==> forall j :: 0 <= j < |attrs| ==>
      Depth(r.value[j].val) <= Depth(attrs[j].val) && (IsScalar(attrs[j].val) ==> IsScalar(r.value[j].val))
    ensures r.Ok? && Flat(attrs) ==> Flat(r.value)
    ensures r.Ok? ==> DepthAll(r.value) <= DepthAll(attrs)
    decreases attrs, 1, 0
  {
    var a := NormalizeOwnId(attrs);
    OwnIdInv(attrs);
    var r := NormalizeAttrs(classes, decls, attrs, a, 0);
    assert r.Ok? ==> DepthAll(r.value) <= DepthAll(attrs) by {
      if r.Ok? { DepthAllMono(r.value, attrs); }
    }
    r
  }

  // ---------------------------------------------------------------------------
  // delete
  // ---------------------------------------------------------------------------

  /** `delete()`: refused with `ValueError` when the `id` is falsy; with an
      `id` it reaches `self.get_dao()`, which no class defines, so it never
      deletes anything. */
  function DomainDelete(env: Env, cls: DomainClass, attrs: seq<Attr>): (r: Result<bool>)
    ensures r.Err?
    ensures r.error == ValueFailure <==> Has(attrs, "id") && !Truthy(Get(attrs, "id"))
    ensures !Has(attrs, "id") ==> r.error == AttributeMissing("id")
  {
    match Find(attrs, "id")
    case None => Err(AttributeMissing("id"))
    case Some(id) =>
      if !Truthy(id) then Err(ValueFailure)
      else
        var _ :- AsDto(env, cls, attrs);
        Err(AttributeMissing("get_dao"))
  }

  // ---------------------------------------------------------------------------
  // persist's decision
  // ---------------------------------------------------------------------------

  /** What `persist` does with the DTO: update it under its own id, update
      the row `find_one` matched under that row's id, or insert it. */
  datatype Action = UpdateOwn | UpdateFound(id: Value) | Insert

  /** The branch `persist` takes. A failing `find_one` becomes `SaveOperationError`. */
  function PersistAction(env: Env, dto: Value, allowDuplicates: bool): (r: Result<Action>)
    requires FlatDto(dto)
    ensures r.Err? ==> r.error == SaveOperation
    ensures dto.VObj? && Truthy(Get(dto.attrs, "id")) ==> r == Ok(UpdateOwn)
    ensures !(dto.VObj? && Truthy(Get(dto.attrs, "id"))) && allowDuplicates ==> r == Ok(Insert)
    ensures !(dto.VObj? && Truthy(Get(dto.attrs, "id"))) && !allowDuplicates ==>
      match FindOne(env, dto, false)
      case Err(_) => r == Err(SaveOperation)
      case Ok(None) => r == Ok(Insert)
      case Ok(Some(e)) => r == Ok(UpdateFound(if e.VObj? then Get(e.attrs, "id") else VNone))
    // the adopted id comes from a table row, so it is a scalar
    ensures r.Ok? && r.value.UpdateFound? ==> IsScalar(r.value.id)
  {
    if dto.VObj? && Truthy(Get(dto.attrs, "id")) then Ok(UpdateOwn)
    else if allowDuplicates then Ok(Insert)
    else
      match FindOne(env, dto, false)
      case Err(_) => Err(SaveOperation)
      case Ok(None) => Ok(Insert)
      case Ok(Some(e)) =>
        var all := FindAll(env, dto.kind.cls, Some(dto));
        assert e == all.value[0];
        GetFlat(e.attrs, "id");
        Ok(UpdateFound(Get(e.attrs, "id")))
  }

  /** Without an id and with duplicates refused, a filter that matches one
      row updates that row. */
  lemma PersistAdoptsUniqueMatch(env: Env, dto: Value, row: Value)
    requires IsDtoInstance(dto) && Flat(dto.attrs) && !Truthy(Get(dto.attrs, "id"))
    requires FindAll(env, dto.kind.cls, Some(dto)) == Ok([row])
    ensures row.VObj? && PersistAction(env, dto, false) == Ok(UpdateFound(Get(row.attrs, "id")))
  {
    var rows := env.db.execute(SelectQuery(env, dto), []);
    assert rows.Some? && LoadAll(env, dto.kind.cls, rows.value) == [row];
    assert row == Load(env, dto.kind.cls, rows.value[0]);
  }

  /** A filter that matches several rows counts as no match: `persist`
      inserts one more. */
  lemma PersistInsertsOnAmbiguousMatch(env: Env, dto: Value)
    requires IsDtoInstance(dto) && Flat(dto.attrs) && !Truthy(Get(dto.attrs, "id"))
    requires FindAll(env, dto.kind.cls, Some(dto)).Ok? && |FindAll(env, dto.kind.cls, Some(dto)).value| > 1
    ensures PersistAction(env, dto, false) == Ok(Insert)
  {
  }
}

=== FILE: dto.dfy ===
/** Data Transfer Objects: construction with the `id` normalisation, the
    infrastructure-free `vars()`, and the `columns()` projection the DAO
    builds its SQL from. */
module Dto {
  import opened Values
  import opened UuidUtils
  import opened SqlUtils
  import opened Reflection

  /** A DTO subclass: its table and the attributes its constructor passes on
      to `Dto.__init__` when called without arguments (its declared fields
      with their defaults). Keyword arguments override them. */
  datatype DtoClass = DtoClass(table: string, declared: Row)

  /** The `id` stored by `Dto.__init__`: a string that parses as a UUID
      becomes one, any other string is kept, anything else passes through. */
  function IdValue(v: Value): (r: Value)
    ensures v.VStr? && ParseUuid(v.s).Some? ==> r == VUuid(ParseUuid(v.s).value)
    ensures !(v.VStr? && ParseUuid(v.s).Some?) ==> r == v
  {
    if v.VStr? then ParseOrKeep(v.s) else v
  }

  /** `Dto.__init__(**kwargs)`: the keyword arguments in order, with `id`
      normalised, and appended as None when it was not passed. */
  function DtoInit(kwargs: seq<Attr>): (r: seq<Attr>)
    ensures Find(r, "id") == Some(IdValue(Get(kwargs, "id")))
    ensures forall k :: k != "id" ==> Find(r, k) == Find(kwargs, k)
    ensures Has(kwargs, "id") ==> Keys(r) == Keys(kwargs)
    ensures !Has(kwargs, "id") ==> Keys(r) == Keys(kwargs) + ["id"]
    ensures Flat(kwargs) ==> Flat(r)
  {
    var r := Put(kwargs, "id", IdValue(Get(kwargs, "id")));
    assert Flat(kwargs) ==> Flat(r) by {
      if Flat(kwargs) {
        var id := Get(kwargs, "id");
        assert IsScalar(id) by {
          if Find(kwargs, "id").Some? {
            var j :| 0 <= j < |kwargs| && kwargs[j] == Attr("id", Find(kwargs, "id").value);
          }
        }
        forall i | 0 <= i < |r| ensures IsScalar(r[i].val) {
          assert r[i] in r;
        }
      }
    }
    r
  }

  /** `cls(**kwargs)` for a DTO subclass. */
  function Construct(cls: DtoClass, kwargs: seq<Attr>): (r: seq<Attr>)
    ensures Has(r, "id")
    ensures forall k :: k != "id" && Has(kwargs, k) ==> Has(r, k)
  {
    DtoInit(SyncObjects(cls.declared, kwargs, true, false))
  }

  /** A fresh instance, as `ReflectionUtils.new_instance` builds it. */
  function Blank(cls: DtoClass): (r: Row)
    ensures Find(r, "id") == Some(IdValue(Get(cls.declared, "id")))
    ensures forall k :: k != "id" ==> Find(r, k) == Find(cls.declared, k)
  {
    DtoInit(cls.declared)
  }

  /** The infrastructure attributes `Dto.vars()` leaves out. */
  const VarsIgnored: seq<string> := ["table", "dao", "__dao__", "dto", "__dto__"]

  /** `Dto.vars()` */
  function DtoVars(a: seq<Attr>): (r: seq<Attr>)
    ensures forall k :: k in VarsIgnored ==> !Has(r, k)
    ensures forall k :: k !in VarsIgnored ==> Find(r, k) == Find(a, k)
  {
    Vars(a, VarsIgnored)
  }

  /** The default `ignore` list of `columns()`. */
  const ColumnsIgnored: seq<string> := ["dao", "dto", "__dao__", "__dto__", "table"]

  /** `dto.columns(ignore, assigned_only)`: the attributes in order, minus the
      ignored keys and, when `assigned_only`, minus the None values, with
      UUIDs turned into their text. */
  function Columns(a: seq<Attr>, ignore: Option<seq<string>>, assignedOnly: bool): (r: seq<Attr>)
    ensures forall i :: 0 <= i < |r| ==> !r[i].val.VUuid?
    ensures assignedOnly ==> forall i :: 0 <= i < |r| ==> r[i].val != VNone
    ensures Flat(a) ==> Flat(r)
    decreases |a|
  {
    var ig := ignore.GetOr(ColumnsIgnored);
    if a == [] then []
    else
      var rest := Columns(a[1..], ignore, assignedOnly);
      if a[0].key in ig || (assignedOnly && a[0].val == VNone) then rest
      else [Attr(a[0].key, UuidAsText(a[0].val))] + rest
  }

  /** Which keys a projection holds: only attribute keys, never an ignored
      one, and by default none of the infrastructure names. */
  lemma {:induction false} ColumnsKeys(a: seq<Attr>, ignore: Option<seq<string>>, assignedOnly: bool)
    ensures var r := Columns(a, ignore, assignedOnly);
      forall k :: Has(r, k) ==> Has(a, k) && k !in ignore.GetOr(ColumnsIgnored)
    ensures ignore.None? ==> forall k :: k in ColumnsIgnored ==> !Has(Columns(a, ignore, assignedOnly), k)
    decreases |a|
  {
    if a != [] {
      ColumnsKeys(a[1..], ignore, assignedOnly);
      var rest := Columns(a[1..], ignore, assignedOnly);
      var r := Columns(a, ignore, assignedOnly);
      HasCons(a);
      if r != rest {
        assert r[1..] == rest;
        HasCons(r);
      }
    }
  }

  /** With distinct keys, the value a projection holds under each key: none
      for an ignored key or (when `assigned_only`) a None value, otherwise
      the attribute's value with a UUID as its text. */
  lemma {:induction false} ColumnsFind(a: seq<Attr>, ignore: Option<seq<string>>, assignedOnly: bool)
    requires NoDup(a)
    ensures var r := Columns(a, ignore, assignedOnly);
      forall k ::
        Find(r, k) ==
          (if k in ignore.GetOr(ColumnsIgnored) || (assignedOnly && Find(a, k) == Some(VNone)) then None
           else match Find(a, k) { case None => None case Some(v) => Some(UuidAsText(v)) })
    decreases |a|
  {
    if a != [] {
      NoDupHead(a);
      assert NoDup(a[1..]);
      ColumnsFind(a[1..], ignore, assignedOnly);
      ColumnsKeys(a[1..], ignore, assignedOnly);
      var rest := Columns(a[1..], ignore, assignedOnly);
      var r := Columns(a, ignore, assignedOnly);
      if r != rest {
        assert r[1..] == rest;
      }
    }
  }

  /** The assigned columns are among the columns. */
  lemma AssignedAmongColumns(a: seq<Attr>, ignore: Option<seq<string>>)
    ensures forall k :: Has(Columns(a, ignore, true), k) ==> Has(Columns(a, ignore, false), k)
  {
    ColumnsKeys(a, ignore, true);
    AllColumnsKeys(a, ignore);
  }

  /** Without `assigned_only` the projection keeps every non-ignored
      attribute, so its keys are the attribute keys minus the ignored ones. */
  lemma {:induction false} AllColumnsKeys(a: seq<Attr>, ignore: Option<seq<string>>)
    ensures forall k :: Has(Columns(a, ignore, false), k) <==> Has(a, k) && k !in ignore.GetOr(ColumnsIgnored)
    decreases |a|
  {
    if a != [] {
      AllColumnsKeys(a[1..], ignore);
      var rest := Columns(a[1..], ignore, false);
      var r := Columns(a, ignore, false);
      HasCons(a);
      if r != rest {
        assert r[1..] == rest;
        HasCons(r);
      }
    }
  }
}

=== FILE: exceptions.dfy ===
/** The error taxonomy of the ORM as a datatype, and a failure-compatible result. */
module Exceptions {

  datatype Error =
      /** `DtoExpectedError`: input is not an instance of a `Dto` subclass. */
    | DtoExpected
      /** `DtoMissingAssignedFieldsError`: a filter with no assigned field, or `update` without an id. */
    | DtoMissingAssignedFields
      /** `MissingParameterError`: a `<name>` placeholder with no parameter. */
    | MissingParameter(name: string)
      /** `QueryExecutionError`: the driver failed on this statement. */
    | QueryExecution(query: string)
      /** `RegisterNotFoundError` */
    | RegisterNotFound
      /** `ValidationObserver.ValidationError` */
    | ValidationFailed(operation: string, missing: seq<string>)
      /** `SaveOperationError` */
    | SaveOperation
      /** `UpdateOperationError` */
    | UpdateOperation
      /** `ImportError` from class-by-name resolution */
    | ImportFailure(className: string)
      /** `AttributeError`: reading an attribute the object does not have */
    | AttributeMissing(name: string)
      /** `TypeError`, e.g. `vars()` of a value without `__dict__` */
    | TypeMismatch
      /** `ValueError`, e.g. deleting an entity without an id */
    | ValueFailure
      /** `DtoMappingError`: a returned row could not be made into a DTO */
    | DtoMapping
      /** `RuntimeError`: a dict gained a key while being iterated */
    | DictChangedSize
      /** `RecursionError`: the interpreter's recursion limit was reached */
    | RecursionLimit

  datatype Result<+T> = Ok(value: T) | Err(error: Error) {
    predicate IsFailure() {
      Err?
    }

    function PropagateFailure<U>(): Result<U>
      requires Err?
    {
      Err(error)
    }

    function Extract(): T
      requires Ok?
    {
      value
    }
  }
}

=== FILE: hydration.dfy ===
/** Hydration: `encapsulate_nested` and the finders and writers of a Domain
    entity that call it. Related entities are looked up through the class
    registry and the database of a `World`; a nested entity of class `c` is
    stored as `VObj(DomainKind(c), attrs)`.

    The recursion of hydration is unbounded as written (a nested `find()`
    hydrates its result at the default depth before the depth-decremented
    call), so every member carries `fuel`: running out of it stands for
    Python's `RecursionError`. The flag `asWritten` selects that behaviour;
    with it off, a nested lookup is not hydrated by `find()` itself and the
    decremented depth is the only bound, as the method documents. */
module Hydration {
  import opened Text
  import opened Values
  import opened Exceptions
  import opened Reflection
  import opened Validation
  import opened Dto
  import opened Dao
  import opened Domain

  /** The database and DTO classes, and the Domain classes by name
      (`resolve_class_by_name`). */
  datatype World = World(env: Env, classes: map<string, DomainClass>)

  /** `resolve_class_by_name(name)`: `ImportError` for an unknown class. */
  function ClassOf(w: World, name: string): (r: Result<DomainClass>)
    ensures r.Ok? <==> name in w.classes
    ensures r.Ok? ==> r.value == w.classes[name]
    ensures r.Err? ==> r.error == ImportFailure(name)
  {
    if name in w.classes then Ok(w.classes[name]) else Err(ImportFailure(name))
  }

  /** `getattr(obj, name)` without a default. */
  function Attribute(attrs: seq<Attr>, name: string): (r: Result<Value>)
    ensures r.Ok? <==> Has(attrs, name)
    ensures r.Ok? ==> Find(attrs, name) == Some(r.value)
    ensures r.Err? ==> r.error == AttributeMissing(name)
  {
    match Find(attrs, name)
    case None => Err(AttributeMissing(name))
    case Some(v) => Ok(v)
  }

  /** An entity of the named class. */
  function Entity(name: string, attrs: seq<Attr>): Value {
    VObj(DomainKind(name), attrs)
  }

  /** Entities of the named class, one per attribute list, in order. */
  function Entities(name: string, items: seq<seq<Attr>>): (r: seq<Value>)
    ensures |r| == |items|
    ensures forall i :: 0 <= i < |items| ==> r[i] == Entity(name, items[i])
  {
    seq(|items|, i requires 0 <= i < |items| => Entity(name, items[i]))
  }

  /** The nested names of the entries, in order. */
  function NestedNames(decls: seq<FkDecl>): (names: seq<string>)
    ensures |names| == |decls|
    ensures forall i :: 0 <= i < |decls| ==> names[i] == NestedName(decls[i])
  {
    seq(|decls|, i requires 0 <= i < |decls| => NestedName(decls[i]))
  }

  /** Two attribute lists that read the same outside `names`. */
  ghost predicate Agree(a: seq<Attr>, b: seq<Attr>, names: seq<string>) {
    forall k :: k !in names ==> Find(a, k) == Find(b, k)
  }

  /** The class an entry relates to: the mapping itself, or the tuple's second item. */
  function Target(d: FkDecl): string {
    match d.mapping
    case Direct(t) => t
    case Tuple(_, t, _) => t
  }

  /** The field `encapsulate_nested` looks the related entity up by: the
      tuple's third item, else `id`. */
  function HydrateLookup(d: FkDecl): string {
    match d.mapping
    case Direct(_) => "id"
    case Tuple(_, _, l) => l.GetOr("id")
  }

  /** A tuple entry without a third item: `encapsulate_nested` looks the
      related entity up by `id`, while `__init__` reads the declared field
      itself from a passed object. */
  lemma LookupDefaultsDiffer(d: FkDecl, kwargs: seq<Attr>)
    requires d.mapping.Tuple? && d.mapping.lookup.None?
    requires Get(kwargs, d.mapping.nestedAttr).VObj?
    ensures HydrateLookup(d) == "id"
    ensures var v := Get(Get(kwargs, d.mapping.nestedAttr).attrs, d.field);
      PatchValue(d, kwargs) == if Truthy(v) then Some(v) else None
  {
  }

  // ---------------------------------------------------------------------------
  // encapsulate_nested and the finders it calls
  // ---------------------------------------------------------------------------
  //
  // Besides what each step computes, every member states two facts about
  // corrected hydration (`asWritten` off): one unit of fuel per level of
  // nesting is enough, so the recursion limit is never reached with
  // `fuel >= depth`; and in a well-formed world the result is no deeper than
  // the depth asked for (see `Bounded` below).

  /** `encapsulate_nested(depth)` on an entity of class `cls`: nothing at a
      depth of zero or less, or without `foreign_keys`; otherwise each
      related entity is looked up and stored, each `@nested_list` attribute
      is loaded, and the declared fields are removed when the class cleans
      them. */
  function Encapsulate(w: World, asWritten: bool, cls: DomainClass, attrs: seq<Attr>, depth: int, fuel: nat): (r: Result<seq<Attr>>)
    ensures depth <= 0 || cls.foreignKeys.None? ==> r == Ok(attrs)
    // with every foreign key None and no `@nested_list`, no lookup happens
    ensures depth > 0 && cls.foreignKeys.Some? && fuel > 0 && GetNestedListMetadata(cls.members) == []
            && (forall d :: d in Decls(cls) ==> Get(attrs, d.field) == VNone) ==>
      r == Ok(if cls.cleanNestedKeys then Cleanup(cls, attrs) else attrs)
    ensures r.Ok? && depth > 0 && cls.foreignKeys.Some? && cls.cleanNestedKeys ==>
      forall k :: k in FkFields(cls) ==> !Has(r.value, k)
    ensures !asWritten && fuel >= depth ==> r != Err(RecursionLimit)
    ensures !asWritten && WellFormed(w) && ClassOk(cls) && depth >= 0 && Bounded(NestedKeys(cls), attrs, depth) && r.Ok? ==>
      Bounded(NestedKeys(cls), r.value, depth)
    decreases fuel, 0, 0
  {
    if depth <= 0 || cls.foreignKeys.None? then Ok(attrs)
    else if fuel == 0 then Err(RecursionLimit)
    else
      var a1 :- HydrateFks(w, asWritten, Decls(cls), attrs, depth, fuel - 1);
      var a2 :- LoadNestedLists(w, asWritten, GetNestedListMetadata(cls.members), a1, depth, fuel - 1);
      ClassFits(cls);
      BoundedCleanup(NestedKeys(cls), cls, a2, depth);
      Ok(if cls.cleanNestedKeys then Cleanup(cls, a2) else a2)
  }

  /** The `foreign_keys` loop of `encapsulate_nested`, entry by entry: a
      None field is skipped; any other value is replaced under the nested
      name by the related entity. */
  function HydrateFks(w: World, asWritten: bool, decls: seq<FkDecl>, attrs: seq<Attr>, depth: int, fuel: nat): (r: Result<seq<Attr>>)
    // only nested names are written
    ensures r.Ok? ==> Agree(r.value, attrs, NestedNames(decls))
    // a None foreign key triggers no lookup: with every field None nothing changes
    ensures (forall i :: 0 <= i < |decls| ==> Get(attrs, decls[i].field) == VNone) ==> r == Ok(attrs)
    ensures !asWritten && fuel + 1 >= depth ==> r != Err(RecursionLimit)
    // what is written under a nested name is at most `depth` deep
    ensures !asWritten && WellFormed(w) && depth >= 1 && r.Ok? ==>
      forall keys {:trigger Bounded(keys, r.value, depth)} ::
        Fits(decls, keys) && Bounded(keys, attrs, depth) ==> Bounded(keys, r.value, depth)
    decreases fuel, 5, |decls|
  {
    if decls == [] then Ok(attrs)
    else
      var d := decls[0];
      var fk := Get(attrs, d.field);
      if fk == VNone then
        var r := HydrateFks(w, asWritten, decls[1..], attrs, depth, fuel);
        FksCompose(w, asWritten, decls, attrs, attrs, r, depth);
        r
      else
        var v :- HydrateOne(w, asWritten, d, fk, depth, fuel);
        HydrateStep(decls, attrs, v, depth);
        var next := Put(attrs, NestedName(d), v);
        var r := HydrateFks(w, asWritten, decls[1..], next, depth, fuel);
        FksCompose(w, asWritten, decls, attrs, next, r, depth);
        r
  }

  /** One related entity: an instance of the related class is built from the
      lookup field, then found and hydrated. */
  function HydrateOne(w: World, asWritten: bool, d: FkDecl, fk: Value, depth: int, fuel: nat): (r: Result<Value>)
    ensures r.Ok? ==> r.value.VObj? && r.value.kind == DomainKind(Target(d))
    ensures Target(d) !in w.classes ==> r == Err(ImportFailure(Target(d)))
    ensures !asWritten && fuel + 1 >= depth ==> r != Err(RecursionLimit)
    ensures !asWritten && WellFormed(w) && IsScalar(fk) && depth >= 1 && r.Ok? ==> Depth(r.value) <= depth
    decreases fuel, 4, 0
  {
    var nc :- ClassOf(w, Target(d));
    var seed :- DomainInit(nc, [Attr(HydrateLookup(d), fk)]);
    SeedFlat(nc, HydrateLookup(d), fk);
    Related(w, asWritten, nc, Target(d), seed, depth, fuel)
  }

  /** `nested_class(...).find()` on the built instance, then
      `encapsulate_nested(depth - 1)` on what it returns. */
  function Related(w: World, asWritten: bool, nc: DomainClass, name: string, seed: seq<Attr>, depth: int, fuel: nat): (r: Result<Value>)
    ensures r.Ok? ==> r.value.VObj? && r.value.kind == DomainKind(name)
    ensures !asWritten && fuel + 1 >= depth ==> r != Err(RecursionLimit)
    ensures !asWritten && WellFormed(w) && ClassOk(nc) && Flat(seed) && depth >= 1 && r.Ok? ==> Depth(r.value) <= depth
    decreases fuel, 3, 1
  {
    var found :- FindEntity(w, asWritten, nc, seed, if asWritten then 1 else 0, fuel);
    var hydrated :- Encapsulate(w, asWritten, nc, found, depth - 1, fuel);
    RelatedStep(NestedKeys(nc), found, hydrated, name, depth);
    Ok(Entity(name, hydrated))
  }

  /** The `@nested_list` loop of `encapsulate_nested`: each attribute is set
      to its list of related entities. */
  function LoadNestedLists(w: World, asWritten: bool, entries: seq<NestedEntry>, attrs: seq<Attr>, depth: int, fuel: nat): (r: Result<seq<Attr>>)
    ensures r.Ok? ==> Agree(r.value, attrs, NestedAttrs(entries))
    ensures !asWritten && fuel + 1 >= depth ==> r != Err(RecursionLimit)
    ensures !asWritten && WellFormed(w) && depth >= 1 && r.Ok? ==>
      forall keys {:trigger Bounded(keys, r.value, depth)} ::
        ListFits(entries, keys) && Bounded(keys, attrs, depth) ==> Bounded(keys, r.value, depth)
    decreases fuel, 5, |entries|
  {
    if entries == [] then Ok(attrs)
    else
      var e := entries[0];
      var v :- LoadList(w, asWritten, e, attrs, depth, fuel);
      LoadStep(entries, attrs, v, depth);
      LoadNestedLists(w, asWritten, entries[1..], Put(attrs, e.attr, v), depth, fuel)
  }

  /** One `@nested_list` attribute: the entities of the target class whose
      foreign key is this entity's `id`, which must exist. */
  function LoadList(w: World, asWritten: bool, e: NestedEntry, attrs: seq<Attr>, depth: int, fuel: nat): (r: Result<Value>)
    ensures r.Ok? ==> (r.value.VList? &&
      forall i :: 0 <= i < |r.value.items| ==> r.value.items[i].VObj? && r.value.items[i].kind == DomainKind(e.info.target))
    ensures e.info.target in w.classes && !Has(attrs, "id") ==> r == Err(AttributeMissing("id"))
    ensures !asWritten && fuel + 1 >= depth ==> r != Err(RecursionLimit)
    ensures !asWritten && WellFormed(w) && depth >= 1 && r.Ok? ==> Depth(r.value) <= depth
    decreases fuel, 4, 0
  {
    var tc :- ClassOf(w, e.info.target);
    var id :- Attribute(attrs, "id");
    var seed :- DomainInit(tc, [Attr(e.info.foreignKey, id)]);
    RelatedList(w, asWritten, tc, e.info.target, seed, depth, fuel)
  }

  /** `domain_class(...).find_all()` on the built instance, as entities. */
  function RelatedList(w: World, asWritten: bool, tc: DomainClass, name: string, seed: seq<Attr>, depth: int, fuel: nat): (r: Result<Value>)
    ensures r.Ok? ==> (r.value.VList? &&
      forall i :: 0 <= i < |r.value.items| ==> r.value.items[i].VObj? && r.value.items[i].kind == DomainKind(name))
    ensures !asWritten && fuel + 1 >= depth ==> r != Err(RecursionLimit)
    ensures !asWritten && WellFormed(w) && ClassOk(tc) && depth >= 1 && r.Ok? ==> Depth(r.value) <= depth
    decreases fuel, 3, 1
  {
    var items :- FindAllEntities(w, asWritten, tc, seed, if asWritten then 1 else depth - 1, fuel);
    EntitiesDepth(NestedKeys(tc), name, items, depth - 1);
    Ok(VList(Entities(name, items)))
  }

  /** `sync(dto)` then `normalize_foreign_keys()`: what the finders do with
      every row they load. */
  function Absorb(w: World, cls: DomainClass, attrs: seq<Attr>, src: Value): (r: Result<seq<Attr>>)
    ensures r.Err? ==> r.error == TypeMismatch || r.error == DictChangedSize
    ensures !(src.VDict? || src.VObj?) ==> r == Err(TypeMismatch)
    ensures r.Ok? && Flat(attrs) && src.VObj? && Flat(src.attrs) ==> Flat(r.value)
  {
    var synced :- DomainSync(attrs, src, false);
    Normalize(w.classes, Decls(cls), synced)
  }

  /** `find()`: validated as `find`; the DTO projection is looked up; a
      single match is synced in, normalised and hydrated at `hydrate`
      (`encapsulate_nested()` uses its default of 1). Without a single match
      the entity is returned as `as_dto` left it. */
  function FindEntity(w: World, asWritten: bool, cls: DomainClass, attrs: seq<Attr>, hydrate: int, fuel: nat): (r: Result<seq<Attr>>)
    ensures Validate(cls.restrictions, "find", attrs).Err? ==> r == Err(Validate(cls.restrictions, "find", attrs).error)
    ensures !asWritten && fuel >= hydrate ==> r != Err(RecursionLimit)
    ensures !asWritten && WellFormed(w) && ClassOk(cls) && Flat(attrs) && hydrate >= 0 && r.Ok? ==>
      Bounded(NestedKeys(cls), r.value, hydrate)
    decreases fuel, 1, 0
  {
    var _ :- Validate(cls.restrictions, "find", attrs);
    var p :- AsDto(w.env, cls, attrs);
    FindOneErrors(w.env, p.dto);
    var obj :- FindOne(w.env, p.dto, false);
    match obj
    case None =>
      FlatBounded(NestedKeys(cls), p.attrs, hydrate);
      Ok(p.attrs)
    case Some(o) =>
      FoundFlat(w.env, p.dto, o);
      var absorbed :- Absorb(w, cls, p.attrs, o);
      FlatBounded(NestedKeys(cls), absorbed, hydrate);
      Encapsulate(w, asWritten, cls, absorbed, hydrate, fuel)
  }

  /** `find_all()`: validated as `find_all`; the DAO's matches are turned
      into entities by `encapsulate`, then normalised and hydrated once more. */
  function FindAllEntities(w: World, asWritten: bool, cls: DomainClass, attrs: seq<Attr>, hydrate: int, fuel: nat): (r: Result<seq<seq<Attr>>>)
    ensures Validate(cls.restrictions, "find_all", attrs).Err? ==> r == Err(Validate(cls.restrictions, "find_all", attrs).error)
    ensures !asWritten && fuel >= hydrate ==> r != Err(RecursionLimit)
    ensures !asWritten && WellFormed(w) && ClassOk(cls) && hydrate >= 0 && r.Ok? ==>
      AllBounded(NestedKeys(cls), r.value, hydrate)
    decreases fuel, 3, 0
  {
    var _ :- Validate(cls.restrictions, "find_all", attrs);
    var p :- AsDto(w.env, cls, attrs);
    var dtos :- Dao.FindAll(w.env, cls.dto, Some(p.dto));
    AllFlat(w.env, cls.dto, p.dto);
    var made :- EncapsulateAll(w, asWritten, cls, dtos, hydrate, fuel);
    RehydrateAll(w, asWritten, cls, made, hydrate, fuel)
  }

  /** The classmethod `encapsulate(dto_list)`: one new entity per DTO, in order. */
  function EncapsulateAll(w: World, asWritten: bool, cls: DomainClass, dtos: seq<Value>, hydrate: int, fuel: nat): (r: Result<seq<seq<Attr>>>)
    ensures r.Ok? ==> |r.value| == |dtos|
    ensures (exists i :: 0 <= i < |dtos| && !(dtos[i].VDict? || dtos[i].VObj?)) ==> r.Err?
    ensures !asWritten && fuel >= hydrate ==> r != Err(RecursionLimit)
    ensures !asWritten && WellFormed(w) && ClassOk(cls) && hydrate >= 0 && FlatObjects(dtos) && r.Ok? ==>
      AllBounded(NestedKeys(cls), r.value, hydrate)
    decreases fuel, 2, |dtos|
  {
    if dtos == [] then Ok([])
    else
      DtosTail(dtos);
      var one :- EncapsulateOne(w, asWritten, cls, dtos[0], hydrate, fuel);
      var rest :- EncapsulateAll(w, asWritten, cls, dtos[1..], hydrate, fuel);
      ConsBounded(NestedKeys(cls), one, rest, hydrate);
      Ok([one] + rest)
  }

  /** One DTO of `encapsulate`: a new entity with no arguments, synced with
      the DTO, normalised and hydrated. */
  function EncapsulateOne(w: World, asWritten: bool, cls: DomainClass, dto: Value, hydrate: int, fuel: nat): (r: Result<seq<Attr>>)
    ensures !(dto.VDict? || dto.VObj?) ==> r == Err(TypeMismatch)
    ensures !asWritten && fuel >= hydrate ==> r != Err(RecursionLimit)
    ensures !asWritten && WellFormed(w) && ClassOk(cls) && hydrate >= 0 && dto.VObj? && Flat(dto.attrs) && r.Ok? ==>
      Bounded(NestedKeys(cls), r.value, hydrate)
    decreases fuel, 1, 0
  {
    var start := DomainInit(cls, []).value;
    var absorbed :- Absorb(w, cls, start, dto);
    FlatBounded(NestedKeys(cls), absorbed, hydrate);
    Encapsulate(w, asWritten, cls, absorbed, hydrate, fuel)
  }

  /** The loop after `encapsulate` in `find_all`: every entity is normalised
      and hydrated again. */
  function RehydrateAll(w: World, asWritten: bool, cls: DomainClass, items: seq<seq<Attr>>, hydrate: int, fuel: nat): (r: Result<seq<seq<Attr>>>)
    ensures r.Ok? ==> |r.value| == |items|
    ensures !asWritten && fuel >= hydrate ==> r != Err(RecursionLimit)
    ensures !asWritten && WellFormed(w) && ClassOk(cls) && hydrate >= 0 && AllBounded(NestedKeys(cls), items, hydrate) && r.Ok? ==>
      AllBounded(NestedKeys(cls), r.value, hydrate)
    decreases fuel, 2, |items|
  {
    if items == [] then Ok([])
    else
      assert forall i :: 0 < i < |items| ==> items[i] == items[1..][i - 1];
      var one :- RehydrateOne(w, asWritten, cls, items[0], hydrate, fuel);
      var rest :- RehydrateAll(w, asWritten, cls, items[1..], hydrate, fuel);
      ConsBounded(NestedKeys(cls), one, rest, hydrate);
      Ok([one] + rest)
  }

  /** One entity of that loop. */
  function RehydrateOne(w: World, asWritten: bool, cls: DomainClass, attrs: seq<Attr>, hydrate: int, fuel: nat): (r: Result<seq<Attr>>)
    ensures hydrate <= 0 || cls.foreignKeys.None? ==> r == Normalize(w.classes, Decls(cls), attrs)
    ensures !asWritten && fuel >= hydrate ==> r != Err(RecursionLimit)
    ensures !asWritten && WellFormed(w) && ClassOk(cls) && hydrate >= 0 && Bounded(NestedKeys(cls), attrs, hydrate) && r.Ok? ==>
      Bounded(NestedKeys(cls), r.value, hydrate)
    decreases fuel, 1, 0
  {
    var normalized :- Normalize(w.classes, Decls(cls), attrs);
    NormalizeBounded(w.classes, Decls(cls), NestedKeys(cls), attrs, hydrate);
    Encapsulate(w, asWritten, cls, normalized, hydrate, fuel)
  }

  // ---------------------------------------------------------------------------
  // The depth bound
  // ---------------------------------------------------------------------------

  /** The attribute names hydration fills: the nested names of the entries
      and the `@nested_list` attributes. */
  function NestedKeys(cls: DomainClass): seq<string> {
    NestedNames(Decls(cls)) + NestedListAttrs(cls)
  }

  /** A class hydration can work with: neither a declared field nor `id`
      is among the names hydration fills. */
  predicate ClassOk(cls: DomainClass) {
    && "id" !in NestedKeys(cls)
    && forall f :: f in FkFields(cls) ==> f !in NestedKeys(cls)
  }

  /** Every registered class is one hydration can work with. */
  predicate WellFormed(w: World) {
    forall n :: n in w.classes ==> ClassOk(w.classes[n])
  }

  /** Every name hydration fills holds a value at most `d` deep, and every
      other attribute a scalar. */
  predicate Bounded(keys: seq<string>, attrs: seq<Attr>, d: int) {
    forall i :: 0 <= i < |attrs| ==> ElemOk(keys, attrs[i], d)
  }

  /** An attribute named in `keys` is at most `d` deep; any other is a scalar. */
  predicate ElemOk(keys: seq<string>, x: Attr, d: int) {
    if x.key in keys then Depth(x.val) <= d else IsScalar(x.val)
  }

  /** Every entity of the list is bounded. */
  predicate AllBounded(keys: seq<string>, items: seq<seq<Attr>>, d: int) {
    forall i :: 0 <= i < |items| ==> Bounded(keys, items[i], d)
  }

  /** The entries suit the filled names: no entry's field is among them, and
      every entry's nested name is. */
  predicate Fits(decls: seq<FkDecl>, keys: seq<string>) {
    forall i :: 0 <= i < |decls| ==> decls[i].field !in keys && NestedName(decls[i]) in keys
  }

  /** Every `@nested_list` attribute is among the filled names. */
  predicate ListFits(entries: seq<NestedEntry>, keys: seq<string>) {
    forall i :: 0 <= i < |entries| ==> entries[i].attr in keys
  }

  /** DTOs the DAO loads: flat objects. */
  predicate FlatObjects(dtos: seq<Value>) {
    forall i :: 0 <= i < |dtos| ==> dtos[i].VObj? && Flat(dtos[i].attrs)
  }

  /** A class hydration can work with suits its own filled names. */
  lemma ClassFits(cls: DomainClass)
    ensures ClassOk(cls) ==> Fits(Decls(cls), NestedKeys(cls)) && ListFits(GetNestedListMetadata(cls.members), NestedKeys(cls))
  {
    if ClassOk(cls) {
      var decls := Decls(cls);
      forall i | 0 <= i < |decls| ensures decls[i].field !in NestedKeys(cls) && NestedName(decls[i]) in NestedKeys(cls) {
        assert FkFields(cls)[i] == decls[i].field;
        assert NestedKeys(cls)[i] == NestedName(decls[i]);
      }
      var meta := GetNestedListMetadata(cls.members);
      forall i | 0 <= i < |meta| ensures meta[i].attr in NestedKeys(cls) {
        assert NestedKeys(cls)[|decls| + i] == meta[i].attr;
      }
    }
  }

  /** A bounded entity is at most `d` deep. */
  lemma BoundedDepth(keys: seq<string>, attrs: seq<Attr>, d: int)
    ensures Bounded(keys, attrs, d) && d >= 0 ==> DepthAll(attrs) <= d
  {
    if Bounded(keys, attrs, d) && d >= 0 {
      assert forall i :: 0 <= i < |attrs| ==> ElemOk(keys, attrs[i], d);
      DepthAllBound(attrs, d);
    }
  }

  /** A flat entity is bounded at every depth that is not negative. */
  lemma FlatBounded(keys: seq<string>, attrs: seq<Attr>, d: int)
    ensures Flat(attrs) && d >= 0 ==> Bounded(keys, attrs, d)
  {
  }

  /** An attribute outside the filled names of a bounded entity is a scalar. */
  lemma BoundedScalar(keys: seq<string>, attrs: seq<Attr>, d: int, k: string)
    requires Bounded(keys, attrs, d) && k !in keys
    ensures IsScalar(Get(attrs, k))
  {
    if Find(attrs, k).Some? {
      var j :| 0 <= j < |attrs| && attrs[j] == Attr(k, Find(attrs, k).value);
      assert ElemOk(keys, attrs[j], d);
    }
  }

  /** Storing a value that fits its name keeps an entity bounded. */
  lemma BoundedPut(keys: seq<string>, attrs: seq<Attr>, d: int, k: string, v: Value)
    requires Bounded(keys, attrs, d) && ElemOk(keys, Attr(k, v), d)
    ensures Bounded(keys, Put(attrs, k, v), d)
  {
    var r := Put(attrs, k, v);
    forall i | 0 <= i < |r| ensures ElemOk(keys, r[i], d) {
      assert r[i] in r;
      if r[i] != Attr(k, v) {
        var j :| 0 <= j < |attrs| && attrs[j] == r[i];
        assert ElemOk(keys, attrs[j], d);
      }
    }
  }

  /** The nested names of a list of entries: the first's and the rest's. */
  lemma DeclsTail(decls: seq<FkDecl>)
    requires decls != []
    ensures forall k :: k !in NestedNames(decls) ==> k != NestedName(decls[0]) && k !in NestedNames(decls[1..])
  {
    assert NestedNames(decls)[0] == NestedName(decls[0]);
    forall k | k in NestedNames(decls[1..]) ensures k in NestedNames(decls) {
      var i :| 0 <= i < |decls[1..]| && NestedNames(decls[1..])[i] == k;
      assert NestedNames(decls)[i + 1] == k;
    }
  }

  /** Entry 0 of the `foreign_keys` loop followed by the rest: `next` is the
      list after entry 0, and `r`, with what the rest of the loop promises
      about it, is what the rest makes of `next`. */
  lemma FksCompose(w: World, asWritten: bool, decls: seq<FkDecl>, attrs: seq<Attr>, next: seq<Attr>, r: Result<seq<Attr>>, depth: int)
    requires decls != []
    requires forall k :: k != NestedName(decls[0]) ==> Find(next, k) == Find(attrs, k)
    requires next != attrs ==> Get(attrs, decls[0].field) != VNone
    requires !asWritten && WellFormed(w) && depth >= 1 ==>
      forall keys :: Fits(decls, keys) && Bounded(keys, attrs, depth) ==> Bounded(keys, next, depth)
    requires r.Ok? ==> Agree(r.value, next, NestedNames(decls[1..]))
    requires (forall i :: 0 <= i < |decls[1..]| ==> Get(next, decls[1..][i].field) == VNone) ==> r == Ok(next)
    requires !asWritten && WellFormed(w) && depth >= 1 && r.Ok? ==>
      forall keys {:trigger Bounded(keys, r.value, depth)} ::
        Fits(decls[1..], keys) && Bounded(keys, next, depth) ==> Bounded(keys, r.value, depth)
    ensures r.Ok? ==> Agree(r.value, attrs, NestedNames(decls))
    ensures (forall i :: 0 <= i < |decls| ==> Get(attrs, decls[i].field) == VNone) ==> r == Ok(attrs)
    ensures !asWritten && WellFormed(w) && depth >= 1 && r.Ok? ==>
      forall keys {:trigger Bounded(keys, r.value, depth)} ::
        Fits(decls, keys) && Bounded(keys, attrs, depth) ==> Bounded(keys, r.value, depth)
  {
    DeclsTail(decls);
    HydrateStep(decls, attrs, VNone, depth);
    if forall i :: 0 <= i < |decls| ==> Get(attrs, decls[i].field) == VNone {
      assert Get(attrs, decls[0].field) == VNone;
      assert forall i :: 0 <= i < |decls[1..]| ==> decls[1..][i] == decls[i + 1];
    }
  }

  /** One step of the `foreign_keys` loop keeps the bound, given a related
      entity no deeper than `depth` for a scalar lookup value. */
  lemma HydrateStep(decls: seq<FkDecl>, attrs: seq<Attr>, v: Value, depth: int)
    requires decls != []
    ensures forall keys :: Fits(decls, keys) ==> Fits(decls[1..], keys)
    ensures (IsScalar(Get(attrs, decls[0].field)) ==> Depth(v) <= depth) ==>
      forall keys :: Fits(decls, keys) && Bounded(keys, attrs, depth) ==> Bounded(keys, Put(attrs, NestedName(decls[0]), v), depth)
  {
    forall keys | Fits(decls, keys) ensures Fits(decls[1..], keys) {
      forall i | 0 <= i < |decls[1..]| ensures decls[1..][i].field !in keys && NestedName(decls[1..][i]) in keys {
        assert decls[1..][i] == decls[i + 1];
      }
    }
    if IsScalar(Get(attrs, decls[0].field)) ==> Depth(v) <= depth {
      forall keys | Fits(decls, keys) && Bounded(keys, attrs, depth)
        ensures Bounded(keys, Put(attrs, NestedName(decls[0]), v), depth)
      {
        BoundedScalar(keys, attrs, depth, decls[0].field);
        BoundedPut(keys, attrs, depth, NestedName(decls[0]), v);
      }
    }
  }

  /** One step of the `@nested_list` loop keeps the bound. */
  lemma LoadStep(entries: seq<NestedEntry>, attrs: seq<Attr>, v: Value, depth: int)
    requires entries != []
    ensures forall k :: k !in NestedAttrs(entries) ==> k != entries[0].attr && k !in NestedAttrs(entries[1..])
    ensures forall keys :: ListFits(entries, keys) ==> ListFits(entries[1..], keys)
    ensures Depth(v) <= depth ==>
      forall keys :: ListFits(entries, keys) && Bounded(keys, attrs, depth) ==> Bounded(keys, Put(attrs, entries[0].attr, v), depth)
  {
    assert forall i :: 0 <= i < |entries[1..]| ==> entries[1..][i] == entries[i + 1];
    assert NestedAttrs(entries)[0] == entries[0].attr;
    forall k | k in NestedAttrs(entries[1..]) ensures k in NestedAttrs(entries) {
      var i :| 0 <= i < |entries[1..]| && NestedAttrs(entries[1..])[i] == k;
      assert NestedAttrs(entries)[i + 1] == k;
    }
    if Depth(v) <= depth {
      forall keys | ListFits(entries, keys) && Bounded(keys, attrs, depth)
        ensures Bounded(keys, Put(attrs, entries[0].attr, v), depth)
      {
        BoundedPut(keys, attrs, depth, entries[0].attr, v);
      }
    }
  }

  /** Removing the declared fields keeps an entity bounded. */
  lemma BoundedCleanup(keys: seq<string>, cls: DomainClass, attrs: seq<Attr>, d: int)
    ensures Bounded(keys, attrs, d) ==> Bounded(keys, Cleanup(cls, attrs), d)
  {
    if Bounded(keys, attrs, d) {
      var r := Cleanup(cls, attrs);
      forall i | 0 <= i < |r| ensures ElemOk(keys, r[i], d) {
        assert r[i] in r;
        var j :| 0 <= j < |attrs| && attrs[j] == r[i];
        assert ElemOk(keys, attrs[j], d);
      }
    }
  }

  /** Normalisation keeps an entity bounded. */
  lemma NormalizeBounded(classes: map<string, DomainClass>, decls: seq<FkDecl>, keys: seq<string>, attrs: seq<Attr>, d: int)
    ensures Bounded(keys, attrs, d) && Normalize(classes, decls, attrs).Ok? ==>
      Bounded(keys, Normalize(classes, decls, attrs).value, d)
  {
    if Bounded(keys, attrs, d) && Normalize(classes, decls, attrs).Ok? {
      var r := Normalize(classes, decls, attrs).value;
      forall j | 0 <= j < |r| ensures ElemOk(keys, r[j], d) {
        KeysIndex(r, j);
        KeysIndex(attrs, j);
        assert ElemOk(keys, attrs[j], d);
      }
    }
  }

  /** The entity `find` hands to `encapsulate_nested(depth - 1)` and the
      hydrated result, stored one level down. */
  lemma RelatedStep(keys: seq<string>, found: seq<Attr>, hydrated: seq<Attr>, name: string, depth: int)
    ensures Bounded(keys, found, 0) && depth >= 1 && (Bounded(keys, found, depth - 1) ==> Bounded(keys, hydrated, depth - 1)) ==>
      Depth(Entity(name, hydrated)) <= depth
  {
    BoundedMono(keys, found, 0, depth - 1);
    BoundedDepth(keys, hydrated, depth - 1);
  }

  /** A bound holds at every larger depth. */
  lemma BoundedMono(keys: seq<string>, attrs: seq<Attr>, d: int, e: int)
    ensures Bounded(keys, attrs, d) && d <= e ==> Bounded(keys, attrs, e)
  {
    if Bounded(keys, attrs, d) && d <= e {
      assert forall i :: 0 <= i < |attrs| ==> ElemOk(keys, attrs[i], d);
    }
  }

  /** Entities of bounded attribute lists, as a list, are one level deeper. */
  lemma EntitiesDepth(keys: seq<string>, name: string, items: seq<seq<Attr>>, d: int)
    ensures AllBounded(keys, items, d) && d >= 0 ==> Depth(VList(Entities(name, items))) <= d + 1
  {
    if AllBounded(keys, items, d) && d >= 0 {
      var xs := Entities(name, items);
      forall i | 0 <= i < |xs| ensures Depth(xs[i]) <= d + 1 {
        BoundedDepth(keys, items[i], d);
      }
      DepthListBound(xs, d + 1);
    }
  }

  /** Prepending a bounded entity to a bounded list. */
  lemma ConsBounded(keys: seq<string>, one: seq<Attr>, rest: seq<seq<Attr>>, d: int)
    ensures Bounded(keys, one, d) && AllBounded(keys, rest, d) ==> AllBounded(keys, [one] + rest, d)
  {
    assert forall i :: 1 <= i < |[one] + rest| ==> ([one] + rest)[i] == rest[i - 1];
  }

  /** A list of DTOs split into its first and the rest. */
  lemma DtosTail(dtos: seq<Value>)
    requires dtos != []
    ensures FlatObjects(dtos) ==> dtos[0].VObj? && Flat(dtos[0].attrs) && FlatObjects(dtos[1..])
    ensures (exists i :: 0 <= i < |dtos| && !(dtos[i].VDict? || dtos[i].VObj?)) ==>
      !(dtos[0].VDict? || dtos[0].VObj?) || exists i :: 0 <= i < |dtos[1..]| && !(dtos[1..][i].VDict? || dtos[1..][i].VObj?)
  {
    assert forall i :: 0 <= i < |dtos[1..]| ==> dtos[1..][i] == dtos[i + 1];
  }

  /** The seed of a lookup is flat: a flat class and one scalar argument. */
  lemma SeedFlat(cls: DomainClass, k: string, v: Value)
    ensures IsScalar(v) ==> DomainInit(cls, [Attr(k, v)]).Ok? && Flat(DomainInit(cls, [Attr(k, v)]).value)
  {
  }

  /** A row the DAO loads is a flat object. */
  lemma FoundFlat(env: Env, dto: Value, o: Value)
    requires FlatDto(dto) && FindOne(env, dto, false) == Ok(Some(o))
    ensures o.VObj? && Flat(o.attrs)
  {
    var all := FindAll(env, dto.kind.cls, Some(dto));
    assert o == all.value[0];
  }

  /** The DAO's lookups fail only with their own errors, never the recursion limit. */
  lemma FindOneErrors(env: Env, dto: Value)
    requires FlatDto(dto)
    ensures FindOne(env, dto, false) != Err(RecursionLimit)
  {
    if IsDtoInstance(dto) {
      var all := FindAll(env, dto.kind.cls, Some(dto));
    }
  }

  /** Every row `find_all` loads is a flat object. */
  lemma AllFlat(env: Env, model: string, dto: Value)
    requires FlatDto(dto) && Dao.FindAll(env, model, Some(dto)).Ok?
    ensures FlatObjects(Dao.FindAll(env, model, Some(dto)).value)
  {
  }
}

=== FILE: hydration_stores.dfy ===
/** What `encapsulate_nested` stores: under each nested name an entity of
    the class its entry relates to, under each `@nested_list` attribute a
    list of entities of the entry's target class. */
module HydrationStores {
  import opened Values
  import opened Reflection
  import opened Domain
  import opened Hydration

  /** The entries' nested names are distinct and none is a declared field,
      so no entry's write disturbs another entry's field or nested name. */
  predicate Separate(decls: seq<FkDecl>) {
    && (forall a, b :: 0 <= a < b < |decls| ==> NestedName(decls[a]) != NestedName(decls[b]))
    && (forall a, b :: 0 <= a < |decls| && 0 <= b < |decls| ==> NestedName(decls[a]) != decls[b].field)
  }

  /** The `@nested_list` attributes are distinct. */
  predicate DistinctLists(entries: seq<NestedEntry>) {
    forall a, b :: 0 <= a < b < |entries| ==> entries[a].attr != entries[b].attr
  }

  /** `Separate` carries over to the remaining entries, none of which
      shares the first one's nested name. */
  lemma SeparateTail(decls: seq<FkDecl>)
    requires decls != [] && Separate(decls)
    ensures Separate(decls[1..]) && NestedName(decls[0]) !in NestedNames(decls[1..])
    ensures forall a :: 0 < a < |decls| ==> decls[a] == decls[1..][a - 1]
  {
    assert forall a :: 0 <= a < |decls[1..]| ==> decls[1..][a] == decls[a + 1];
  }

  /** `DistinctLists` carries over to the remaining entries, none of which
      shares the first one's attribute. */
  lemma DistinctTail(entries: seq<NestedEntry>)
    requires entries != [] && DistinctLists(entries)
    ensures DistinctLists(entries[1..]) && entries[0].attr !in NestedAttrs(entries[1..])
    ensures forall a :: 0 < a < |entries| ==> entries[a] == entries[1..][a - 1]
  {
    assert forall a :: 0 <= a < |entries[1..]| ==> entries[1..][a] == entries[a + 1];
  }

  /** The `foreign_keys` loop stores, under the nested name of an entry whose
      field is not None, an entity of the class the entry relates to; under
      the nested name of an entry whose field is None it stores nothing. */
  lemma {:induction false} HydrateFksStores(w: World, asWritten: bool, decls: seq<FkDecl>, attrs: seq<Attr>, depth: int, fuel: nat, i: nat)
    requires Separate(decls) && i < |decls|
    ensures var r := HydrateFks(w, asWritten, decls, attrs, depth, fuel); var d := decls[i];
      r.Ok? ==>
        && (Get(attrs, d.field) != VNone ==> Get(r.value, NestedName(d)).VObj? && Get(r.value, NestedName(d)).kind == DomainKind(Target(d)))
        && (Get(attrs, d.field) == VNone ==> Find(r.value, NestedName(d)) == Find(attrs, NestedName(d)))
    decreases |decls|
  {
    if i == 0 {
      FksHead(w, asWritten, decls, attrs, depth, fuel);
    } else {
      var next := FksUnfold(w, asWritten, decls, attrs, depth, fuel);
      SeparateTail(decls);
      assert NestedName(decls[0]) != decls[i].field && NestedName(decls[0]) != NestedName(decls[i]);
      HydrateFksStores(w, asWritten, decls[1..], next, depth, fuel, i - 1);
    }
  }

  /** `HydrateFksStores` for the first entry: the rest of the loop writes
      only other nested names. */
  lemma FksHead(w: World, asWritten: bool, decls: seq<FkDecl>, attrs: seq<Attr>, depth: int, fuel: nat)
    requires Separate(decls) && decls != []
    ensures var r := HydrateFks(w, asWritten, decls, attrs, depth, fuel); var d := decls[0];
      r.Ok? ==>
        && (Get(attrs, d.field) != VNone ==> Get(r.value, NestedName(d)).VObj? && Get(r.value, NestedName(d)).kind == DomainKind(Target(d)))
        && (Get(attrs, d.field) == VNone ==> Find(r.value, NestedName(d)) == Find(attrs, NestedName(d)))
  {
    var next := FksUnfold(w, asWritten, decls, attrs, depth, fuel);
    SeparateTail(decls);
  }

  /** The first step of the `foreign_keys` loop: the list it hands to the
      rest of the loop differs from `attrs` only under the first entry's
      nested name, where it holds an entity of the related class unless the
      field is None. */
  lemma FksUnfold(w: World, asWritten: bool, decls: seq<FkDecl>, attrs: seq<Attr>, depth: int, fuel: nat) returns (next: seq<Attr>)
    requires decls != []
    ensures HydrateFks(w, asWritten, decls, attrs, depth, fuel).Ok? ==>
      HydrateFks(w, asWritten, decls, attrs, depth, fuel) == HydrateFks(w, asWritten, decls[1..], next, depth, fuel)
    ensures forall k :: k != NestedName(decls[0]) ==> Find(next, k) == Find(attrs, k)
    ensures Get(attrs, decls[0].field) == VNone ==> next == attrs
    ensures Get(attrs, decls[0].field) != VNone && HydrateFks(w, asWritten, decls, attrs, depth, fuel).Ok? ==>
      Get(next, NestedName(decls[0])).VObj? && Get(next, NestedName(decls[0])).kind == DomainKind(Target(decls[0]))
  {
    var d := decls[0];
    var fk := Get(attrs, d.field);
    next := attrs;
    if fk != VNone {
      var v := HydrateOne(w, asWritten, d, fk, depth, fuel);
      if v.Ok? {
        next := Put(attrs, NestedName(d), v.value);
      }
    }
  }

  /** The `@nested_list` loop stores, under each attribute, a list of
      entities of the entry's target class. */
  lemma {:induction false} LoadNestedListsStores(w: World, asWritten: bool, entries: seq<NestedEntry>, attrs: seq<Attr>, depth: int, fuel: nat, i: nat)
    requires DistinctLists(entries) && i < |entries|
    ensures var r := LoadNestedLists(w, asWritten, entries, attrs, depth, fuel); var e := entries[i];
      r.Ok? ==>
        && Get(r.value, e.attr).VList?
        && forall x :: x in Get(r.value, e.attr).items ==> x.VObj? && x.kind == DomainKind(e.info.target)
    decreases |entries|
  {
    if i == 0 {
      ListHead(w, asWritten, entries, attrs, depth, fuel);
    } else {
      var next := ListUnfold(w, asWritten, entries, attrs, depth, fuel);
      DistinctTail(entries);
      LoadNestedListsStores(w, asWritten, entries[1..], next, depth, fuel, i - 1);
    }
  }

  /** `LoadNestedListsStores` for the first entry: the rest of the loop
      writes only other attributes. */
  lemma ListHead(w: World, asWritten: bool, entries: seq<NestedEntry>, attrs: seq<Attr>, depth: int, fuel: nat)
    requires DistinctLists(entries) && entries != []
    ensures var r := LoadNestedLists(w, asWritten, entries, attrs, depth, fuel); var e := entries[0];
      r.Ok? ==>
        && Get(r.value, e.attr).VList?
        && forall x :: x in Get(r.value, e.attr).items ==> x.VObj? && x.kind == DomainKind(e.info.target)
  {
    var next := ListUnfold(w, asWritten, entries, attrs, depth, fuel);
    DistinctTail(entries);
  }

  /** The first step of the `@nested_list` loop: the list it hands to the
      rest of the loop holds, under the first attribute, a list of entities
      of the entry's target class. */
  lemma ListUnfold(w: World, asWritten: bool, entries: seq<NestedEntry>, attrs: seq<Attr>, depth: int, fuel: nat) returns (next: seq<Attr>)
    requires entries != []
    ensures LoadNestedLists(w, asWritten, entries, attrs, depth, fuel).Ok? ==>
      && LoadNestedLists(w, asWritten, entries, attrs, depth, fuel) == LoadNestedLists(w, asWritten, entries[1..], next, depth, fuel)
      && Get(next, entries[0].attr).VList?
      && forall x :: x in Get(next, entries[0].attr).items ==> x.VObj? && x.kind == DomainKind(entries[0].info.target)
  {
    next := attrs;
    var v := LoadList(w, asWritten, entries[0], attrs, depth, fuel);
    if v.Ok? {
      next := Put(attrs, entries[0].attr, v.value);
    }
  }

  /** `encapsulate_nested(depth)` with `depth > 0` on a class with
      `foreign_keys` stores, under the nested name of an entry whose field is
      not None, an entity of the class the entry relates to, unless a
      `@nested_list` attribute of the same name overwrites it. */
  lemma EncapsulateStoresEntity(w: World, asWritten: bool, cls: DomainClass, attrs: seq<Attr>, depth: int, below: nat, i: nat)
    requires depth > 0 && cls.foreignKeys.Some? && ClassOk(cls) && Separate(Decls(cls)) && i < |Decls(cls)|
    ensures var r := Encapsulate(w, asWritten, cls, attrs, depth, below + 1); var d := Decls(cls)[i];
      r.Ok? && Get(attrs, d.field) != VNone && NestedName(d) !in NestedListAttrs(cls) ==>
        Get(r.value, NestedName(d)).VObj? && Get(r.value, NestedName(d)).kind == DomainKind(Target(d))
  {
    var d := Decls(cls)[i];
    var meta := GetNestedListMetadata(cls.members);
    var a1 := HydrateFks(w, asWritten, Decls(cls), attrs, depth, below);
    if a1.Ok? && NestedName(d) !in NestedListAttrs(cls) {
      HydrateFksStores(w, asWritten, Decls(cls), attrs, depth, below, i);
      var a2 := LoadNestedLists(w, asWritten, meta, a1.value, depth, below);
      ListsKeep(w, asWritten, meta, a1.value, depth, below, NestedName(d));
      if a2.Ok? {
        assert NestedKeys(cls)[i] == NestedName(d);
        assert NestedName(d) !in FkFields(cls);
        CleanupKeeps(cls, a2.value, NestedName(d));
      }
    }
  }

  /** `encapsulate_nested(depth)` with `depth > 0` on a class with
      `foreign_keys` stores, under each `@nested_list` attribute, a list of
      entities of the entry's target class. */
  lemma EncapsulateStoresList(w: World, asWritten: bool, cls: DomainClass, attrs: seq<Attr>, depth: int, below: nat, i: nat)
    requires depth > 0 && cls.foreignKeys.Some? && ClassOk(cls)
    requires DistinctLists(GetNestedListMetadata(cls.members)) && i < |GetNestedListMetadata(cls.members)|
    ensures var r := Encapsulate(w, asWritten, cls, attrs, depth, below + 1); var e := GetNestedListMetadata(cls.members)[i];
      r.Ok? ==>
        && Get(r.value, e.attr).VList?
        && forall x :: x in Get(r.value, e.attr).items ==> x.VObj? && x.kind == DomainKind(e.info.target)
  {
    var meta := GetNestedListMetadata(cls.members);
    var a1 := HydrateFks(w, asWritten, Decls(cls), attrs, depth, below);
    if a1.Ok? {
      LoadNestedListsStores(w, asWritten, meta, a1.value, depth, below, i);
      var a2 := LoadNestedLists(w, asWritten, meta, a1.value, depth, below);
      if a2.Ok? {
        assert NestedKeys(cls)[|Decls(cls)| + i] == meta[i].attr;
        assert meta[i].attr !in FkFields(cls);
        CleanupKeeps(cls, a2.value, meta[i].attr);
      }
    }
  }

  /** The `@nested_list` loop keeps every attribute that is not one of its
      own. */
  lemma ListsKeep(w: World, asWritten: bool, entries: seq<NestedEntry>, attrs: seq<Attr>, depth: int, fuel: nat, k: string)
    requires k !in NestedAttrs(entries)
    ensures var r := LoadNestedLists(w, asWritten, entries, attrs, depth, fuel);
      r.Ok? ==> Get(r.value, k) == Get(attrs, k)
  {
  }

  /** Cleaning keeps every attribute that is not a declared field. */
  lemma CleanupKeeps(cls: DomainClass, attrs: seq<Attr>, k: string)
    requires k !in FkFields(cls)
    ensures Get(if cls.cleanNestedKeys then Cleanup(cls, attrs) else attrs, k) == Get(attrs, k)
  {
  }
}

=== FILE: log_control.dfy ===
/** The re-entrant log-suppression counter: `_log_suppression_depth`,
    `suppress_logs()` and the `log_suppressed()` context manager.

    A program fragment is a sequence of blocks: a `log()` call, a
    `with log_suppressed():` scope around a body, or an exception raised. The
    model tracks the counter, and its value at each `log()` call, from which
    both what `suppress_logs()` answers there and whether the call prints
    follow. */
module LogControl {

  datatype Block =
    | Log
    | Suppressed(body: seq<Block>)
    | Raise

  /** Counter after the fragment, whether it ended by an exception, and the
      counter at each `log()` call in order. */
  datatype Outcome = Outcome(depth: nat, raised: bool, depths: seq<nat>)

  /** `suppress_logs()` */
  predicate SuppressLogs(depth: nat) {
    depth > 0
  }

  /** Run blocks from the given counter value. A suppressed scope adds one on
      entry and, in its `finally`, subtracts one on every exit, normal or by
      exception; an exception ends the enclosing sequence. */
  function Run(depth: nat, bs: seq<Block>): (o: Outcome)
    ensures o.depth == depth
    ensures forall i :: 0 <= i < |o.depths| ==> o.depths[i] >= depth
    decreases bs
  {
    if bs == [] then Outcome(depth, false, [])
    else
      match bs[0]
      case Log =>
        var rest := Run(depth, bs[1..]);
        Outcome(rest.depth, rest.raised, [depth] + rest.depths)
      case Raise => Outcome(depth, true, [])
      case Suppressed(body) =>
        var inner := Run(depth + 1, body);
        var after := inner.depth - 1;
        if inner.raised then Outcome(after, true, inner.depths)
        else
          var rest := Run(after, bs[1..]);
          Outcome(rest.depth, rest.raised, inner.depths + rest.depths)
  }

  /** Whether a `log()` call made while the counter is `depth` prints. As
      written, `log` never consults `suppress_logs()`; the corrected `log`
      returns early when it answers True. */
  function Prints(asWritten: bool, depth: nat): (b: bool)
    ensures asWritten ==> b
    ensures !asWritten ==> (b <==> !SuppressLogs(depth))
  {
    asWritten || !SuppressLogs(depth)
  }

  /** Outside every scope `suppress_logs()` is False, and the call prints. */
  lemma TopLevelLogNotSuppressed(asWritten: bool, rest: seq<Block>)
    ensures var o := Run(0, [Log] + rest);
            |o.depths| > 0 && !SuppressLogs(o.depths[0]) && Prints(asWritten, o.depths[0])
  {
    assert ([Log] + rest)[1..] == rest;
  }

  /** At every `log()` call inside a suppressed scope, `suppress_logs()` is
      True, however deeply the scopes nest and whatever the counter was
      before. */
  lemma ScopeSuppressesAll(depth: nat, body: seq<Block>, rest: seq<Block>)
    ensures var o := Run(depth, [Suppressed(body)] + rest);
            var inner := Run(depth + 1, body);
            && |inner.depths| <= |o.depths|
            && forall i :: 0 <= i < |inner.depths| ==> o.depths[i] == inner.depths[i] && SuppressLogs(o.depths[i])
  {
    assert ([Suppressed(body)] + rest)[0] == Suppressed(body);
  }

  /** As written, the scope silences nothing: a `log()` call inside it
      prints although `suppress_logs()` is True there. */
  lemma SuppressionIgnored(depth: nat, body: seq<Block>, rest: seq<Block>)
    ensures var o := Run(depth, [Suppressed(body)] + rest);
            forall i :: 0 <= i < |Run(depth + 1, body).depths| ==>
              SuppressLogs(o.depths[i]) && Prints(true, o.depths[i])
  {
    ScopeSuppressesAll(depth, body, rest);
  }

  /** With the corrected `log`, no call inside a suppressed scope prints. */
  lemma ScopeSilent(depth: nat, body: seq<Block>, rest: seq<Block>)
    ensures var o := Run(depth, [Suppressed(body)] + rest);
            forall i :: 0 <= i < |Run(depth + 1, body).depths| ==> !Prints(false, o.depths[i])
  {
    ScopeSuppressesAll(depth, body, rest);
  }

  /** The scope `encapsulate_nested` opens around hydration: as written, its
      one `log()` call still prints. */
  lemma HydrationLogPrints()
    ensures Run(0, [Suppressed([Log])]).depths == [1]
    ensures SuppressLogs(1) && Prints(true, 1) && !Prints(false, 1)
  {
    assert [Suppressed([Log])][1..] == [];
    assert [Log][1..] == [];
  }

  /** Once the outermost scope exits, `suppress_logs()` is False again and the
      next call prints. */
  lemma {:induction false} LoggingResumes(asWritten: bool, body: seq<Block>)
    ensures var o := Run(0, [Suppressed(body), Log]);
            !o.raised ==> |o.depths| > 0 && !SuppressLogs(o.depths[|o.depths| - 1]) && Prints(asWritten, o.depths[|o.depths| - 1])
  {
    var bs := [Suppressed(body), Log];
    var inner := Run(1, body);
    if !inner.raised {
      assert bs[1..] == [Log];
      assert Run(0, [Log]).depths == [0];
    }
  }
}

=== FILE: normalize_stores.dfy ===
/** What `normalize_foreign_keys` stores. The attribute loop is restated as
    a run of single passes, and each entry's outcome is described. The loop
    writes a UUID to an entry's mapped field, which may be another entry; the
    facts here are about entries no other entry writes to. */
module NormalizeStores {
  import opened Text
  import opened Values
  import opened Exceptions
  import opened UuidUtils
  import opened Reflection
  import opened Domain

  /** One pass of the attribute loop, at position `i`, on its own: a valid
      UUID string under a name whose mapped field ends in `_id` is stored as a
      UUID under that field, failing when the field is new; a nested entity
      is normalised in place. `LoopUnfold` shows that the loop is these
      passes in order. */
  function LoopStep(classes: map<string, DomainClass>, decls: seq<FkDecl>, orig: seq<Attr>, cur: seq<Attr>, i: nat): (r: Result<seq<Attr>>)
    requires LoopInv(orig, cur, i) && i < |orig|
    ensures r.Err? ==> r.error == DictChangedSize
    ensures r.Ok? ==> LoopInv(orig, r.value, i + 1)
  {
    var name, value := cur[i].key, cur[i].val;
    var f := FieldFor(decls, name);
    if EndsWith(f, "_id") && value.VStr? && IsValidUuidText(value.s) then
      if !Has(cur, f) then Err(DictChangedSize)
      else
        UuidStep(orig, cur, i, f, ToUuid(value.s));
        Ok(Put(cur, f, VUuid(ToUuid(value.s))))
    else if IsEntity(value) then
      assert value == orig[i].val;
      assert orig[i] in orig;
      var inner :- Normalize(classes, ClassDecls(classes, value.kind.cls), value.attrs);
      EntityStep(orig, cur, i, inner);
      Ok(cur[i := Attr(name, VObj(value.kind, inner))])
    else Ok(cur)
  }

  /** The attribute loop at `i` is one pass followed by the loop at `i + 1`. */
  lemma LoopUnfold(classes: map<string, DomainClass>, decls: seq<FkDecl>, orig: seq<Attr>, cur: seq<Attr>, i: nat)
    requires LoopInv(orig, cur, i) && i < |orig|
    ensures var s := LoopStep(classes, decls, orig, cur, i);
      NormalizeAttrs(classes, decls, orig, cur, i)
        == if s.Err? then Err(s.error) else NormalizeAttrs(classes, decls, orig, s.value, i + 1)
  {
  }

  /** The attribute loop as a run of `LoopStep` passes. */
  function LoopRun(classes: map<string, DomainClass>, decls: seq<FkDecl>, orig: seq<Attr>, cur: seq<Attr>, i: nat): Result<seq<Attr>>
    requires LoopInv(orig, cur, i)
    decreases |orig| - i
  {
    if i == |orig| then Ok(cur)
    else
      var next :- LoopStep(classes, decls, orig, cur, i);
      LoopRun(classes, decls, orig, next, i + 1)
  }

  /** Running the passes one by one is the attribute loop. */
  lemma {:induction false} LoopRunIsLoop(classes: map<string, DomainClass>, decls: seq<FkDecl>, orig: seq<Attr>, cur: seq<Attr>, i: nat)
    requires LoopInv(orig, cur, i)
    ensures LoopRun(classes, decls, orig, cur, i) == NormalizeAttrs(classes, decls, orig, cur, i)
    decreases |orig| - i
  {
    if i < |orig| {
      LoopUnfold(classes, decls, orig, cur, i);
      var s := LoopStep(classes, decls, orig, cur, i);
      if s.Ok? {
        LoopRunIsLoop(classes, decls, orig, s.value, i + 1);
      }
    }
  }

  /** Entry `i` of the loop stores a UUID under `k`: its mapped field is `k`,
      ends in `_id`, and its value is a string `is_valid_uuid` accepts. */
  predicate Writes(decls: seq<FkDecl>, attrs: seq<Attr>, i: int, k: string) {
    && 0 <= i < |attrs| && FieldFor(decls, attrs[i].key) == k && EndsWith(k, "_id")
    && attrs[i].val.VStr? && IsValidUuidText(attrs[i].val.s)
  }

  /** No entry but `j` itself writes to the attribute at `j`. */
  predicate Unshared(decls: seq<FkDecl>, attrs: seq<Attr>, j: int) {
    0 <= j < |attrs| && forall i :: 0 <= i < |attrs| && i != j ==> !Writes(decls, attrs, i, attrs[j].key)
  }

  /** What one pass of the attribute loop leaves at an unshared entry: a
      UUID string under a `*_id` name that maps to itself becomes the UUID,
      a nested entity is normalised with its own class's declarations, and
      anything else is kept. */
  function LoopEntry(classes: map<string, DomainClass>, decls: seq<FkDecl>, a: Attr): Attr {
    if FieldFor(decls, a.key) == a.key && EndsWith(a.key, "_id") && a.val.VStr? && IsValidUuidText(a.val.s) then
      Attr(a.key, VUuid(ToUuid(a.val.s)))
    else if IsEntity(a.val) && Normalize(classes, ClassDecls(classes, a.val.kind.cls), a.val.attrs).Ok? then
      Attr(a.key, VObj(a.val.kind, Normalize(classes, ClassDecls(classes, a.val.kind.cls), a.val.attrs).value))
    else a
  }

  /** Entry `a` makes the loop fail: a UUID string whose mapped `*_id` field
      is not an attribute, or an entity whose own normalisation fails. */
  predicate EntryFails(classes: map<string, DomainClass>, decls: seq<FkDecl>, keys: seq<string>, a: Attr) {
    var f := FieldFor(decls, a.key);
    || (EndsWith(f, "_id") && a.val.VStr? && IsValidUuidText(a.val.s) && f !in keys)
    || (IsEntity(a.val) && Normalize(classes, ClassDecls(classes, a.val.kind.cls), a.val.attrs).Err?)
  }

  /** In a list with distinct keys, the value found under an entry's key is
      that entry's. */
  lemma {:induction false} FindAt(a: seq<Attr>, j: int)
    requires NoDup(a) && 0 <= j < |a|
    ensures Find(a, a[j].key) == Some(a[j].val)
    decreases |a|
  {
    if j > 0 {
      assert NoDup(a[1..]) by {
        forall x, y | 0 <= x < y < |a[1..]| ensures a[1..][x].key != a[1..][y].key {
          assert a[1..][x] == a[x + 1] && a[1..][y] == a[y + 1];
        }
      }
      FindAt(a[1..], j - 1);
    }
  }

  /** Two lists with the same keys are both free of duplicates or neither. */
  lemma SameKeysNoDup(a: seq<Attr>, b: seq<Attr>)
    requires Keys(a) == Keys(b) && NoDup(a)
    ensures NoDup(b)
  {
    forall x, y | 0 <= x < y < |b| ensures b[x].key != b[y].key {
      KeysIndex(a, x); KeysIndex(a, y); KeysIndex(b, x); KeysIndex(b, y);
    }
  }

  /** Storing under an existing key `f` changes only the entry with that key. */
  lemma PutAt(a: seq<Attr>, f: string, v: Value, j: int)
    requires NoDup(a) && Has(a, f) && 0 <= j < |a|
    ensures Put(a, f, v)[j] == if a[j].key == f then Attr(f, v) else a[j]
  {
    var r := Put(a, f, v);
    KeysIndex(a, j);
    KeysIndex(r, j);
    if a[j].key == f {
      PutNoDup(a, f, v);
      FindAt(r, j);
    }
  }

  /** A loop step at `i` that writes a UUID leaves every other unshared
      entry alone. */
  lemma WriteKeeps(decls: seq<FkDecl>, orig: seq<Attr>, cur: seq<Attr>, i: nat, j: nat, u: Value)
    requires LoopInv(orig, cur, i) && NoDup(orig) && i < |orig| && i != j && Unshared(decls, orig, j)
    requires Has(cur, FieldFor(decls, cur[i].key)) && EndsWith(FieldFor(decls, cur[i].key), "_id")
    requires cur[i].val.VStr? && IsValidUuidText(cur[i].val.s)
    ensures Put(cur, FieldFor(decls, cur[i].key), u)[j] == cur[j]
  {
    var f := FieldFor(decls, cur[i].key);
    KeysIndex(cur, i); KeysIndex(orig, i);
    KeysIndex(cur, j); KeysIndex(orig, j);
    assert cur[i].val == orig[i].val;
    assert !Writes(decls, orig, i, orig[j].key);
    SameKeysNoDup(orig, cur);
    PutAt(cur, f, u, j);
  }

  /** The hypotheses of the per-entry loop lemmas: the loop invariant at `i`,
      distinct keys, and an entry `j` no other entry writes to. */
  predicate Settling(decls: seq<FkDecl>, orig: seq<Attr>, cur: seq<Attr>, i: nat, j: nat) {
    LoopInv(orig, cur, i) && NoDup(orig) && Unshared(decls, orig, j) && j < |cur|
  }

  /** One loop step fails exactly when its entry is one `EntryFails` names. */
  lemma StepFails(classes: map<string, DomainClass>, decls: seq<FkDecl>, orig: seq<Attr>, cur: seq<Attr>, i: nat)
    requires LoopInv(orig, cur, i) && i < |orig|
    ensures LoopStep(classes, decls, orig, cur, i).Err? <==> EntryFails(classes, decls, Keys(orig), cur[i])
  {
    var f := FieldFor(decls, cur[i].key);
    assert Has(cur, f) <==> f in Keys(orig);
  }

  /** One loop step leaves an unshared entry `j` as `LoopEntry` describes
      when `j` is `i`, and alone otherwise. */
  lemma StepAt(classes: map<string, DomainClass>, decls: seq<FkDecl>, orig: seq<Attr>, cur: seq<Attr>, i: nat, j: nat)
    requires Settling(decls, orig, cur, i, j) && i < |orig|
    ensures var r := LoopStep(classes, decls, orig, cur, i);
      r.Ok? ==> j < |r.value| && r.value[j] == if i == j then LoopEntry(classes, decls, cur[j]) else cur[j]
  {
    var f := FieldFor(decls, cur[i].key);
    var value := cur[i].val;
    if EndsWith(f, "_id") && value.VStr? && IsValidUuidText(value.s) {
      if Has(cur, f) {
        assert LoopStep(classes, decls, orig, cur, i) == Ok(Put(cur, f, VUuid(ToUuid(value.s))));
        UuidBranch(classes, decls, orig, cur, i, j);
      }
    } else if IsEntity(value) {
      var inner := Normalize(classes, ClassDecls(classes, value.kind.cls), value.attrs);
      if inner.Ok? {
        assert LoopStep(classes, decls, orig, cur, i) == Ok(cur[i := Attr(cur[i].key, VObj(value.kind, inner.value))]);
        OtherBranch(classes, decls, cur, i, j);
      }
    } else {
      assert LoopStep(classes, decls, orig, cur, i) == Ok(cur);
      OtherBranch(classes, decls, cur, i, j);
    }
  }

  /** The UUID step at `i` leaves the unshared entry at `j` as `LoopEntry`
      describes when `j` is `i`, and alone otherwise. */
  lemma UuidBranch(classes: map<string, DomainClass>, decls: seq<FkDecl>, orig: seq<Attr>, cur: seq<Attr>, i: nat, j: nat)
    requires Settling(decls, orig, cur, i, j) && i < |orig|
    requires Has(cur, FieldFor(decls, cur[i].key)) && EndsWith(FieldFor(decls, cur[i].key), "_id")
    requires cur[i].val.VStr? && IsValidUuidText(cur[i].val.s)
    ensures |Put(cur, FieldFor(decls, cur[i].key), VUuid(ToUuid(cur[i].val.s)))| == |cur|
    ensures Put(cur, FieldFor(decls, cur[i].key), VUuid(ToUuid(cur[i].val.s)))[j]
      == if i == j then LoopEntry(classes, decls, cur[j]) else cur[j]
  {
    var u := VUuid(ToUuid(cur[i].val.s));
    if i != j {
      WriteKeeps(decls, orig, cur, i, j, u);
    } else {
      SameKeysNoDup(orig, cur);
      PutAt(cur, FieldFor(decls, cur[i].key), u, j);
    }
  }

  /** The entity step changes only the entry at `i`, into what `LoopEntry`
      describes; the step that does nothing agrees with `LoopEntry`. */
  lemma OtherBranch(classes: map<string, DomainClass>, decls: seq<FkDecl>, cur: seq<Attr>, i: nat, j: nat)
    requires i < |cur| && j < |cur|
    requires !(EndsWith(FieldFor(decls, cur[i].key), "_id") && cur[i].val.VStr? && IsValidUuidText(cur[i].val.s))
    ensures IsEntity(cur[i].val) && Normalize(classes, ClassDecls(classes, cur[i].val.kind.cls), cur[i].val.attrs).Ok? ==>
      var next := cur[i := Attr(cur[i].key, VObj(cur[i].val.kind, Normalize(classes, ClassDecls(classes, cur[i].val.kind.cls), cur[i].val.attrs).value))];
      next[j] == if i == j then LoopEntry(classes, decls, cur[j]) else cur[j]
    ensures !IsEntity(cur[i].val) && i == j ==> LoopEntry(classes, decls, cur[j]) == cur[j]
  {
  }

  /** What the attribute loop from `i` leaves at entry `j`: what `LoopEntry`
      describes if the loop has not passed `j` yet, the entry as it is
      otherwise; and an entity not yet passed normalises without error. */
  predicate SettlesAt(classes: map<string, DomainClass>, decls: seq<FkDecl>, cur: seq<Attr>, i: nat, j: nat, r: Result<seq<Attr>>)
    requires j < |cur|
  {
    r.Ok? ==>
      && j < |r.value|
      && r.value[j] == (if i <= j then LoopEntry(classes, decls, cur[j]) else cur[j])
      && (i <= j && IsEntity(cur[j].val) ==> Normalize(classes, ClassDecls(classes, cur[j].val.kind.cls), cur[j].val.attrs).Ok?)
  }

  /** The attribute loop leaves an unshared entry at `j` as `LoopEntry`
      describes. */
  lemma {:induction false} LoopEntryAt(classes: map<string, DomainClass>, decls: seq<FkDecl>, orig: seq<Attr>, cur: seq<Attr>, i: nat, j: nat)
    requires Settling(decls, orig, cur, i, j)
    ensures SettlesAt(classes, decls, cur, i, j, LoopRun(classes, decls, orig, cur, i))
    decreases |orig| - i
  {
    if i < |orig| {
      var s := LoopStep(classes, decls, orig, cur, i);
      if s.Ok? {
        StepAt(classes, decls, orig, cur, i, j);
        StepFails(classes, decls, orig, cur, i);
        LoopEntryAt(classes, decls, orig, s.value, i + 1, j);
        var r := LoopRun(classes, decls, orig, s.value, i + 1);
        assert LoopRun(classes, decls, orig, cur, i) == r;
        SettlesShift(classes, decls, cur, s.value, i, j, r);
      }
    }
  }

  /** A step at `i` that turns `cur` into `next` carries `SettlesAt` back
      from `i + 1` to `i`. */
  lemma SettlesShift(classes: map<string, DomainClass>, decls: seq<FkDecl>, cur: seq<Attr>, next: seq<Attr>, i: nat, j: nat, r: Result<seq<Attr>>)
    requires j < |cur| && j < |next| && SettlesAt(classes, decls, next, i + 1, j, r)
    requires next[j] == if i == j then LoopEntry(classes, decls, cur[j]) else cur[j]
    requires i == j && IsEntity(cur[j].val) ==> Normalize(classes, ClassDecls(classes, cur[j].val.kind.cls), cur[j].val.attrs).Ok?
    ensures SettlesAt(classes, decls, cur, i, j, r)
  {
  }

  /** The attribute loop fails exactly when an entry it has not passed yet
      is one `EntryFails` names, provided no entry is written by another. */
  lemma {:induction false} LoopFails(classes: map<string, DomainClass>, decls: seq<FkDecl>, orig: seq<Attr>, cur: seq<Attr>, i: nat)
    requires LoopInv(orig, cur, i) && NoDup(orig)
    requires forall j :: 0 <= j < |orig| ==> Unshared(decls, orig, j)
    ensures LoopRun(classes, decls, orig, cur, i).Err?
      <==> exists j :: i <= j < |orig| && EntryFails(classes, decls, Keys(orig), cur[j])
    decreases |orig| - i
  {
    if i < |orig| {
      StepFails(classes, decls, orig, cur, i);
      var s := LoopStep(classes, decls, orig, cur, i);
      if s.Ok? {
        forall j | i < j < |orig| ensures s.value[j] == cur[j] {
          StepAt(classes, decls, orig, cur, i, j);
        }
        LoopFails(classes, decls, orig, s.value, i + 1);
        if exists j :: i <= j < |orig| && EntryFails(classes, decls, Keys(orig), cur[j]) {
          var j :| i <= j < |orig| && EntryFails(classes, decls, Keys(orig), cur[j]);
          assert j != i;
          assert s.value[j] == cur[j];
        }
      }
    }
  }

  /** `normalize_foreign_keys` turns an `id` string `is_valid_uuid` accepts
      into its UUID and leaves every other entry to the attribute loop. */
  lemma OwnIdAt(attrs: seq<Attr>, j: nat)
    requires NoDup(attrs) && j < |attrs|
    ensures NormalizeOwnId(attrs)[j]
      == if attrs[j].key == "id" && IsValidUuid(attrs[j].val) then Attr("id", VUuid(ToUuid(attrs[j].val.s))) else attrs[j]
  {
    var r := NormalizeOwnId(attrs);
    SameKeysNoDup(attrs, r);
    FindAt(attrs, j);
    FindAt(r, j);
    KeysIndex(attrs, j);
    KeysIndex(r, j);
  }

  /** What `normalize_foreign_keys` stores in an entry no other entry writes
      to, when it succeeds: a UUID string under `id`, or under a `*_id` name
      that maps to itself, becomes its UUID; a nested entity is normalised
      with its own class's declarations; anything else is left as it is. */
  lemma NormalizeEntry(classes: map<string, DomainClass>, decls: seq<FkDecl>, attrs: seq<Attr>, j: nat)
    requires NoDup(attrs) && Unshared(decls, attrs, j)
    ensures var r := Normalize(classes, decls, attrs); var a := attrs[j];
      r.Ok? ==>
        && (a.key == "id" && IsValidUuid(a.val) ==> r.value[j] == Attr("id", VUuid(ToUuid(a.val.s))))
        && (FieldFor(decls, a.key) == a.key && EndsWith(a.key, "_id") && a.val.VStr? && IsValidUuidText(a.val.s) ==>
              r.value[j] == Attr(a.key, VUuid(ToUuid(a.val.s))))
        && (IsEntity(a.val) ==>
              && Normalize(classes, ClassDecls(classes, a.val.kind.cls), a.val.attrs).Ok?
              && r.value[j] == Attr(a.key, VObj(a.val.kind, Normalize(classes, ClassDecls(classes, a.val.kind.cls), a.val.attrs).value)))
        && (!(a.key == "id" && IsValidUuid(a.val)) && !IsEntity(a.val)
            && !(FieldFor(decls, a.key) == a.key && EndsWith(a.key, "_id") && a.val.VStr? && IsValidUuidText(a.val.s)) ==>
              r.value[j] == a)
  {
    var cur := NormalizeOwnId(attrs);
    OwnIdAt(attrs, j);
    OwnIdInv(attrs);
    SameKeysNoDup(attrs, attrs);
    LoopEntryAt(classes, decls, attrs, cur, 0, j);
    LoopRunIsLoop(classes, decls, attrs, cur, 0);
  }

  /** `normalize_foreign_keys` fails exactly when, apart from a valid `id`,
      some entry is a UUID string whose mapped `*_id` field is not an
      attribute, or an entity whose own normalisation fails, provided no
      entry is written by another. */
  lemma NormalizeFails(classes: map<string, DomainClass>, decls: seq<FkDecl>, attrs: seq<Attr>)
    requires NoDup(attrs) && forall j :: 0 <= j < |attrs| ==> Unshared(decls, attrs, j)
    ensures Normalize(classes, decls, attrs).Err? <==>
      exists j :: 0 <= j < |attrs| && !(attrs[j].key == "id" && IsValidUuid(attrs[j].val))
        && EntryFails(classes, decls, Keys(attrs), attrs[j])
  {
    var cur := NormalizeOwnId(attrs);
    forall j | 0 <= j < |attrs|
      ensures EntryFails(classes, decls, Keys(attrs), cur[j])
        <==> !(attrs[j].key == "id" && IsValidUuid(attrs[j].val)) && EntryFails(classes, decls, Keys(attrs), attrs[j])
    {
      OwnIdAt(attrs, j);
    }
    OwnIdInv(attrs);
    LoopFails(classes, decls, attrs, cur, 0);
    LoopRunIsLoop(classes, decls, attrs, cur, 0);
  }
}

=== FILE: operations.dfy ===
/** The public operations of a Domain entity: `find`, `find_all`, `list`,
    the classmethod `encapsulate`, `save`, `persist`, `update`, and the result
    classification of `call_dao_method` and `joint_find`.

    Every operation hydrates with the corrected `encapsulate_nested` (the
    `asWritten` flag of the hydration module off) at its default depth of 1,
    for which one unit of fuel is enough: none of them can end in
    `RecursionError`. */
module Operations {
  import opened Values
  import opened Exceptions
  import opened Validation
  import opened Dto
  import opened Dao
  import opened Domain
  import opened Hydration

  /** The default `depth` of `encapsulate_nested()`. */
  const DefaultDepth: int := 1

  // ---------------------------------------------------------------------------
  // Finders
  // ---------------------------------------------------------------------------

  /** `find()` */
  function DomainFind(w: World, cls: DomainClass, attrs: seq<Attr>): (r: Result<seq<Attr>>)
    ensures Validate(cls.restrictions, "find", attrs).Err? ==> r == Err(Validate(cls.restrictions, "find", attrs).error)
    ensures r != Err(RecursionLimit)
    ensures WellFormed(w) && ClassOk(cls) && Flat(attrs) && r.Ok? ==> Bounded(NestedKeys(cls), r.value, DefaultDepth)
  {
    FindEntity(w, false, cls, attrs, DefaultDepth, 1)
  }

  /** Without a single match, `find()` returns the entity as `as_dto` left
      it: nothing is loaded and nothing is hydrated. */
  lemma FindWithoutMatch(w: World, cls: DomainClass, attrs: seq<Attr>, p: Projection)
    requires Validate(cls.restrictions, "find", attrs) == Ok(())
    requires AsDto(w.env, cls, attrs) == Ok(p)
    requires FindOne(w.env, p.dto, false) == Ok(None)
    ensures DomainFind(w, cls, attrs) == Ok(p.attrs)
  {
  }

  /** With a single match, `find()` is `sync`, `normalize_foreign_keys` and
      `encapsulate_nested()` on the row. */
  lemma FindWithMatch(w: World, cls: DomainClass, attrs: seq<Attr>, p: Projection, o: Value, absorbed: seq<Attr>)
    requires Validate(cls.restrictions, "find", attrs) == Ok(())
    requires AsDto(w.env, cls, attrs) == Ok(p)
    requires FindOne(w.env, p.dto, false) == Ok(Some(o))
    requires Absorb(w, cls, p.attrs, o) == Ok(absorbed)
    ensures DomainFind(w, cls, attrs) == Encapsulate(w, false, cls, absorbed, DefaultDepth, 1)
  {
  }

  /** `find_all()` */
  function DomainFindAll(w: World, cls: DomainClass, attrs: seq<Attr>): (r: Result<seq<seq<Attr>>>)
    ensures Validate(cls.restrictions, "find_all", attrs).Err? ==> r == Err(Validate(cls.restrictions, "find_all", attrs).error)
    ensures r != Err(RecursionLimit)
    ensures WellFormed(w) && ClassOk(cls) && r.Ok? ==> AllBounded(NestedKeys(cls), r.value, DefaultDepth)
  {
    FindAllEntities(w, false, cls, attrs, DefaultDepth, 1)
  }

  /** `list()`: `find_all()` on a new instance built without arguments. */
  function DomainList(w: World, cls: DomainClass): (r: Result<seq<seq<Attr>>>)
    ensures r != Err(RecursionLimit)
    ensures WellFormed(w) && ClassOk(cls) && r.Ok? ==> AllBounded(NestedKeys(cls), r.value, DefaultDepth)
  {
    var blank := DomainInit(cls, []);
    DomainFindAll(w, cls, blank.value)
  }

  /** `list()` filters on nothing but what the class's constructor sets. */
  lemma ListIsUnfilteredFindAll(w: World, cls: DomainClass)
    ensures DomainList(w, cls) == DomainFindAll(w, cls, cls.fields)
  {
    assert Join(FkFields(cls), cls.fields, []) == Ok(cls.fields);
    assert DomainInit(cls, []) == Ok(cls.fields);
  }

  /** The classmethod `encapsulate(dto_list)`. */
  function EncapsulateDtos(w: World, cls: DomainClass, dtos: seq<Value>): (r: Result<seq<seq<Attr>>>)
    ensures r.Ok? ==> |r.value| == |dtos|
    ensures (exists i :: 0 <= i < |dtos| && !(dtos[i].VDict? || dtos[i].VObj?)) ==> r.Err?
    ensures r != Err(RecursionLimit)
    ensures WellFormed(w) && ClassOk(cls) && FlatObjects(dtos) && r.Ok? ==> AllBounded(NestedKeys(cls), r.value, DefaultDepth)
  {
    EncapsulateAll(w, false, cls, dtos, DefaultDepth, 1)
  }

  // ---------------------------------------------------------------------------
  // call_dao_method and joint_find
  // ---------------------------------------------------------------------------

  /** `hasattr(x, 'sync')`: DTOs and entities have it, dicts and scalars do not. */
  predicate Syncable(v: Value) {
    v.VObj?
  }

  /** A DAO result that the classification wraps into entities: an object,
      or a non-empty list whose first item is one. */
  predicate Wrapped(result: Value) {
    Syncable(result) || (result.VList? && result.items != [] && Syncable(result.items[0]))
  }

  /** The result handling shared by `call_dao_method` and `joint_find`, for
      an entity class `cls` named `name`: a list starting with an object
      becomes a list of entities, each encapsulated, then normalised and
      hydrated once more; a single object becomes one entity the same way;
      None, the empty list, any other list and any other value are returned
      as they are. */
  function Classify(w: World, cls: DomainClass, name: string, result: Value): (r: Result<Value>)
    ensures !Wrapped(result) ==> r == Ok(result)
    ensures result.VList? && Wrapped(result) && r.Ok? ==>
      && r.value.VList? && |r.value.items| == |result.items|
      && forall i :: 0 <= i < |r.value.items| ==> r.value.items[i].VObj? && r.value.items[i].kind == DomainKind(name)
    ensures result.VList? && Wrapped(result) && (exists i :: 0 <= i < |result.items| && !(result.items[i].VDict? || result.items[i].VObj?)) ==>
      r.Err?
    ensures result.VObj? && r.Ok? ==> r.value.VObj? && r.value.kind == DomainKind(name)
    ensures r != Err(RecursionLimit)
  {
    match result
    case VList(items) =>
      if items == [] || !Syncable(items[0]) then Ok(result)
      else
        var made :- EncapsulateAll(w, false, cls, items, DefaultDepth, 1);
        var again :- RehydrateAll(w, false, cls, made, DefaultDepth, 1);
        Ok(VList(Entities(name, again)))
    case VObj(_, _) =>
      var one :- EncapsulateOne(w, false, cls, result, DefaultDepth, 1);
      var again :- RehydrateOne(w, false, cls, one, DefaultDepth, 1);
      Ok(Entity(name, again))
    case _ => Ok(result)
  }

  /** `call_dao_method(method_name, **params)`. The DAO's methods are given by
      what each returns for these parameters; a name that is not among them
      is not callable. */
  function CallDaoMethod(w: World, cls: DomainClass, name: string, dao: map<string, Result<Value>>, methodName: string): (r: Result<Value>)
    ensures methodName !in dao ==> r == Err(AttributeMissing(methodName))
    ensures methodName in dao && dao[methodName].Err? ==> r == Err(dao[methodName].error)
    ensures methodName in dao && dao[methodName].Ok? && !Wrapped(dao[methodName].value) ==> r == dao[methodName]
    ensures r != Err(RecursionLimit) || (methodName in dao && dao[methodName] == Err(RecursionLimit))
  {
    if methodName !in dao then Err(AttributeMissing(methodName))
    else
      var result :- dao[methodName];
      Classify(w, cls, name, result)
  }

  /** `joint_find(query, **params)`: the DAO's `joint_find` with the DTO
      model of the class; its rows are DTOs, so every one becomes an entity. */
  function JointFindEntities(w: World, cls: DomainClass, name: string, query: string, params: seq<Attr>): (r: Result<Value>)
    ensures Dao.JointFind(w.env, query, cls.dto, params).Err? ==> r == Err(Dao.JointFind(w.env, query, cls.dto, params).error)
    ensures r.Ok? ==>
      && Dao.JointFind(w.env, query, cls.dto, params).Ok?
      && r.value.VList? && |r.value.items| == |Dao.JointFind(w.env, query, cls.dto, params).value|
      && forall i :: 0 <= i < |r.value.items| ==> r.value.items[i].VObj? && r.value.items[i].kind == DomainKind(name)
    ensures r != Err(RecursionLimit)
  {
    var rows :- Dao.JointFind(w.env, query, cls.dto, params);
    Classify(w, cls, name, VList(rows))
  }

  /** `joint_find` is `call_dao_method` on the DAO's own `joint_find`. */
  lemma JointFindIsDaoCall(w: World, cls: DomainClass, name: string, query: string, params: seq<Attr>)
    ensures var rows := Dao.JointFind(w.env, query, cls.dto, params);
      JointFindEntities(w, cls, name, query, params)
        == CallDaoMethod(w, cls, name, map["joint_find" := if rows.Ok? then Ok(VList(rows.value)) else Err(rows.error)], "joint_find")
  {
  }

  /** `joint_find(query, **params)` as written: the DAO's `model` is a class,
      which `new_instance` cannot resolve. */
  function JointFindEntitiesAsWritten(w: World, cls: DomainClass, name: string, query: string, params: seq<Attr>): Result<Value> {
    var rows :- Dao.JointFindWithClass(w.env, query, params);
    Classify(w, cls, name, VList(rows))
  }

  /** As written, `joint_find` raises `DtoMappingError` on every statement
      that returns a row; it agrees with the corrected call only when nothing
      comes back or the statement fails. */
  lemma JointFindAsWrittenFails(w: World, cls: DomainClass, name: string, query: string, params: seq<Attr>)
    ensures var rows := Dao.JointFind(w.env, query, cls.dto, params);
      && (rows.Ok? && rows.value != [] ==> JointFindEntitiesAsWritten(w, cls, name, query, params) == Err(DtoMapping))
      && (rows.Ok? && rows.value == [] ==>
            JointFindEntitiesAsWritten(w, cls, name, query, params) == JointFindEntities(w, cls, name, query, params) == Ok(VList([])))
      && (rows.Err? ==> JointFindEntitiesAsWritten(w, cls, name, query, params) == JointFindEntities(w, cls, name, query, params))
  {
    Dao.JointFindClassFails(w.env, query, cls.dto, params);
  }

  // ---------------------------------------------------------------------------
  // save
  // ---------------------------------------------------------------------------

  /** Whether `save` inserts: always with `allow_duplicates`, otherwise only
      when `exists` finds no single match. A failing `exists` fails the save. */
  function SaveInserts(env: Env, dto: Value, allowDuplicates: bool): (r: Result<bool>)
    requires FlatDto(dto)
    ensures r.Err? ==> r.error == SaveOperation
    ensures allowDuplicates ==> r == Ok(true)
    // without duplicates, the insert happens exactly when `exists` says no
    ensures !allowDuplicates ==> (r == Ok(true) <==> Exists(env, dto) == Ok(false))
    ensures !allowDuplicates ==> (r.Err? <==> Exists(env, dto).Err?)
  {
    if allowDuplicates then Ok(true)
    else
      match Exists(env, dto)
      case Ok(found) => Ok(!found)
      case Err(_) => Err(SaveOperation)
  }

  /** For a DTO without an id and with an assigned field, `save` and
      `persist` take the same decision: `save` inserts exactly when `persist`
      does, skips the insert exactly when `persist` updates the matched row,
      and fails exactly when `persist` fails to decide. */
  lemma SaveAgreesWithPersist(env: Env, dto: Value, allowDuplicates: bool)
    requires IsDtoInstance(dto) && Flat(dto.attrs) && !Truthy(Get(dto.attrs, "id"))
    requires Columns(dto.attrs, None, true) != []
    ensures SaveInserts(env, dto, allowDuplicates).Err? <==> PersistAction(env, dto, allowDuplicates).Err?
    ensures SaveInserts(env, dto, allowDuplicates) == Ok(true) <==> PersistAction(env, dto, allowDuplicates) == Ok(Insert)
    ensures SaveInserts(env, dto, allowDuplicates) == Ok(false) <==> PersistAction(env, dto, allowDuplicates).Ok? && PersistAction(env, dto, allowDuplicates).value.UpdateFound?
  {
  }

  /** The body of `save` after the projection: the insert when decided, then
      `sync(dto)`, `normalize_foreign_keys()` and `encapsulate_nested()`. */
  function SaveSteps(w: World, cls: DomainClass, p: Projection, allowDuplicates: bool): (r: Result<seq<Attr>>)
    requires FlatDto(p.dto)
    ensures r != Err(RecursionLimit)
    ensures SaveInserts(w.env, p.dto, allowDuplicates) == Ok(true) && Save(w.env, p.dto).Err? ==> r.Err?
    ensures r.Ok? && WellFormed(w) && ClassOk(cls) && Flat(p.attrs) && p.dto.VObj? && Flat(p.dto.attrs) ==>
      Bounded(NestedKeys(cls), r.value, DefaultDepth)
    ensures r.Ok? && cls.foreignKeys.Some? && cls.cleanNestedKeys ==> forall k :: k in FkFields(cls) ==> !Has(r.value, k)
  {
    var insert :- SaveInserts(w.env, p.dto, allowDuplicates);
    var dto :- if insert then Save(w.env, p.dto) else Ok(p.dto);
    var absorbed :- Absorb(w, cls, p.attrs, dto);
    FlatBounded(NestedKeys(cls), absorbed, DefaultDepth);
    Encapsulate(w, false, cls, absorbed, DefaultDepth, 1)
  }

  /** `save(allow_duplicates)`: validated as `save`; every failure after the
      projection is reported as `SaveOperationError`. */
  function SaveEntity(w: World, cls: DomainClass, attrs: seq<Attr>, allowDuplicates: bool): (r: Result<seq<Attr>>)
    ensures Validate(cls.restrictions, "save", attrs).Err? ==> r == Err(Validate(cls.restrictions, "save", attrs).error)
    ensures r.Err? ==> r.error.ValidationFailed? || r.error == TypeMismatch || r.error == SaveOperation
    ensures Validate(cls.restrictions, "save", attrs).Ok? && AsDto(w.env, cls, attrs).Ok? ==>
      var p := AsDto(w.env, cls, attrs).value;
      SaveInserts(w.env, p.dto, allowDuplicates) == Ok(true) && Save(w.env, p.dto).Err? ==> r == Err(SaveOperation)
    ensures r.Ok? && WellFormed(w) && ClassOk(cls) && Flat(attrs) ==> Bounded(NestedKeys(cls), r.value, DefaultDepth)
    ensures r.Ok? && cls.foreignKeys.Some? && cls.cleanNestedKeys ==> forall k :: k in FkFields(cls) ==> !Has(r.value, k)
  {
    var _ :- Validate(cls.restrictions, "save", attrs);
    var p :- AsDto(w.env, cls, attrs);
    match SaveSteps(w, cls, p, allowDuplicates)
    case Ok(a) => Ok(a)
    case Err(_) => Err(SaveOperation)
  }

  // ---------------------------------------------------------------------------
  // persist
  // ---------------------------------------------------------------------------

  /** The DTO `persist` writes for its decision, and the write. */
  function PersistWrite(env: Env, dto: Value, action: Action): (r: Result<Value>)
    requires dto.VObj? && Flat(dto.attrs)
    requires action.UpdateFound? ==> IsScalar(action.id)
    ensures r.Err? ==> r.error == (if action.Insert? then SaveOperation else UpdateOperation)
    ensures r.Ok? ==> IsDtoInstance(r.value) && Flat(r.value.attrs)
    ensures action.UpdateFound? && r.Ok? ==> Find(r.value.attrs, "id") == Some(action.id)
    ensures action.UpdateOwn? && r.Ok? ==> r.value == dto
  {
    match action
    case UpdateOwn =>
      if Update(env, dto).Ok? then Ok(dto) else Err(UpdateOperation)
    case UpdateFound(id) =>
      PutFlat(dto.attrs, "id", id);
      var adopted := VObj(dto.kind, Put(dto.attrs, "id", id));
      if Update(env, adopted).Ok? then Ok(adopted) else Err(UpdateOperation)
    case Insert =>
      match Save(env, dto)
      case Ok(saved) => Ok(saved)
      case Err(_) => Err(SaveOperation)
  }

  /** The body of `persist` after the projection: decide, write, then
      `sync(dto)` and `normalize_foreign_keys()`, without hydration. */
  function PersistSteps(w: World, cls: DomainClass, p: Projection, allowDuplicates: bool): (r: Result<seq<Attr>>)
    requires p.dto.VObj? && Flat(p.dto.attrs)
    ensures r.Err? ==> r.error == SaveOperation || r.error == UpdateOperation
    ensures r == Err(UpdateOperation) ==> PersistAction(w.env, p.dto, allowDuplicates).Ok? && !PersistAction(w.env, p.dto, allowDuplicates).value.Insert?
    ensures PersistAction(w.env, p.dto, allowDuplicates) == Ok(Insert) && Save(w.env, p.dto).Err? ==> r == Err(SaveOperation)
    // with an id, the error is `UpdateOperationError` exactly when the DAO update fails
    ensures Truthy(Get(p.dto.attrs, "id")) ==> (r == Err(UpdateOperation) <==> Update(w.env, p.dto).Err?)
    // a base `Dto` is refused by the DAO on either path
    ensures !IsDtoInstance(p.dto) ==> r == Err(if Truthy(Get(p.dto.attrs, "id")) then UpdateOperation else SaveOperation)
    ensures r.Ok? && Flat(p.attrs) ==> Flat(r.value)
  {
    var action :- PersistAction(w.env, p.dto, allowDuplicates);
    var dto :- PersistWrite(w.env, p.dto, action);
    match Absorb(w, cls, p.attrs, dto)
    case Ok(a) => Ok(a)
    case Err(_) => Err(SaveOperation)
  }

  /** `persist(allow_duplicates)`: validated as `persist`. */
  function PersistEntity(w: World, cls: DomainClass, attrs: seq<Attr>, allowDuplicates: bool): (r: Result<seq<Attr>>)
    ensures Validate(cls.restrictions, "persist", attrs).Err? ==> r == Err(Validate(cls.restrictions, "persist", attrs).error)
    ensures r.Err? ==> r.error.ValidationFailed? || r.error == TypeMismatch || r.error == SaveOperation || r.error == UpdateOperation
    // with an id, the error is `UpdateOperationError` exactly when the DAO update fails
    ensures Validate(cls.restrictions, "persist", attrs).Ok? && AsDto(w.env, cls, attrs).Ok? ==>
      var p := AsDto(w.env, cls, attrs).value;
      Truthy(Get(p.dto.attrs, "id")) ==> (r == Err(UpdateOperation) <==> Update(w.env, p.dto).Err?)
    // a base `Dto` is refused by the DAO: the update path and the insert path report their own error
    ensures Validate(cls.restrictions, "persist", attrs).Ok? && AsDto(w.env, cls, attrs).Ok? ==>
      var p := AsDto(w.env, cls, attrs).value;
      !IsDtoInstance(p.dto) ==> r == Err(if Truthy(Get(p.dto.attrs, "id")) then UpdateOperation else SaveOperation)
    ensures Validate(cls.restrictions, "persist", attrs).Ok? && AsDto(w.env, cls, attrs).Ok? ==>
      var p := AsDto(w.env, cls, attrs).value;
      PersistAction(w.env, p.dto, allowDuplicates) == Ok(Insert) && Save(w.env, p.dto).Err? ==> r == Err(SaveOperation)
    // persist never hydrates: a flat entity stays flat
    ensures r.Ok? && Flat(attrs) ==> Flat(r.value)
  {
    var _ :- Validate(cls.restrictions, "persist", attrs);
    var p :- AsDto(w.env, cls, attrs);
    PersistSteps(w, cls, p, allowDuplicates)
  }

  // ---------------------------------------------------------------------------
  // update
  // ---------------------------------------------------------------------------

  /** The body of `update` after the projection: the DAO update, then the
      reload. */
  function UpdateSteps(w: World, cls: DomainClass, p: Projection): (r: Result<seq<Attr>>)
    requires FlatDto(p.dto)
    ensures r != Err(RecursionLimit)
    ensures r.Ok? ==> Update(w.env, p.dto) == Ok(true)
    ensures r.Ok? && cls.foreignKeys.Some? && cls.cleanNestedKeys ==> forall k :: k in FkFields(cls) ==> !Has(r.value, k)
  {
    var updated :- Update(w.env, p.dto);
    if !updated then Err(UpdateOperation) else Reload(w, cls, p.attrs)
  }

  /** The row `update` reloads by primary key: a new DTO holding only the
      entity's `id` is looked up with `find_one`, which raises when nothing
      matches; on an ambiguous match it returns None, which `sync` refuses. */
  function ReloadRow(w: World, cls: DomainClass, attrs: seq<Attr>): (r: Result<Value>)
    ensures !Has(attrs, "id") ==> r == Err(AttributeMissing("id"))
    ensures r.Ok? ==> r.value.VObj? || r.value == VNone
  {
    var id :- Attribute(attrs, "id");
    var reload := VObj(DtoKind(cls.dto), Construct(w.env.dtoClass(cls.dto), [Attr("id", id)]));
    if !Flat(reload.attrs) then Err(TypeMismatch)
    else
      var obj :- FindOne(w.env, reload, true);
      FoundObject(w.env, reload, obj);
      Ok(if obj.Some? then obj.value else VNone)
  }

  /** What `find_one` returns is a loaded row. */
  lemma FoundObject(env: Env, dto: Value, obj: Option<Value>)
    requires FlatDto(dto) && FindOne(env, dto, true) == Ok(obj)
    ensures obj.Some? ==> obj.value.VObj?
  {
  }

  /** The reload of `update`: the reloaded row is synced in, then
      `normalize_foreign_keys()` and `encapsulate_nested()` run and, for a
      class that cleans nested keys, every declared field is removed. */
  function Reload(w: World, cls: DomainClass, attrs: seq<Attr>): (r: Result<seq<Attr>>)
    ensures r != Err(RecursionLimit)
    ensures r.Ok? && cls.foreignKeys.Some? && cls.cleanNestedKeys ==> forall k :: k in FkFields(cls) ==> !Has(r.value, k)
    // the reload fails exactly as `find_one` on the id does, before anything is synced
    ensures ReloadRow(w, cls, attrs).Err? ==> r == Err(ReloadRow(w, cls, attrs).error)
  {
    var row :- ReloadRow(w, cls, attrs);
    var absorbed :- Absorb(w, cls, attrs, row);
    var hydrated :- Encapsulate(w, false, cls, absorbed, DefaultDepth, 1);
    Ok(if cls.cleanNestedKeys && cls.foreignKeys.Some? then Cleanup(cls, hydrated) else hydrated)
  }

  /** The removal at the end of `update` finds nothing left to remove:
      `encapsulate_nested()` has already cleaned the declared fields. */
  lemma UpdateCleanupIsRedundant(w: World, cls: DomainClass, absorbed: seq<Attr>)
    requires cls.foreignKeys.Some? && cls.cleanNestedKeys
    requires Encapsulate(w, false, cls, absorbed, DefaultDepth, 1).Ok?
    ensures var hydrated := Encapsulate(w, false, cls, absorbed, DefaultDepth, 1).value;
      Cleanup(cls, hydrated) == hydrated
  {
    var hydrated := Encapsulate(w, false, cls, absorbed, DefaultDepth, 1).value;
    DelAllAbsent(hydrated, FkFields(cls));
  }

  /** `update()`: validated as `update`; every failure after the projection
      is reported as `UpdateOperationError`. */
  function UpdateEntity(w: World, cls: DomainClass, attrs: seq<Attr>): (r: Result<seq<Attr>>)
    ensures Validate(cls.restrictions, "update", attrs).Err? ==> r == Err(Validate(cls.restrictions, "update", attrs).error)
    ensures r.Err? ==> r.error.ValidationFailed? || r.error == TypeMismatch || r.error == UpdateOperation
    // an entity is only ever returned after the DAO wrote it under an id
    ensures r.Ok? ==> AsDto(w.env, cls, attrs).Ok? && Update(w.env, AsDto(w.env, cls, attrs).value.dto) == Ok(true)
    ensures r.Ok? ==> Get(AsDto(w.env, cls, attrs).value.dto.attrs, "id") != VNone
    ensures r.Ok? && cls.foreignKeys.Some? && cls.cleanNestedKeys ==> forall k :: k in FkFields(cls) ==> !Has(r.value, k)
  {
    var _ :- Validate(cls.restrictions, "update", attrs);
    var p :- AsDto(w.env, cls, attrs);
    match UpdateSteps(w, cls, p)
    case Ok(a) => Ok(a)
    case Err(_) => Err(UpdateOperation)
  }
}

=== FILE: reflection.dfy ===
/** Attribute-map synchronisation and projection: `Object.sync`,
    `MutableObject.update`, and the `ReflectionUtils` helpers `sync_objects`,
    `looks_like_uuid`, `sync_with_dict`, `obj_to_dict`, `vars` and
    `get_nested_list_metadata`. An object is its ordered attribute list. */
module Reflection {
  import opened Text
  import opened Values
  import opened Exceptions
  import opened UuidUtils

  /** A key starting with `_`. */
  predicate IsPrivate(k: string) {
    |k| > 0 && k[0] == '_'
  }

  /** Whether a sync with `ignore_private` skips the key. */
  predicate Skipped(k: string, ignorePrivate: bool) {
    ignorePrivate && IsPrivate(k)
  }

  // ---------------------------------------------------------------------------
  // vars
  // ---------------------------------------------------------------------------

  /** `ReflectionUtils.vars(obj, ignore)`: the attribute map minus the ignored keys. */
  function Vars(a: seq<Attr>, ignore: seq<string>): (r: seq<Attr>)
    ensures forall k :: Find(r, k) == if k in ignore then None else Find(a, k)
    ensures forall x :: x in r ==> x in a
    ensures forall i :: 0 <= i < |r| ==> r[i].key !in ignore
    decreases |a|
  {
    if a == [] then []
    else
      var rest := Vars(a[1..], ignore);
      if a[0].key in ignore then rest
      else
        var r := [a[0]] + rest;
        assert r[1..] == rest;
        r
  }

  // ---------------------------------------------------------------------------
  // sync_objects
  // ---------------------------------------------------------------------------

  /** `sync_objects(to_obj, from_obj, add_attr, ignore_private)`: copy the source
      attributes in order, skipping private keys when asked, and with
      `add_attr=False` only onto keys the target already has. */
  function SyncObjects(to: seq<Attr>, from: seq<Attr>, addAttr: bool, ignorePrivate: bool): (r: seq<Attr>)
    ensures !addAttr ==> Keys(r) == Keys(to)
    ensures forall k :: !Has(from, k) || Skipped(k, ignorePrivate) ==> Find(r, k) == Find(to, k)
    ensures forall k :: Has(from, k) && !Skipped(k, ignorePrivate) && (addAttr || Has(to, k)) ==> Has(r, k)
    ensures Flat(to) && Flat(from) ==> Flat(r)
    decreases |from|
  {
    if from == [] then to
    else
      var k, v := from[0].key, from[0].val;
      var next := if !Skipped(k, ignorePrivate) && (addAttr || Has(to, k)) then Put(to, k, v) else to;
      assert Flat(to) && Flat(from) ==> Flat(next) by {
        if Flat(to) && Flat(from) && !Skipped(k, ignorePrivate) && (addAttr || Has(to, k)) {
          assert from[0] in from;
          PutFlat(to, k, v);
        }
      }
      assert Flat(from) ==> Flat(from[1..]);
      SyncObjects(next, from[1..], addAttr, ignorePrivate)
  }

  /** The first key of a duplicate-free list does not occur again. */
  lemma NoDupHead(a: seq<Attr>)
    requires NoDup(a) && a != []
    ensures !Has(a[1..], a[0].key)
    ensures NoDup(a[1..])
  {
    forall i | 0 <= i < |a[1..]| ensures Keys(a[1..])[i] != a[0].key {
      KeysIndex(a[1..], i);
      assert a[1..][i] == a[i + 1];
    }
  }

  /** With distinct source keys, every copied key holds the source's value. */
  lemma {:induction false} SyncObjectsCopies(to: seq<Attr>, from: seq<Attr>, addAttr: bool, ignorePrivate: bool, k: string)
    requires NoDup(from)
    requires Has(from, k) && !Skipped(k, ignorePrivate) && (addAttr || Has(to, k))
    ensures Find(SyncObjects(to, from, addAttr, ignorePrivate), k) == Find(from, k)
    decreases |from|
  {
    NoDupHead(from);
    var next := if !Skipped(from[0].key, ignorePrivate) && (addAttr || Has(to, from[0].key))
                then Put(to, from[0].key, from[0].val) else to;
    if from[0].key == k {
      assert Find(next, k) == Some(from[0].val);
    } else {
      assert Has(next, k) <== Has(to, k);
      SyncObjectsCopies(next, from[1..], addAttr, ignorePrivate, k);
    }
  }

  // ---------------------------------------------------------------------------
  // looks_like_uuid and sync_with_dict
  // ---------------------------------------------------------------------------

  /** `looks_like_uuid(value)` as written: `re.match` of the 8-4-4-4-12 pattern
      ending in `$`, which also matches before a final newline. */
  predicate LooksLikeUuid(v: Value): (b: bool)
    ensures b <==> UuidUtils.IsValidUuid(v)
                   || (v.VStr? && |v.s| == 37 && v.s[36] == '\n' && UuidUtils.IsValidUuid(VStr(v.s[..36])))
  {
    v.VStr? && (UuidShape(v.s) || (|v.s| == 37 && UuidShape(v.s[..36]) && v.s[36] == '\n'))
  }

  /** `looks_like_uuid` as documented: the whole string has the UUID layout.
      It agrees with `is_valid_uuid` on every value. */
  function LooksLikeUuidStrict(v: Value): (b: bool)
    ensures b <==> UuidUtils.IsValidUuid(v)
  {
    v.VStr? && UuidShape(v.s)
  }

  /** The regex accepts every shaped string followed by a newline, which
      `is_valid_uuid` rejects. */
  lemma ShapedNewlineAccepted(x: string)
    requires UuidShape(x)
    ensures LooksLikeUuid(VStr(x + "\n")) && !UuidUtils.IsValidUuid(VStr(x + "\n"))
  {
    assert (x + "\n")[..36] == x;
  }

  /** The nil UUID has the 8-4-4-4-12 layout. */
  lemma NilShaped()
    ensures UuidShape("00000000-0000-0000-0000-000000000000")
  {
    var x := "00000000-0000-0000-0000-000000000000";
    forall i | 0 <= i < 36 ensures if IsHyphenPos(i) then x[i] == '-' else IsHexDigit(x[i]) {
      assert x[i] == (if IsHyphenPos(i) then '-' else '0');
    }
  }

  /** A concrete input: the nil UUID followed by a newline. */
  lemma LooksLikeUuidAcceptsNewline()
    ensures var s := "00000000-0000-0000-0000-000000000000\n";
            LooksLikeUuid(VStr(s)) && !UuidUtils.IsValidUuid(VStr(s))
  {
    NilShaped();
    ShapedNewlineAccepted("00000000-0000-0000-0000-000000000000");
  }

  /** `uuid.UUID(v)` with `except ValueError: pass`. */
  function ParseOrKeep(s: string): (r: Value)
    ensures r == VStr(s) || (ParseUuid(s).Some? && r == VUuid(ParseUuid(s).value))
    ensures r.VUuid? <==> ParseUuid(s).Some?
  {
    match ParseUuid(s)
    case Some(u) => VUuid(u)
    case None => VStr(s)
  }

  /** The value `sync_with_dict` stores, given the target's current attribute
      (None when absent) and the dict value, with the regex as written. */
  function SyncValueAsWritten(existing: Option<Value>, v: Value): Value {
    match existing
    case Some(cur) => if cur.VUuid? && v.VStr? then ParseOrKeep(v.s) else v
    case None => if LooksLikeUuid(v) then ParseOrKeep(v.s) else v
  }

  /** The same with the strict check. A string becomes a UUID only when the
      existing attribute is a UUID, or when there is none and the string has the
      UUID layout; when parsing fails the string is kept. */
  function SyncValue(existing: Option<Value>, v: Value): (r: Value)
    ensures r != v ==> v.VStr? && ParseUuid(v.s).Some? && r == VUuid(ParseUuid(v.s).value)
    ensures r != v ==> (existing.Some? && existing.value.VUuid?) || (existing.None? && UuidShape(v.s))
    ensures v.VStr? && ParseUuid(v.s).Some? && ((existing.Some? && existing.value.VUuid?) || (existing.None? && UuidShape(v.s)))
            ==> r == VUuid(ParseUuid(v.s).value)
  {
    match existing
    case Some(cur) => if cur.VUuid? && v.VStr? then ParseOrKeep(v.s) else v
    case None => if LooksLikeUuidStrict(v) then ParseOrKeep(v.s) else v
  }

  /** A shaped string followed by a newline holds no colon and no brace at
      either end, so only the hyphen removal touches it. */
  lemma NewlineHexPart(x: string)
    requires UuidShape(x)
    ensures HexPart(x + "\n") == Replace(x, "-", "") + "\n"
  {
    var s := x + "\n";
    ShapeHasNo(x, ':');
    assert ':' !in s by {
      forall i | 0 <= i < |s| ensures s[i] != ':' {
        if i < 36 { assert s[i] == x[i]; }
      }
    }
    ColonFree(s);
    assert StripBraces(s) == s by {
      assert s[0] == x[0] && IsHexDigit(x[0]);
    }
    ReplaceCharConcat(x, "\n", '-', "");
    DropNoHyphen("\n");
  }

  /** A shaped string followed by a newline does not parse: 33 characters
      remain once the hyphens are gone. */
  lemma NewlineSuffixFailsParse(x: string)
    requires UuidShape(x)
    ensures ParseUuid(x + "\n") == None
  {
    NewlineHexPart(x);
    DropHyphensOfShape(x);
    assert |Replace(x, "-", "")| == 32;
    assert |HexPart(x + "\n")| == 33;
  }

  /** The newline leniency never changes what `sync_with_dict` stores: such a
      string fails to parse and is kept as it is. */
  lemma SyncValueSame(existing: Option<Value>, v: Value)
    ensures SyncValueAsWritten(existing, v) == SyncValue(existing, v)
  {
    if existing.None? && LooksLikeUuid(v) && !UuidShape(v.s) {
      assert v.s == v.s[..36] + "\n";
      NewlineSuffixFailsParse(v.s[..36]);
    }
  }

  /** `sync_with_dict(to_obj, dict, ignore_private)`: each non-skipped entry is
      stored, in dict order, after the UUID coercion of `SyncValue`. */
  function SyncWithDict(to: seq<Attr>, d: seq<Attr>, ignorePrivate: bool): (r: seq<Attr>)
    ensures forall k :: !Has(d, k) || Skipped(k, ignorePrivate) ==> Find(r, k) == Find(to, k)
    ensures forall k :: Has(d, k) && !Skipped(k, ignorePrivate) ==> Has(r, k)
    ensures Flat(to) && Flat(d) ==> Flat(r)
    decreases |d|
  {
    if d == [] then to
    else
      var k, v := d[0].key, d[0].val;
      var next := if Skipped(k, ignorePrivate) then to else Put(to, k, SyncValue(Find(to, k), v));
      assert Flat(to) && Flat(d) ==> Flat(next) by {
        if Flat(to) && Flat(d) && !Skipped(k, ignorePrivate) {
          assert d[0] in d;
          PutFlat(to, k, SyncValue(Find(to, k), v));
        }
      }
      assert Flat(d) ==> Flat(d[1..]);
      SyncWithDict(next, d[1..], ignorePrivate)
  }

  /** With distinct dict keys, every stored key holds the coerced dict value,
      coerced against the target's attribute before the sync. */
  lemma {:induction false} SyncWithDictStores(to: seq<Attr>, d: seq<Attr>, ignorePrivate: bool, k: string)
    requires NoDup(d)
    requires Has(d, k) && !Skipped(k, ignorePrivate)
    ensures Find(SyncWithDict(to, d, ignorePrivate), k) == Some(SyncValue(Find(to, k), Find(d, k).value))
    decreases |d|
  {
    NoDupHead(d);
    var next := if Skipped(d[0].key, ignorePrivate) then to
                else Put(to, d[0].key, SyncValue(Find(to, d[0].key), d[0].val));
    if d[0].key != k {
      assert Find(next, k) == Find(to, k);
      SyncWithDictStores(next, d[1..], ignorePrivate, k);
    }
  }

  /** `Object.sync(obj)`: a dict goes through `sync_with_dict`, an object through
      `sync_objects` with `add_attr=True`; `vars()` of anything else raises
      `TypeError`. */
  function Sync(to: seq<Attr>, src: Value, ignorePrivate: bool): (r: Result<seq<Attr>>)
    ensures r.Ok? <==> src.VDict? || src.VObj?
    ensures src.VDict? ==> r == Ok(SyncWithDict(to, src.entries, ignorePrivate))
    ensures src.VObj? ==> r == Ok(SyncObjects(to, src.attrs, true, ignorePrivate))
  {
    match src
    case VDict(e) => Ok(SyncWithDict(to, e, ignorePrivate))
    case VObj(_, a) => Ok(SyncObjects(to, a, true, ignorePrivate))
    case _ => Err(TypeMismatch)
  }

  // ---------------------------------------------------------------------------
  // MutableObject.update / Dto.update
  // ---------------------------------------------------------------------------

  /** `deep_update(obj, updates)`: for each entry in order, recurse into the
      current attribute when it is an object and the new value a dict,
      otherwise store the new value. The nested object keeps its class. */
  function DeepUpdate(obj: seq<Attr>, updates: seq<Attr>): (r: seq<Attr>)
    ensures forall k :: !Has(updates, k) ==> Find(r, k) == Find(obj, k)
    ensures forall k :: Has(updates, k) ==> Has(r, k)
    decreases updates
  {
    if updates == [] then obj
    else
      var k, v := updates[0].key, updates[0].val;
      var cur := Find(obj, k);
      var nv := if cur.Some? && cur.value.VObj? && v.VDict?
                then VObj(cur.value.kind, DeepUpdate(cur.value.attrs, v.entries))
                else v;
      DeepUpdate(Put(obj, k, nv), updates[1..])
  }

  /** An object attribute updated from a dict is merged into, not replaced:
      it keeps its class and its attributes the dict does not mention. */
  lemma {:induction false} DeepUpdateMerges(obj: seq<Attr>, updates: seq<Attr>, k: string)
    requires NoDup(updates) && Has(updates, k)
    requires Find(obj, k).Some? && Find(obj, k).value.VObj?
    requires Find(updates, k).value.VDict?
    ensures var cur := Find(obj, k).value;
            Find(DeepUpdate(obj, updates), k)
              == Some(VObj(cur.kind, DeepUpdate(cur.attrs, Find(updates, k).value.entries)))
    decreases |updates|
  {
    NoDupHead(updates);
    var k0, v0 := updates[0].key, updates[0].val;
    var cur := Find(obj, k0);
    var nv := if cur.Some? && cur.value.VObj? && v0.VDict?
              then VObj(cur.value.kind, DeepUpdate(cur.value.attrs, v0.entries))
              else v0;
    if k0 != k {
      DeepUpdateMerges(Put(obj, k0, nv), updates[1..], k);
    }
  }

  /** Any other updated attribute takes the new value as given. */
  lemma {:induction false} DeepUpdateOverwrites(obj: seq<Attr>, updates: seq<Attr>, k: string)
    requires NoDup(updates) && Has(updates, k)
    requires !(Find(obj, k).Some? && Find(obj, k).value.VObj? && Find(updates, k).value.VDict?)
    ensures Find(DeepUpdate(obj, updates), k) == Find(updates, k)
    decreases |updates|
  {
    NoDupHead(updates);
    var k0, v0 := updates[0].key, updates[0].val;
    var cur := Find(obj, k0);
    var nv := if cur.Some? && cur.value.VObj? && v0.VDict?
              then VObj(cur.value.kind, DeepUpdate(cur.value.attrs, v0.entries))
              else v0;
    if k0 != k {
      DeepUpdateOverwrites(Put(obj, k0, nv), updates[1..], k);
    }
  }

  // ---------------------------------------------------------------------------
  // obj_to_dict
  // ---------------------------------------------------------------------------

  /** The `foreign_keys` fields a class declares, or None when it declares none. */
  type ForeignKeysOf = Kind -> Option<seq<string>>

  /** `obj_to_dict(obj, ignore, clean_nested_keys)`: an object becomes a dict of
      its converted, non-ignored attributes (with the declared foreign-key fields
      removed when `clean_nested_keys` is set), a list is converted element by
      element, and anything else, dicts included, is returned as it is. */
  function ObjToDict(v: Value, ignore: seq<string>, clean: bool, fks: ForeignKeysOf): (r: Value)
    ensures v.VObj? ==> r.VDict? && forall k :: k in ignore ==> !Has(r.entries, k)
    ensures v.VObj? && clean && fks(v.kind).Some? ==> forall k :: k in fks(v.kind).value ==> !Has(r.entries, k)
    ensures v.VObj? && !(clean && fks(v.kind).Some?) ==>
              forall k :: k !in ignore ==> (Has(r.entries, k) <==> Has(v.attrs, k))
    ensures v.VList? ==> r.VList? && |r.items| == |v.items|
    ensures !v.VObj? && !v.VList? ==> r == v
    // ignored keys are dropped at every nesting level of an object graph
    // (dicts inside the input are passed through unconverted, so they are excluded)
    ensures NoDicts(v) ==> Avoids(r, ignore)
    decreases v, 1
  {
    match v
    case VObj(kind, attrs) =>
      var data := ConvertAttrs(attrs, ignore, clean, fks);
      if clean && fks(kind).Some? then
        var e := DelAll(data, fks(kind).value);
        AvoidsWithin(e, data, ignore);
        VDict(e)
      else VDict(data)
    case VList(xs) => VList(ConvertList(xs, ignore, clean, fks))
    case _ => v
  }

  /** Entries taken from a dict free of the keys leave a dict free of them. */
  lemma AvoidsWithin(e: seq<Attr>, data: seq<Attr>, keys: seq<string>)
    ensures (forall x :: x in e ==> x in data) && Avoids(VDict(data), keys) ==> Avoids(VDict(e), keys)
  {
    if (forall x :: x in e ==> x in data) && Avoids(VDict(data), keys) {
      forall i | 0 <= i < |e| ensures e[i].key !in keys && Avoids(e[i].val, keys) {
        assert e[i] in data;
        var j :| 0 <= j < |data| && data[j] == e[i];
      }
    }
  }

  /** The dict comprehension over `obj.__dict__`. */
  function ConvertAttrs(a: seq<Attr>, ignore: seq<string>, clean: bool, fks: ForeignKeysOf): (r: seq<Attr>)
    ensures forall k :: Find(r, k).Some? <==> Has(a, k) && k !in ignore
    ensures forall i :: 0 <= i < |r| ==> r[i].key !in ignore
    ensures (forall i :: 0 <= i < |a| ==> NoDicts(a[i].val)) ==> forall i :: 0 <= i < |r| ==> Avoids(r[i].val, ignore)
    decreases a, 0
  {
    if a == [] then []
    else
      var rest := ConvertAttrs(a[1..], ignore, clean, fks);
      assert forall i :: 0 < i < |a| ==> a[i] == a[1..][i - 1];
      if a[0].key in ignore then rest
      else
        var r := [Attr(a[0].key, ObjToDict(a[0].val, ignore, clean, fks))] + rest;
        assert r[1..] == rest;
        r
  }

  /** Each kept attribute holds its converted value. */
  lemma {:induction false} ConvertedValue(a: seq<Attr>, ignore: seq<string>, clean: bool, fks: ForeignKeysOf, i: nat)
    requires i < |a| && a[i].key !in ignore && Find(a, a[i].key) == Some(a[i].val)
    ensures Find(ConvertAttrs(a, ignore, clean, fks), a[i].key) == Some(ObjToDict(a[i].val, ignore, clean, fks))
    decreases i
  {
    if a[0].key != a[i].key {
      assert a[i] == a[1..][i - 1];
      ConvertedValue(a[1..], ignore, clean, fks, i - 1);
    }
  }

  /** The list comprehension over a list. */
  function ConvertList(xs: seq<Value>, ignore: seq<string>, clean: bool, fks: ForeignKeysOf): (r: seq<Value>)
    ensures |r| == |xs|
    ensures forall i :: 0 <= i < |xs| ==> r[i] == ObjToDict(xs[i], ignore, clean, fks)
    ensures (forall i :: 0 <= i < |xs| ==> NoDicts(xs[i])) ==> forall i :: 0 <= i < |r| ==> Avoids(r[i], ignore)
    decreases xs, 0
  {
    if xs == [] then []
    else [ObjToDict(xs[0], ignore, clean, fks)] + ConvertList(xs[1..], ignore, clean, fks)
  }

  /** No dict anywhere inside: only objects, lists and scalars. */
  predicate NoDicts(v: Value)
    decreases v
  {
    match v
    case VDict(_) => false
    case VObj(_, a) => forall i :: 0 <= i < |a| ==> NoDicts(a[i].val)
    case VList(xs) => forall i :: 0 <= i < |xs| ==> NoDicts(xs[i])
    case _ => true
  }

  /** No dict anywhere inside has one of the keys. */
  predicate Avoids(v: Value, keys: seq<string>)
    decreases v
  {
    match v
    case VDict(e) => forall i :: 0 <= i < |e| ==> e[i].key !in keys && Avoids(e[i].val, keys)
    case VObj(_, a) => forall i :: 0 <= i < |a| ==> Avoids(a[i].val, keys)
    case VList(xs) => forall i :: 0 <= i < |xs| ==> Avoids(xs[i], keys)
    case _ => true
  }

  // ---------------------------------------------------------------------------
  // get_nested_list_metadata
  // ---------------------------------------------------------------------------

  /** What a `@nested_list(domain_class, foreign_key)` marker records. */
  datatype NestedList = NestedList(target: string, foreignKey: string)

  /** A name `dir(cls)` lists, whether the attribute is callable, and its
      `_nested_list` marker, if any. */
  datatype Member = Member(name: string, callable: bool, marker: Option<NestedList>)

  datatype NestedEntry = NestedEntry(attr: string, info: NestedList)

  /** `get_nested_list_metadata(cls)`: the callable members carrying a marker,
      in `dir()` order. */
  function GetNestedListMetadata(dir: seq<Member>): (r: seq<NestedEntry>)
    ensures forall m :: m in dir && m.callable && m.marker.Some? ==> NestedEntry(m.name, m.marker.value) in r
    ensures forall e :: e in r ==> Member(e.attr, true, Some(e.info)) in dir
    ensures |r| <= |dir|
    decreases |dir|
  {
    if dir == [] then []
    else
      var rest := GetNestedListMetadata(dir[1..]);
      var m := dir[0];
      if m.callable && m.marker.Some? then [NestedEntry(m.name, m.marker.value)] + rest else rest
  }

  /** The attribute names of the metadata: `get_nested_list_metadata(cls).keys()`. */
  function NestedAttrs(meta: seq<NestedEntry>): (names: seq<string>)
    ensures |names| == |meta|
    ensures forall i :: 0 <= i < |meta| ==> names[i] == meta[i].attr
  {
    seq(|meta|, i requires 0 <= i < |meta| => meta[i].attr)
  }
}

=== FILE: self_reference.dfy ===
/** A self-referencing row: the world in which the depth bound of
    `encapsulate_nested`, as written, does not hold. A `Node` class declares
    `foreign_keys = {"parent_id": "Node"}` and its table holds the row
    `id = 1, parent_id = 1`. `Node(id=1).find()` hydrates the parent, whose
    own `find()` hydrates its parent again before `encapsulate_nested(depth=0)`
    is reached, and so on until Python's recursion limit. */
module SelfReference {
  import opened Text
  import opened Values
  import opened Exceptions
  import opened Reflection
  import opened Validation
  import opened Dto
  import opened Dao
  import opened Domain
  import opened Hydration

  /** The row `id = 1, parent_id = 1`. */
  function NodeRow(): Row {
    [Attr("id", VInt(1)), Attr("parent_id", VInt(1))]
  }

  /** A database whose `nodes` table holds only that row: every statement
      returns it. */
  function NodeEnv(): Env {
    Env(Db(t => ["id", "parent_id"], (q, params) => Some([NodeRow()])), c => DtoClass("nodes", []))
  }

  /** The `foreign_keys` entry of `Node`. */
  function ParentDecl(): FkDecl {
    FkDecl("parent_id", Direct("Node"))
  }

  /** `class Node(Domain)` with no restrictions and no `@nested_list`. */
  function NodeClass(): DomainClass {
    DomainClass([], Some([ParentDecl()]), [], false, map[], "NodeDto")
  }

  function NodeWorld(): World {
    World(NodeEnv(), map["Node" := NodeClass()])
  }

  /** `Node(id=1)`, the instance hydration builds to look the parent up. */
  function Seed(): seq<Attr> {
    [Attr("id", VInt(1))]
  }

  /** The parent lookup of `encapsulate_nested` builds `Node(id=1)`. */
  lemma SeedBuilt()
    ensures DomainInit(NodeClass(), [Attr("id", VInt(1))]) == Ok(Seed())
  {
    var fks := FkFields(NodeClass());
    assert JoinOne(fks, [], "id", VInt(1)) == Ok(Seed());
    assert Join(fks, Seed(), []) == Ok(Seed());
  }

  /** The row as `find_one` loads it and as the entity holds it after
      `sync` and `normalize_foreign_keys`. */
  lemma RowAbsorbed(o: Value)
    requires o == Load(NodeEnv(), "NodeDto", NodeRow())
    ensures o.VObj? && o.attrs == NodeRow()
    ensures Absorb(NodeWorld(), NodeClass(), Seed(), o) == Ok(NodeRow())
  {
    var blank := Blank(DtoClass("nodes", []));
    assert blank == [Attr("id", VNone)];
    var first := Put(blank, "id", SyncValue(Some(VNone), VInt(1)));
    assert first == Seed();
    assert SyncWithDict(Seed(), [Attr("parent_id", VInt(1))], false) == NodeRow();
    assert SyncWithDict(blank, NodeRow(), false) == NodeRow();
    assert SyncWithDict(Seed(), NodeRow(), false) == NodeRow();
    NormalizeLeavesRow();
  }

  /** A row with neither strings nor entities is left alone by the attribute
      loop of `normalize_foreign_keys`. */
  lemma {:induction false} PlainRowStays(classes: map<string, DomainClass>, decls: seq<FkDecl>, row: seq<Attr>, i: nat)
    requires i <= |row|
    requires forall j :: 0 <= j < |row| ==> !row[j].val.VStr? && !row[j].val.VObj?
    ensures LoopInv(row, row, i)
    ensures NormalizeAttrs(classes, decls, row, row, i) == Ok(row)
    decreases |row| - i
  {
    if i < |row| {
      PlainRowStays(classes, decls, row, i + 1);
    }
  }

  /** Integers are left alone by `normalize_foreign_keys`. */
  lemma NormalizeLeavesRow()
    ensures Normalize(NodeWorld().classes, [ParentDecl()], NodeRow()) == Ok(NodeRow())
  {
    var row := NodeRow();
    assert NormalizeOwnId(row) == row;
    PlainRowStays(NodeWorld().classes, [ParentDecl()], row, 0);
  }

  /** Whatever the filter, `find_one` loads the one row. */
  lemma LoadsRow(dto: Value)
    requires IsDtoInstance(dto) && Flat(dto.attrs) && dto.kind.cls == "NodeDto"
    ensures FindOne(NodeEnv(), dto, false) == Ok(Some(Load(NodeEnv(), "NodeDto", NodeRow())))
  {
    var env := NodeEnv();
    assert env.db.execute(SelectQuery(env, dto), []) == Some([NodeRow()]);
    var all := LoadAll(env, "NodeDto", [NodeRow()]);
    assert all == [Load(env, "NodeDto", NodeRow())];
    assert FindAll(env, dto.kind.cls, Some(dto)) == Ok(all);
  }

  /** `find()` with a single match hydrates what `sync` and
      `normalize_foreign_keys` made of it. */
  lemma FindStep(w: World, asWritten: bool, cls: DomainClass, attrs: seq<Attr>, p: Projection, o: Value, absorbed: seq<Attr>, fuel: nat)
    requires Validate(cls.restrictions, "find", attrs) == Ok(())
    requires AsDto(w.env, cls, attrs) == Ok(p)
    requires FindOne(w.env, p.dto, false) == Ok(Some(o))
    requires Absorb(w, cls, p.attrs, o) == Ok(absorbed)
    ensures FindEntity(w, asWritten, cls, attrs, 1, fuel) == Encapsulate(w, asWritten, cls, absorbed, 1, fuel)
  {
  }

  /** `Node` has no restrictions, so `find()` validates `Node(id=1)`. */
  lemma NodeValidates()
    ensures Validate(NodeClass().restrictions, "find", Seed()) == Ok(())
  {
  }

  /** `Node(id=1).as_dto()` leaves the entity as it is. */
  lemma NodeProjects()
    ensures AsDto(NodeEnv(), NodeClass(), Seed()).Ok?
    ensures AsDto(NodeEnv(), NodeClass(), Seed()).value.attrs == Seed()
  {
    assert Flat(Seed()) by {
      assert Seed()[0].val == VInt(1);
    }
  }

  /** `find_one` on the DTO of `Node(id=1)` loads the row. */
  lemma NodeLoads()
    ensures AsDto(NodeEnv(), NodeClass(), Seed()).Ok?
    ensures FindOne(NodeEnv(), AsDto(NodeEnv(), NodeClass(), Seed()).value.dto, false)
         == Ok(Some(Load(NodeEnv(), "NodeDto", NodeRow())))
  {
    NodeProjects();
    LoadsRow(AsDto(NodeEnv(), NodeClass(), Seed()).value.dto);
  }

  /** `Node(id=1).find()` finds the row and hydrates it at depth 1. */
  lemma FindHydratesRow(asWritten: bool, fuel: nat)
    ensures FindEntity(NodeWorld(), asWritten, NodeClass(), Seed(), 1, fuel)
         == Encapsulate(NodeWorld(), asWritten, NodeClass(), NodeRow(), 1, fuel)
  {
    NodeValidates();
    NodeProjects();
    NodeLoads();
    var p := AsDto(NodeEnv(), NodeClass(), Seed()).value;
    var o := Load(NodeEnv(), "NodeDto", NodeRow());
    RowAbsorbed(o);
    FindStep(NodeWorld(), asWritten, NodeClass(), Seed(), p, o, NodeRow(), fuel);
  }

  /** An entity whose single foreign key leads back to itself: the related
      entity `find()` loads for the lookup `seed` is the entity `row` again. */
  predicate SelfLoop(w: World, cls: DomainClass, d: FkDecl, seed: seq<Attr>, row: seq<Attr>) {
    && Decls(cls) == [d]
    && Target(d) in w.classes && w.classes[Target(d)] == cls
    && Get(row, d.field) != VNone
    && DomainInit(cls, [Attr(HydrateLookup(d), Get(row, d.field))]) == Ok(seed)
  }

  /** A parent `find()` that runs out of fuel fails the lookup around it. */
  lemma RelatedFails(w: World, cls: DomainClass, name: string, seed: seq<Attr>, fuel: nat)
    requires FindEntity(w, true, cls, seed, 1, fuel) == Err(RecursionLimit)
    ensures Related(w, true, cls, name, seed, 1, fuel) == Err(RecursionLimit)
  {
  }

  /** With no fuel left, hydration fails at once. */
  lemma OutOfFuel(w: World, cls: DomainClass, row: seq<Attr>)
    requires cls.foreignKeys.Some?
    ensures Encapsulate(w, true, cls, row, 1, 0) == Err(RecursionLimit)
  {
  }

  /** A failing lookup of the one foreign key fails the pass over the keys. */
  lemma HydrateFksFails(w: World, d: FkDecl, row: seq<Attr>, fuel: nat)
    requires Get(row, d.field) != VNone
    requires HydrateOne(w, true, d, Get(row, d.field), 1, fuel) == Err(RecursionLimit)
    ensures HydrateFks(w, true, [d], row, 1, fuel) == Err(RecursionLimit)
  {
  }

  /** A failing pass over the foreign keys fails hydration one level up. */
  lemma EncapsulateFails(w: World, cls: DomainClass, d: FkDecl, row: seq<Attr>, below: nat, fuel: nat)
    requires Decls(cls) == [d]
    requires fuel == below + 1
    requires HydrateFks(w, true, [d], row, 1, below) == Err(RecursionLimit)
    ensures Encapsulate(w, true, cls, row, 1, fuel) == Err(RecursionLimit)
  {
    assert fuel - 1 == below;
  }

  /** A parent lookup whose `find()` fails fails itself. */
  lemma LookupFails(w: World, cls: DomainClass, d: FkDecl, seed: seq<Attr>, row: seq<Attr>, fuel: nat)
    requires SelfLoop(w, cls, d, seed, row)
    requires FindEntity(w, true, cls, seed, 1, fuel) == Err(RecursionLimit)
    ensures HydrateOne(w, true, d, Get(row, d.field), 1, fuel) == Err(RecursionLimit)
  {
    RelatedFails(w, cls, Target(d), seed, fuel);
  }

  /** A failing parent lookup fails the hydration one level up. */
  lemma ParentFails(w: World, cls: DomainClass, d: FkDecl, seed: seq<Attr>, row: seq<Attr>, below: nat, fuel: nat)
    requires SelfLoop(w, cls, d, seed, row)
    requires fuel == below + 1
    requires HydrateOne(w, true, d, Get(row, d.field), 1, below) == Err(RecursionLimit)
    ensures Encapsulate(w, true, cls, row, 1, fuel) == Err(RecursionLimit)
  {
    HydrateFksFails(w, d, row, below);
    EncapsulateFails(w, cls, d, row, below, fuel);
  }

  /** One level of the loop: when the parent's `find()` fails, so does the
      hydration that asked for it. */
  lemma SelfLoopStep(w: World, cls: DomainClass, d: FkDecl, seed: seq<Attr>, row: seq<Attr>, below: nat, fuel: nat)
    requires SelfLoop(w, cls, d, seed, row)
    requires fuel == below + 1
    requires FindEntity(w, true, cls, seed, 1, below) == Err(RecursionLimit)
    ensures Encapsulate(w, true, cls, row, 1, fuel) == Err(RecursionLimit)
  {
    LookupFails(w, cls, d, seed, row, below);
    ParentFails(w, cls, d, seed, row, below, fuel);
  }

  /** As written, hydrating such an entity at depth 1 never finishes, whatever
      the interpreter's stack: each parent lookup hydrates the same row again. */
  lemma {:induction false} SelfLoopNeverEnds(w: World, cls: DomainClass, d: FkDecl, seed: seq<Attr>, row: seq<Attr>, fuel: nat)
    requires SelfLoop(w, cls, d, seed, row)
    requires forall f: nat :: FindEntity(w, true, cls, seed, 1, f) == Encapsulate(w, true, cls, row, 1, f)
    ensures Encapsulate(w, true, cls, row, 1, fuel) == Err(RecursionLimit)
    decreases fuel
  {
    if fuel == 0 {
      OutOfFuel(w, cls, row);
    } else {
      var below: nat := fuel - 1;
      SelfLoopNeverEnds(w, cls, d, seed, row, below);
      SelfLoopStep(w, cls, d, seed, row, below, fuel);
    }
  }

  /** As written, `Node(id=1).find()` never returns: it ends in
      `RecursionError` however deep the interpreter's stack is. */
  lemma SelfReferenceLoops(fuel: nat)
    ensures FindEntity(NodeWorld(), true, NodeClass(), Seed(), 1, fuel) == Err(RecursionLimit)
  {
    var w, cls, d, row := NodeWorld(), NodeClass(), ParentDecl(), NodeRow();
    SeedBuilt();
    assert Get(row, d.field) == VInt(1);
    assert SelfLoop(w, cls, d, Seed(), row);
    forall f: nat ensures FindEntity(w, true, cls, Seed(), 1, f) == Encapsulate(w, true, cls, row, 1, f) {
      FindHydratesRow(true, f);
    }
    SelfLoopNeverEnds(w, cls, d, Seed(), row, fuel);
  }
}

=== FILE: sql_utils.dfy ===
/** SQL literal rendering: `sql_escape`, `sql_value` and `normalize_query_params`. */
module SqlUtils {
  import opened Text
  import opened Values

  /** `sql_escape`: every single quote doubled. */
  function SqlEscape(s: string): (r: string)
    ensures |r| == |s| + Count(s, '\'')
    ensures Replace(r, "''", "'") == s
  {
    EscapeLength(s);
    EscapeRoundTrip(s);
    Replace(s, "'", "''")
  }

  lemma {:induction false} EscapeLength(s: string)
    ensures |Replace(s, "'", "''")| == |s| + Count(s, '\'')
    decreases |s|
  {
    if s != [] {
      EscapeLength(s[1..]);
      if s[0] == '\'' {
        ReplaceMatchHere(s, "'", "''");
      } else {
        ReplaceSkipHere(s, "'", "''");
      }
    }
  }

  /** Un-doubling the quotes of an escaped text gives the text back. */
  lemma {:induction false} EscapeRoundTrip(s: string)
    ensures Replace(Replace(s, "'", "''"), "''", "'") == s
    decreases |s|
  {
    if s != [] {
      var e := Replace(s[1..], "'", "''");
      EscapeRoundTrip(s[1..]);
      if s[0] == '\'' {
        ReplaceMatchHere(s, "'", "''");
        var t := "''" + e;
        assert t[2..] == e;
        ReplaceMatchHere(t, "''", "'");
        assert s == "'" + s[1..];
      } else {
        ReplaceSkipHere(s, "'", "''");
        var t := [s[0]] + e;
        assert t[1..] == e;
        ReplaceSkipHere(t, "''", "'");
        assert s == [s[0]] + s[1..];
      }
    }
  }

  /** A text without quotes is its own escape. */
  lemma EscapeNoQuote(s: string)
    requires '\'' !in s
    ensures SqlEscape(s) == s
  {
    if Occurs(s, "'") {
      OccursChar(s, "'", 0);
    }
    ReplaceAbsent(s, "'", "''");
  }

  function Quote(s: string): string {
    "'" + s + "'"
  }

  /** `sql_value(v)` for a scalar value: `null`, a quoted UUID, a quoted and
      escaped string, `str()` of a bool or int, or any other value's `str()`
      quoted without escaping. */
  function SqlValue(v: Value): (r: string)
    requires IsScalar(v)
    ensures r == "null" <==> v.VNone?
    ensures |r| > 0 && (r[0] == '\'' <==> !(v.VNone? || v.VBool? || v.VInt?))
    ensures v.VStr? ==> |r| == |v.s| + Count(v.s, '\'') + 2
    ensures v.VStr? ==> r == Quote(r[1..|r| - 1]) && Replace(r[1..|r| - 1], "''", "'") == v.s
    ensures v.VUuid? ==> r == Quote(v.u)
    ensures v.VBool? ==> r == (if v.b then "True" else "False")
  {
    match v
    case VNone => "null"
    case VUuid(u) =>
      var q := Quote(u);
      assert q[0] == '\'' && q != "null";
      q
    case VStr(s) =>
      var e := SqlEscape(s);
      var q := Quote(e);
      assert q[1..|q| - 1] == e;
      assert q[0] == '\'' && q != "null";
      q
    case VBool(_) => PyStr(v)
    case VInt(i) =>
      var t := IntToString(i);
      assert t[0] == '-' || '0' <= t[0] <= '9';
      t
    case VDateTime(_, _, _, _, _, _) | VDate(_, _, _) | VTime(_, _, _) | VOther(_) =>
      var q := Quote(PyStr(v));
      assert q[0] == '\'' && q != "null";
      q
  }

  /** Canonical UUID text contains no quote. */
  lemma UuidNoQuote(u: UuidText)
    ensures '\'' !in u
  {
    forall i | 0 <= i < |u| ensures u[i] != '\'' {
    }
  }

  /** A UUID and its text render to the same SQL literal. */
  lemma UuidRendersAsText(u: UuidText)
    ensures SqlValue(VUuid(u)) == SqlValue(VStr(u))
  {
    UuidNoQuote(u);
    EscapeNoQuote(u);
  }

  /** The parameter value `normalize_query_params` produces. */
  function UuidAsText(v: Value): (r: Value)
    ensures !r.VUuid?
    ensures v.VUuid? ==> r == VStr(v.u)
    ensures !v.VUuid? ==> r == v
  {
    if v.VUuid? then VStr(v.u) else v
  }

  /** `normalize_query_params`: the same keys in the same order, UUIDs turned
      into their text, every other value unchanged. */
  function NormalizeQueryParams(params: seq<Attr>): (r: seq<Attr>)
    ensures Keys(r) == Keys(params)
    ensures forall k :: Find(r, k) == (match Find(params, k) case Some(v) => Some(UuidAsText(v)) case None => None)
    ensures forall i :: 0 <= i < |r| ==> !r[i].val.VUuid?
    decreases |params|
  {
    if params == [] then []
    else
      var rest := NormalizeQueryParams(params[1..]);
      var r := [Attr(params[0].key, UuidAsText(params[0].val))] + rest;
      assert r[1..] == rest;
      r
  }

  /** Normalizing twice is normalizing once. */
  lemma NormalizeIdempotent(params: seq<Attr>)
    ensures NormalizeQueryParams(NormalizeQueryParams(params)) == NormalizeQueryParams(params)
  {
    var n := NormalizeQueryParams(params);
    NormalizeFixes(n);
  }

  lemma {:induction false} NormalizeFixes(params: seq<Attr>)
    requires forall i :: 0 <= i < |params| ==> !params[i].val.VUuid?
    ensures NormalizeQueryParams(params) == params
    decreases |params|
  {
    if params != [] {
      NormalizeFixes(params[1..]);
      assert params == [params[0]] + params[1..];
    }
  }

  /** Normalizing a parameter never changes the literal it renders to. */
  lemma NormalizeKeepsLiteral(v: Value)
    requires IsScalar(v)
    ensures IsScalar(UuidAsText(v))
    ensures SqlValue(UuidAsText(v)) == SqlValue(v)
  {
    if v.VUuid? {
      UuidRendersAsText(v.u);
    }
  }
}

=== FILE: text.dfy ===
/** String helpers with Python `str` semantics: `replace`, `join`, `startswith`,
    ASCII `lower`, `str(int)` and zero padding. Strings are `seq<char>`. */
module Text {

  /** `s.startswith(p)` */
  predicate StartsWith(s: string, p: string) {
    |p| <= |s| && s[..|p|] == p
  }

  /** `s.endswith(p)` */
  predicate EndsWith(s: string, p: string) {
    |p| <= |s| && s[|s| - |p|..] == p
  }

  /** A text built around a middle part starts and ends with its outer parts. */
  lemma Framed(head: string, mid: string, tail: string)
    ensures StartsWith(head + mid + tail, head) && EndsWith(head + mid + tail, tail)
  {
    var s := head + mid + tail;
    assert s[..|head|] == head;
    assert s[|s| - |tail|..] == tail;
  }

  /** `p in s`: `p` occurs somewhere in `s`. */
  predicate Occurs(s: string, p: string)
    decreases |s|
  {
    StartsWith(s, p) || (|s| > 0 && Occurs(s[1..], p))
  }

  /** Python `s.replace(p, r)` for a non-empty pattern: occurrences are found
      left to right and never overlap. */
  function Replace(s: string, p: string, r: string): (out: string)
    requires |p| > 0
    ensures |s| >= |p| && s[..|p|] == p && |r| > 0 ==> |out| > 0 && out[0] == r[0]
    ensures |s| >= |p| && s[..|p|] != p ==> |out| > 0 && out[0] == s[0]
    decreases |s|
  {
    if |s| < |p| then s
    else if s[..|p|] == p then r + Replace(s[|p|..], p, r)
    else [s[0]] + Replace(s[1..], p, r)
  }

  /** Number of occurrences of the character `c` in `s`. */
  function Count(s: string, c: char): nat
    decreases |s|
  {
    if s == [] then 0 else (if s[0] == c then 1 else 0) + Count(s[1..], c)
  }

  /** Python `sep.join(xs)`. */
  function JoinSep(xs: seq<string>, sep: string): string
    decreases |xs|
  {
    if |xs| == 0 then ""
    else if |xs| == 1 then xs[0]
    else xs[0] + sep + JoinSep(xs[1..], sep)
  }

  /** `r` keeps some of the elements of `s`, in their order in `s`. */
  predicate IsSubsequence(r: seq<string>, s: seq<string>)
    decreases |s|
  {
    if r == [] then true
    else if s == [] then false
    else if r[0] == s[0] then IsSubsequence(r[1..], s[1..])
    else IsSubsequence(r, s[1..])
  }

  /** A subsequence of `s` is a subsequence of `s` with anything in front. */
  lemma {:induction false} SubsequenceCons(r: seq<string>, s: seq<string>, x: string)
    requires IsSubsequence(r, s)
    ensures IsSubsequence(r, [x] + s)
    decreases |s|, 1
  {
    assert ([x] + s)[1..] == s;
    if r != [] && r[0] == x {
      SubsequenceDropHead(r, s);
    }
  }

  /** Dropping the first element keeps a subsequence. */
  lemma {:induction false} SubsequenceDropHead(r: seq<string>, s: seq<string>)
    requires r != [] && IsSubsequence(r, s)
    ensures IsSubsequence(r[1..], s)
    decreases |s|, 0
  {
    if r[0] == s[0] {
      SubsequenceCons(r[1..], s[1..], s[0]);
    } else {
      SubsequenceDropHead(r, s[1..]);
      SubsequenceCons(r[1..], s[1..], s[0]);
    }
    assert [s[0]] + s[1..] == s;
  }

  /** ASCII lower-casing of one character. */
  function LowerChar(c: char): char {
    if 'A' <= c <= 'Z' then (c as int + 32) as char else c
  }

  /** ASCII `s.lower()`. */
  function Lower(s: string): (r: string)
    ensures |r| == |s|
    ensures forall i :: 0 <= i < |s| ==> r[i] == LowerChar(s[i])
  {
    seq(|s|, i requires 0 <= i < |s| => LowerChar(s[i]))
  }

  predicate IsHexDigit(c: char) {
    '0' <= c <= '9' || 'a' <= c <= 'f' || 'A' <= c <= 'F'
  }

  predicate IsLowerHexDigit(c: char) {
    '0' <= c <= '9' || 'a' <= c <= 'f'
  }

  function Digit(d: nat): char
    requires d < 10
  {
    "0123456789"[d]
  }

  /** Decimal digits of a natural number. */
  function NatToString(n: nat): (r: string)
    ensures |r| > 0
    ensures forall i :: 0 <= i < |r| ==> '0' <= r[i] <= '9'
    decreases n
  {
    if n < 10 then [Digit(n)] else NatToString(n / 10) + [Digit(n % 10)]
  }

  /** Python `str(i)` for an `int`. */
  function IntToString(i: int): string {
    if i < 0 then "-" + NatToString(-i) else NatToString(i)
  }

  /** `n` written in decimal, left-padded with zeros to at least `width` digits. */
  function Pad(n: nat, width: nat): (r: string)
    ensures |r| >= width
  {
    var d := NatToString(n);
    if |d| >= width then d else seq(width - |d|, _ => '0') + d
  }

  // ---------------------------------------------------------------------------
  // Facts about Replace
  // ---------------------------------------------------------------------------

  lemma OccursLength(s: string, p: string)
    requires Occurs(s, p)
    ensures |p| <= |s|
    decreases |s|
  {
    if !StartsWith(s, p) {
      OccursLength(s[1..], p);
    }
  }

  /** A pattern whose first character does not appear in `a` cannot start inside `a`. */
  lemma {:induction false} OccursAfterPrefix(a: string, b: string, q: string)
    requires |q| > 0 && q[0] !in a
    requires Occurs(a + b, q)
    ensures Occurs(b, q)
    decreases |a|
  {
    if |a| > 0 {
      assert (a + b)[0] == a[0];
      assert !StartsWith(a + b, q);
      assert (a + b)[1..] == a[1..] + b;
      OccursAfterPrefix(a[1..], b, q);
    } else {
      assert a + b == b;
    }
  }

  /** If the text produced by Replace starts with `q`, and the replacement's first
      character is not in `q`, then no replacement happened inside that prefix:
      the input starts with `q` too. */
  lemma {:induction false} StartsWithBeforeReplace(t: string, p: string, r: string, q: string)
    requires |p| > 0 && |r| > 0
    requires r[0] !in q
    requires StartsWith(Replace(t, p, r), q)
    ensures StartsWith(t, q)
    decreases |t|
  {
    if |t| < |p| {
    } else if t[..|p|] == p {
    } else {
      var rest := Replace(t[1..], p, r);
      assert Replace(t, p, r) == [t[0]] + rest;
      if |q| > 0 {
        assert q[0] == t[0];
        assert StartsWith(rest, q[1..]) by {
          assert rest[..|q| - 1] == ([t[0]] + rest)[1..|q|];
        }
        StartsWithBeforeReplace(t[1..], p, r, q[1..]);
        assert t[..|q|] == [t[0]] + t[1..][..|q| - 1];
      }
    }
  }

  /** Replacing `p` by `r` leaves no occurrence of `q` when either `q` is `p`
      itself or `q` did not occur before, provided the replacement cannot
      create `q` at a seam: `q`'s first character is not in `r`, and `r`'s
      first character is not in the rest of `q`. */
  lemma {:induction false} ReplaceLeavesNoOccurrence(s: string, p: string, r: string, q: string)
    requires |p| > 0 && |r| > 0 && |q| > 0
    requires q[0] !in r
    requires r[0] !in q[1..]
    requires q == p || !Occurs(s, q)
    ensures !Occurs(Replace(s, p, r), q)
    decreases |s|
  {
    var out := Replace(s, p, r);
    if |s| < |p| {
      if Occurs(s, q) {
        OccursLength(s, q);
        assert false;
      }
    } else if s[..|p|] == p {
      var tail := s[|p|..];
      if q != p {
        assert !Occurs(tail, q) by {
          if Occurs(tail, q) { OccursInSuffix(s, |p|, q); }
        }
      }
      ReplaceLeavesNoOccurrence(tail, p, r, q);
      if Occurs(out, q) {
        OccursAfterPrefix(r, Replace(tail, p, r), q);
        assert false;
      }
    } else {
      var tail := s[1..];
      if q != p {
        assert !Occurs(tail, q);
      }
      ReplaceLeavesNoOccurrence(tail, p, r, q);
      var rest := Replace(tail, p, r);
      assert out == [s[0]] + rest;
      if Occurs(out, q) {
        assert out[1..] == rest;
        if StartsWith(out, q) {
          assert q[0] == s[0];
          assert StartsWith(rest, q[1..]) by {
            assert rest[..|q| - 1] == out[1..|q|];
          }
          StartsWithBeforeReplace(tail, p, r, q[1..]);
          assert false;
        }
        assert false;
      }
    }
  }

  /** An occurrence in a suffix is an occurrence in the whole string. */
  lemma OccursInSuffix(s: string, k: nat, q: string)
    requires k <= |s|
    requires Occurs(s[k..], q)
    ensures Occurs(s, q)
    decreases k
  {
    if k > 0 {
      assert s[1..][k - 1..] == s[k..];
      OccursInSuffix(s[1..], k - 1, q);
    }
  }

  /** A string with no occurrence of a non-empty pattern is left unchanged. */
  lemma {:induction false} ReplaceAbsent(s: string, p: string, r: string)
    requires |p| > 0
    requires !Occurs(s, p)
    ensures Replace(s, p, r) == s
    decreases |s|
  {
    if |s| >= |p| {
      assert !StartsWith(s, p);
      ReplaceAbsent(s[1..], p, r);
    }
  }

  /** Every character of an occurring pattern is a character of the text. */
  lemma OccursChar(s: string, p: string, j: int)
    requires Occurs(s, p)
    requires 0 <= j < |p|
    ensures p[j] in s
    decreases |s|
  {
    if StartsWith(s, p) {
      assert s[..|p|][j] == s[j];
    } else {
      OccursChar(s[1..], p, j);
    }
  }

  /** Replacing a single character distributes over concatenation. */
  lemma {:induction false} ReplaceCharConcat(x: string, y: string, c: char, r: string)
    ensures Replace(x + y, [c], r) == Replace(x, [c], r) + Replace(y, [c], r)
    decreases |x|
  {
    if x == [] {
      assert x + y == y;
    } else {
      assert (x + y)[1..] == x[1..] + y;
      assert (x + y)[..1] == [x[0]];
      ReplaceCharConcat(x[1..], y, c, r);
    }
  }

  /** One step of Replace where the pattern matches at the front. */
  lemma ReplaceMatchHere(s: string, p: string, r: string)
    requires |p| > 0 && StartsWith(s, p)
    ensures Replace(s, p, r) == r + Replace(s[|p|..], p, r)
  {
  }

  /** One step of Replace where the pattern does not match at the front. */
  lemma ReplaceSkipHere(s: string, p: string, r: string)
    requires |p| > 0 && |s| > 0 && !StartsWith(s, p)
    ensures Replace(s, p, r) == [s[0]] + Replace(s[1..], p, r)
  {
    if |s| < |p| {
      ReplaceAbsent(s[1..], p, r) by {
        if Occurs(s[1..], p) { OccursLength(s[1..], p); }
      }
      assert s == [s[0]] + s[1..];
    }
  }

  // ---------------------------------------------------------------------------
  // A sequence of replacements applied left to right
  // ---------------------------------------------------------------------------

  datatype Sub = Sub(pat: string, rep: string)

  predicate PatternsNonEmpty(subs: seq<Sub>) {
    forall i :: 0 <= i < |subs| ==> |subs[i].pat| > 0
  }

  /** `for p, r in subs: s = s.replace(p, r)` */
  function ReplaceEach(s: string, subs: seq<Sub>): string
    requires PatternsNonEmpty(subs)
    decreases |subs|
  {
    if subs == [] then s else ReplaceEach(Replace(s, subs[0].pat, subs[0].rep), subs[1..])
  }

  /** No replacement text can create an occurrence of `q` at a seam. */
  predicate SeamSafe(subs: seq<Sub>, q: string)
    requires |q| > 0
  {
    forall i :: 0 <= i < |subs| ==> |subs[i].rep| > 0 && q[0] !in subs[i].rep && subs[i].rep[0] !in q[1..]
  }

  /** A pattern that is absent stays absent through seam-safe replacements. */
  lemma {:induction false} ReplaceEachKeepsAbsent(s: string, subs: seq<Sub>, q: string)
    requires PatternsNonEmpty(subs) && |q| > 0
    requires SeamSafe(subs, q)
    requires !Occurs(s, q)
    ensures !Occurs(ReplaceEach(s, subs), q)
    decreases |subs|
  {
    if subs != [] {
      ReplaceLeavesNoOccurrence(s, subs[0].pat, subs[0].rep, q);
      ReplaceEachKeepsAbsent(Replace(s, subs[0].pat, subs[0].rep), subs[1..], q);
    }
  }

  /** After the replacements, no occurrence of the `j`-th pattern remains when the
      replacements from the `j`-th on are seam-safe for it. */
  lemma {:induction false} ReplaceEachRemoves(s: string, subs: seq<Sub>, j: nat)
    requires PatternsNonEmpty(subs) && j < |subs|
    requires SeamSafe(subs[j..], subs[j].pat)
    ensures !Occurs(ReplaceEach(s, subs), subs[j].pat)
    decreases |subs|
  {
    var q := subs[j].pat;
    var t := Replace(s, subs[0].pat, subs[0].rep);
    if j == 0 {
      assert subs[0] == subs[j..][0];
      ReplaceLeavesNoOccurrence(s, subs[0].pat, subs[0].rep, q);
      assert SeamSafe(subs[1..], q) by {
        assert subs[1..] == subs[j..][1..];
      }
      ReplaceEachKeepsAbsent(t, subs[1..], q);
    } else {
      assert subs[1..][j - 1..] == subs[j..];
      ReplaceEachRemoves(t, subs[1..], j - 1);
    }
  }
}

=== FILE: utilities.dfy ===
/** `query_format` whitespace collapsing and the parameter rendering of `log`
    (the printing itself is not modelled). */
module Utilities {
  import opened Text
  import opened Values
  import SqlUtils

  /** `c.isspace()`: the characters `str.split()` and `str.strip()` treat as
      whitespace. */
  predicate IsSpace(c: char) {
    || c == ' ' || c == '\t' || c == '\n' || c == '\r' || c == '\U{000B}' || c == '\U{000C}'
    || ('\U{001C}' <= c <= '\U{001F}') || c == '\U{0085}' || c == '\U{00A0}' || c == '\U{1680}'
    || ('\U{2000}' <= c <= '\U{200A}') || c == '\U{2028}' || c == '\U{2029}' || c == '\U{202F}'
    || c == '\U{205F}' || c == '\U{3000}'
  }

  predicate NoSpace(w: string) {
    forall i :: 0 <= i < |w| ==> !IsSpace(w[i])
  }

  /** Words as `str.split()` yields them: non-empty and without whitespace. */
  predicate IsWordList(ws: seq<string>) {
    forall i :: 0 <= i < |ws| ==> |ws[i]| > 0 && NoSpace(ws[i])
  }

  /** Length of the leading run of non-whitespace characters. */
  function TokenLen(s: string): (n: nat)
    ensures n <= |s|
    ensures NoSpace(s[..n])
    ensures n < |s| ==> IsSpace(s[n])
    decreases |s|
  {
    if s == [] || IsSpace(s[0]) then 0
    else
      var m := TokenLen(s[1..]);
      assert s[..1 + m] == [s[0]] + s[1..][..m];
      1 + m
  }

  /** `s.split()`: maximal runs of non-whitespace characters, in order. */
  function Words(s: string): (ws: seq<string>)
    ensures IsWordList(ws)
    decreases |s|
  {
    if s == [] then []
    else if IsSpace(s[0]) then Words(s[1..])
    else
      var n := TokenLen(s);
      [s[..n]] + Words(s[n..])
  }

  /** `s.strip()` */
  function Strip(s: string): (r: string)
    ensures r == [] || (!IsSpace(r[0]) && !IsSpace(r[|r| - 1]))
    decreases |s|
  {
    if |s| > 0 && IsSpace(s[0]) then Strip(s[1..])
    else if |s| > 0 && IsSpace(s[|s| - 1]) then Strip(s[..|s| - 1])
    else s
  }

  /** A text in normal form: whitespace only as single spaces between words. */
  predicate Collapsed(r: string) {
    forall i :: 0 <= i < |r| && IsSpace(r[i]) ==> r[i] == ' ' && 0 < i < |r| - 1 && !IsSpace(r[i + 1])
  }

  /** Words joined by single spaces are in normal form. */
  lemma {:induction false} JoinCollapsed(ws: seq<string>)
    requires IsWordList(ws)
    ensures Collapsed(JoinSep(ws, " "))
    ensures ws != [] ==> |JoinSep(ws, " ")| > 0 && !IsSpace(JoinSep(ws, " ")[0])
    decreases |ws|
  {
    if |ws| >= 2 {
      JoinCollapsed(ws[1..]);
      var w, t := ws[0], JoinSep(ws[1..], " ");
      var r := w + " " + t;
      assert forall i :: 0 <= i < |w| ==> r[i] == w[i];
      forall i | 0 <= i < |r| && IsSpace(r[i])
        ensures r[i] == ' ' && 0 < i < |r| - 1 && !IsSpace(r[i + 1])
      {
        if i > |w| {
          assert r[i] == t[i - |w| - 1];
          assert i + 1 < |r| ==> r[i + 1] == t[i - |w|];
        }
      }
    }
  }

  /** `query_format(text)`: `" ".join(text.split()).strip()`. */
  function QueryFormat(text: string): (r: string)
    ensures Collapsed(r)
    ensures r == [] || (!IsSpace(r[0]) && !IsSpace(r[|r| - 1]))
  {
    var ws := Words(text);
    JoinCollapsed(ws);
    Strip(JoinSep(ws, " "))
  }

  /** `Strip` leaves a normal-form text alone. */
  lemma StripCollapsed(r: string)
    requires Collapsed(r)
    ensures Strip(r) == r
  {
  }

  /** Splitting a word followed by whitespace (or by nothing). */
  lemma {:induction false} WordsAfterWord(w: string, rest: string)
    requires |w| > 0 && NoSpace(w)
    requires rest == [] || IsSpace(rest[0])
    ensures Words(w + rest) == [w] + Words(rest)
  {
    var s := w + rest;
    assert !IsSpace(s[0]);
    TokenLenOfWord(w, rest);
    assert s[..|w|] == w && s[|w|..] == rest;
  }

  lemma {:induction false} TokenLenOfWord(w: string, rest: string)
    requires NoSpace(w)
    requires rest == [] || IsSpace(rest[0])
    ensures TokenLen(w + rest) == |w|
    decreases |w|
  {
    var s := w + rest;
    if w == [] {
      assert s == rest;
    } else {
      assert s[1..] == w[1..] + rest;
      TokenLenOfWord(w[1..], rest);
    }
  }

  /** Splitting the single-space join of a word list gives the list back. */
  lemma {:induction false} WordsOfJoin(ws: seq<string>)
    requires IsWordList(ws)
    ensures Words(JoinSep(ws, " ")) == ws
    decreases |ws|
  {
    if |ws| == 1 {
      WordsAfterWord(ws[0], []);
      assert ws[0] + [] == ws[0];
    } else if |ws| >= 2 {
      var t := JoinSep(ws[1..], " ");
      WordsOfJoin(ws[1..]);
      assert ws[0] + " " + t == ws[0] + (" " + t);
      WordsAfterWord(ws[0], " " + t);
      assert (" " + t)[1..] == t;
    }
  }

  /** `query_format` keeps the sequence of non-whitespace tokens. */
  lemma QueryFormatKeepsWords(text: string)
    ensures Words(QueryFormat(text)) == Words(text)
  {
    var ws := Words(text);
    JoinCollapsed(ws);
    StripCollapsed(JoinSep(ws, " "));
    WordsOfJoin(ws);
  }

  /** `query_format` is idempotent. */
  lemma QueryFormatIdempotent(text: string)
    ensures QueryFormat(QueryFormat(text)) == QueryFormat(text)
  {
    QueryFormatKeepsWords(text);
    var ws := Words(text);
    JoinCollapsed(ws);
    StripCollapsed(JoinSep(ws, " "));
  }

  // ---------------------------------------------------------------------------
  // log(query, params): the text that gets printed
  // ---------------------------------------------------------------------------

  /** How `log` renders one parameter value: strings quoted without escaping,
      dates and datetimes as a quoted `%Y-%m-%d` (a datetime loses its time of
      day), times as a quoted `%H:%M:%S`, None as `NULL`, anything else by `str()`. */
  function LogParamText(v: Value): (r: string)
    requires IsScalar(v)
    ensures v.VStr? ==> r == SqlUtils.Quote(v.s)
    ensures v.VDateTime? ==> r == SqlUtils.Quote(DateText(v.year, v.month, v.day))
    ensures v.VDate? ==> r == SqlUtils.Quote(DateText(v.dYear, v.dMonth, v.dDay))
    ensures v.VTime? ==> r == SqlUtils.Quote(ClockText(v.tHour, v.tMinute, v.tSecond))
    ensures v.VBool? || v.VInt? || v.VUuid? ==> r == PyStr(v)
    ensures v.VNone? ==> r == "NULL"
  {
    match v
    case VStr(s) => SqlUtils.Quote(s)
    case VDateTime(y, mo, d, _, _, _) => SqlUtils.Quote(DateText(y, mo, d))
    case VDate(y, mo, d) => SqlUtils.Quote(DateText(y, mo, d))
    case VTime(h, mi, s) => SqlUtils.Quote(ClockText(h, mi, s))
    case VNone => "NULL"
    case VBool(_) | VInt(_) | VUuid(_) | VOther(_) => PyStr(v)
  }

  /** `%(key)s` */
  function Placeholder(key: string): (p: string)
    ensures |p| == |key| + 4 && p[0] == '%'
  {
    "%(" + key + ")s"
  }

  /** The replacements `log` performs, in parameter order. */
  function LogSubs(params: seq<Attr>): (subs: seq<Sub>)
    requires Flat(params)
    ensures |subs| == |params| && PatternsNonEmpty(subs)
    ensures forall i :: 0 <= i < |params| ==>
              subs[i].pat == Placeholder(params[i].key) && subs[i].rep == LogParamText(params[i].val)
  {
    seq(|params|, i requires 0 <= i < |params| => Sub(Placeholder(params[i].key), LogParamText(params[i].val)))
  }

  /** The text `log(query, params)` prints: every `%(key)s` replaced by the
      rendered value, then `query_format`; with no parameters only the
      formatting applies. */
  function LogText(query: string, params: seq<Attr>): (r: string)
    requires Flat(params)
    ensures params == [] ==> r == QueryFormat(query)
    ensures Collapsed(r)
  {
    QueryFormat(ReplaceEach(query, LogSubs(params)))
  }

  /** Each placeholder is replaced: none is left in the substituted query,
      provided the values rendered from that parameter on are non-empty, contain
      no `%` and do not start with a character of the placeholder's tail. */
  lemma PlaceholdersReplaced(query: string, params: seq<Attr>, j: nat)
    requires Flat(params) && j < |params|
    requires SeamSafe(LogSubs(params)[j..], Placeholder(params[j].key))
    ensures !Occurs(ReplaceEach(query, LogSubs(params)), Placeholder(params[j].key))
  {
    ReplaceEachRemoves(query, LogSubs(params), j);
  }

  lemma QuoteInCount(s: string)
    ensures '\'' in s <==> Count(s, '\'') > 0
    decreases |s|
  {
    if s != [] {
      QuoteInCount(s[1..]);
      assert s == [s[0]] + s[1..];
    }
  }

  /** `log` shows a string parameter as the SQL literal would be written exactly
      when the string has no single quote: `log` does not escape. */
  lemma LogMatchesSqlIffNoQuote(s: string)
    ensures LogParamText(VStr(s)) == SqlUtils.SqlValue(VStr(s)) <==> '\'' !in s
  {
    QuoteInCount(s);
    if '\'' !in s {
      SqlUtils.EscapeNoQuote(s);
    }
  }
}

=== FILE: uuid_utils.dfy ===
/** `is_valid_uuid` and the part of `uuid.UUID(str)` it relies on. */
module UuidUtils {
  import opened Text
  import opened Values

  /** The 8-4-4-4-12 layout with hexadecimal digits of either case: the
      `looks_like_uuid` pattern without its end-of-line leniency. */
  predicate UuidShape(s: string) {
    && |s| == 36
    && forall i :: 0 <= i < 36 ==> if IsHyphenPos(i) then s[i] == '-' else IsHexDigit(s[i])
  }

  predicate AllHex(h: string) {
    forall i :: 0 <= i < |h| ==> IsHexDigit(h[i])
  }

  /** Python `s.strip('{}')`. */
  function StripBraces(s: string): (r: string)
    ensures |r| <= |s|
    ensures |r| > 0 ==> r[0] != '{' && r[0] != '}' && r[|r| - 1] != '{' && r[|r| - 1] != '}'
    decreases |s|
  {
    if |s| > 0 && (s[0] == '{' || s[0] == '}') then StripBraces(s[1..])
    else if |s| > 0 && (s[|s| - 1] == '{' || s[|s| - 1] == '}') then StripBraces(s[..|s| - 1])
    else s
  }

  /** What `uuid.UUID(hex)` hands to `int(hex, 16)`: the text with `urn:` and
      `uuid:` removed, braces stripped from both ends and hyphens dropped. */
  function HexPart(s: string): string {
    Replace(StripBraces(Replace(Replace(s, "urn:", ""), "uuid:", "")), "-", "")
  }

  /** Index into the 32 digits for a non-hyphen position of the 36-character form. */
  function HexIndex(i: int): int {
    if i < 8 then i else if i < 13 then i - 1 else if i < 18 then i - 2 else if i < 23 then i - 3 else i - 4
  }

  /** 32 digits laid out as 8-4-4-4-12. */
  function Hyphenate(h: string): (r: string)
    requires |h| == 32
    ensures |r| == 36
    ensures forall i :: 0 <= i < 36 ==> r[i] == if IsHyphenPos(i) then '-' else h[HexIndex(i)]
  {
    var r := h[..8] + "-" + h[8..12] + "-" + h[12..16] + "-" + h[16..20] + "-" + h[20..];
    assert forall i :: 0 <= i < 36 ==> r[i] == if IsHyphenPos(i) then '-' else h[HexIndex(i)] by {
      forall i | 0 <= i < 36
        ensures r[i] == if IsHyphenPos(i) then '-' else h[HexIndex(i)]
      {
      }
    }
    r
  }

  /** `uuid.UUID(s)` on a string, with `str()` of the result: the canonical text,
      or None where the constructor raises `ValueError`. */
  function ParseUuid(s: string): (r: Option<UuidText>)
    ensures r.Some? <==> |HexPart(s)| == 32 && AllHex(HexPart(s))
    ensures r.Some? ==> r.value == Hyphenate(Lower(HexPart(s)))
  {
    var h := HexPart(s);
    if |h| == 32 && AllHex(h) then
      var u := Hyphenate(Lower(h));
      assert IsCanonicalUuid(u) by {
        forall i | 0 <= i < 36 && !IsHyphenPos(i) ensures IsLowerHexDigit(u[i]) {
          assert IsHexDigit(h[HexIndex(i)]);
        }
      }
      Some(u)
    else None
  }

  // ---------------------------------------------------------------------------
  // Parsing a string that already has the 8-4-4-4-12 shape
  // ---------------------------------------------------------------------------

  lemma NoCharNoOccurrence(s: string, p: string, j: int)
    requires 0 <= j < |p|
    requires p[j] !in s
    ensures !Occurs(s, p)
  {
    if Occurs(s, p) {
      OccursChar(s, p, j);
    }
  }

  /** Removing hyphens from `x + "-" + y` when `x` has none. */
  lemma DropHyphenAfter(x: string, y: string)
    requires '-' !in x
    ensures Replace(x + "-" + y, "-", "") == x + Replace(y, "-", "")
  {
    assert x + "-" + y == x + ("-" + y);
    ReplaceCharConcat(x, "-" + y, '-', "");
    DropNoHyphen(x);
    DropLeadingHyphen(y);
  }

  lemma DropLeadingHyphen(y: string)
    ensures Replace("-" + y, "-", "") == Replace(y, "-", "")
  {
    var u := "-" + y;
    ReplaceMatchHere(u, "-", "");
    assert u[1..] == y;
  }

  lemma DropNoHyphen(x: string)
    requires '-' !in x
    ensures Replace(x, "-", "") == x
  {
    NoCharNoOccurrence(x, "-", 0);
    ReplaceAbsent(x, "-", "");
  }

  /** Removing `urn:` and `uuid:` changes nothing in a text without a colon. */
  lemma ColonFree(s: string)
    requires ':' !in s
    ensures Replace(Replace(s, "urn:", ""), "uuid:", "") == s
  {
    NoCharNoOccurrence(s, "urn:", 3);
    ReplaceAbsent(s, "urn:", "");
    NoCharNoOccurrence(s, "uuid:", 4);
    ReplaceAbsent(s, "uuid:", "");
  }

  /** The 32 digits of a shaped string. */
  function Digits(s: string): (h: string)
    requires UuidShape(s)
    ensures |h| == 32 && AllHex(h)
    ensures forall i :: 0 <= i < 36 && !IsHyphenPos(i) ==> h[HexIndex(i)] == s[i]
  {
    s[..8] + s[9..13] + s[14..18] + s[19..23] + s[24..]
  }

  lemma ShapeHasNo(s: string, c: char)
    requires UuidShape(s)
    requires c == ':' || c == '{' || c == '}' || c == 'r'
    ensures c !in s
  {
    forall i | 0 <= i < |s| ensures s[i] != c {
    }
  }

  /** Removing hyphens from a text whose first hyphen is at `k`. */
  lemma DropAt(s: string, k: nat)
    requires k < |s| && s[k] == '-' && '-' !in s[..k]
    ensures Replace(s, "-", "") == s[..k] + Replace(s[k + 1..], "-", "")
  {
    assert s == s[..k] + "-" + s[k + 1..];
    DropHyphenAfter(s[..k], s[k + 1..]);
  }

  /** Where the hyphens of a shaped string are, and where they are not. */
  lemma ShapeChunks(s: string)
    requires UuidShape(s)
    ensures s[8] == '-' && s[13] == '-' && s[18] == '-' && s[23] == '-'
    ensures '-' !in s[..8] && '-' !in s[9..13] && '-' !in s[14..18] && '-' !in s[19..23] && '-' !in s[24..]
  {
    assert forall i :: 0 <= i < 8 ==> s[..8][i] == s[i];
    assert forall i :: 0 <= i < 4 ==> s[9..13][i] == s[9 + i];
    assert forall i :: 0 <= i < 4 ==> s[14..18][i] == s[14 + i];
    assert forall i :: 0 <= i < 4 ==> s[19..23][i] == s[19 + i];
    assert forall i :: 0 <= i < 12 ==> s[24..][i] == s[24 + i];
  }

  /** Removing the hyphens of a four-digit group, a hyphen and the rest. */
  lemma DropGroup(t: string, rest: string)
    requires |t| >= 5 && t[4] == '-' && '-' !in t[..4]
    requires Replace(t[5..], "-", "") == rest
    ensures Replace(t, "-", "") == t[..4] + rest
  {
    DropAt(t, 4);
  }

  /** Five groups joined from the right are the same text joined from the left. */
  lemma Regroup(a: string, b: string, c: string, d: string, e: string)
    ensures a + (b + (c + (d + e))) == a + b + c + d + e
  {
    assert b + (c + (d + e)) == b + c + d + e;
  }

  /** Removing the hyphens of a shaped string leaves its digits. */
  lemma {:induction false} DropHyphensOfShape(s: string)
    requires UuidShape(s)
    ensures Replace(s, "-", "") == s[..8] + s[9..13] + s[14..18] + s[19..23] + s[24..]
  {
    ShapeChunks(s);
    var t1, t2, t3 := s[9..], s[14..], s[19..];
    assert t3[..4] == s[19..23] && t3[5..] == s[24..];
    DropNoHyphen(s[24..]);
    DropGroup(t3, s[24..]);
    var r3 := s[19..23] + s[24..];
    assert t2[..4] == s[14..18] && t2[5..] == t3;
    DropGroup(t2, r3);
    var r2 := s[14..18] + r3;
    assert t1[..4] == s[9..13] && t1[5..] == t2;
    DropGroup(t1, r2);
    var r1 := s[9..13] + r2;
    DropAt(s, 8);
    assert s[9..] == t1;
    Regroup(s[..8], s[9..13], s[14..18], s[19..23], s[24..]);
  }

  lemma {:induction false} HexPartOfShape(s: string)
    requires UuidShape(s)
    ensures HexPart(s) == Digits(s)
  {
    ShapeHasNo(s, ':');
    ColonFree(s);
    assert StripBraces(s) == s by {
      assert IsHexDigit(s[0]) && IsHexDigit(s[35]);
    }
    DropHyphensOfShape(s);
  }

  /** `uuid.UUID` accepts every 8-4-4-4-12 hex string, and its text is the
      lower-cased input. */
  lemma {:induction false} ParseShaped(s: string)
    requires UuidShape(s)
    ensures ParseUuid(s) == Some(Lower(s))
  {
    HexPartOfShape(s);
    var h := Digits(s);
    assert Hyphenate(Lower(h)) == Lower(s);
  }

  /** A string whose lower-cased form is canonical has the 8-4-4-4-12 shape. */
  lemma LowerCanonicalShape(s: string)
    requires IsCanonicalUuid(Lower(s))
    ensures UuidShape(s)
  {
    forall i | 0 <= i < 36
      ensures if IsHyphenPos(i) then s[i] == '-' else IsHexDigit(s[i])
    {
      assert Lower(s)[i] == LowerChar(s[i]);
    }
  }

  // ---------------------------------------------------------------------------
  // is_valid_uuid
  // ---------------------------------------------------------------------------

  /** `is_valid_uuid` on a string: the parsed UUID's text equals the lower-cased
      input. It holds exactly for the 8-4-4-4-12 hex strings, in either case. */
  function IsValidUuidText(s: string): (b: bool)
    ensures b <==> UuidShape(s)
  {
    if UuidShape(s) then
      ParseShaped(s);
      true
    else
      match ParseUuid(s)
      case None => false
      case Some(u) =>
        if u == Lower(s) then
          LowerCanonicalShape(s);
          assert false;
          false
        else false
  }

  /** `is_valid_uuid(value)`: never raises; any non-string (a `UUID` object, an
      int, None) makes `uuid.UUID` raise `AttributeError`/`TypeError`, caught as False. */
  function IsValidUuid(v: Value): (b: bool)
    ensures b <==> v.VStr? && UuidShape(v.s)
    ensures !v.VStr? ==> !b
  {
    v.VStr? && IsValidUuidText(v.s)
  }

  /** Canonical UUID text parses to itself. */
  lemma ParseCanonical(u: UuidText)
    ensures ParseUuid(u) == Some(u)
    ensures IsValidUuidText(u)
  {
    assert UuidShape(u);
    ParseShaped(u);
    assert Lower(u) == u by {
      forall i | 0 <= i < 36 ensures LowerChar(u[i]) == u[i] {
      }
    }
  }

  /** Hex case does not matter: `is_valid_uuid(s) == is_valid_uuid(s.lower())`. */
  lemma CaseInsensitive(s: string)
    ensures IsValidUuidText(s) == IsValidUuidText(Lower(s))
  {
    var l := Lower(s);
    if |s| == 36 {
      forall i | 0 <= i < 36
        ensures (if IsHyphenPos(i) then s[i] == '-' else IsHexDigit(s[i]))
            <==> (if IsHyphenPos(i) then l[i] == '-' else IsHexDigit(l[i]))
      {
        assert l[i] == LowerChar(s[i]);
      }
      assert UuidShape(s) <==> UuidShape(l);
    }
  }

  lemma BracesStripped(s: string)
    requires UuidShape(s)
    ensures HexPart("{" + s + "}") == HexPart(s)
  {
    var t := "{" + s + "}";
    ShapeHasNo(s, ':');
    assert ':' !in t by {
      forall i | 0 <= i < |t| ensures t[i] != ':' {
        if 0 < i < 37 { assert t[i] == s[i - 1]; }
      }
    }
    ColonFree(t);
    ColonFree(s);
    StripShaped(s);
  }

  /** `strip('{}')` takes exactly the braces off a braced shaped string, and
      leaves the bare form alone. */
  lemma StripShaped(s: string)
    requires UuidShape(s)
    ensures StripBraces(s) == s
    ensures StripBraces("{" + s + "}") == s
  {
    var t := "{" + s + "}";
    var w := s + "}";
    assert t[0] == '{' && t[1..] == w;
    assert w[0] == s[0] && w[|w| - 1] == '}' && w[..|w| - 1] == s;
    assert IsHexDigit(s[0]) && IsHexDigit(s[35]);
    assert StripBraces(s) == s;
    assert StripBraces(w) == s;
  }

  /** The brace form is accepted by `uuid.UUID` but not by `is_valid_uuid`. */
  lemma {:induction false} BracedRejected(s: string)
    requires UuidShape(s)
    ensures ParseUuid("{" + s + "}") == Some(Lower(s))
    ensures !IsValidUuidText("{" + s + "}")
  {
    BracesStripped(s);
    ParseShaped(s);
  }

  /** Removing `urn:` and then `uuid:` from `urn:uuid:` + s leaves s. */
  lemma UrnPrefixRemoved(s: string)
    requires UuidShape(s)
    ensures Replace(Replace("urn:uuid:" + s, "urn:", ""), "uuid:", "") == s
  {
    var t := "urn:uuid:" + s;
    var u := "uuid:" + s;
    assert t[..4] == "urn:" && t[4..] == u;
    ShapeHasNo(s, 'r');
    assert 'r' !in u by {
      forall i | 0 <= i < |u| ensures u[i] != 'r' {
        if i >= 5 { assert u[i] == s[i - 5]; }
      }
    }
    NoCharNoOccurrence(u, "urn:", 1);
    ReplaceAbsent(u, "urn:", "");
    assert Replace(t, "urn:", "") == u;
    assert u[..5] == "uuid:" && u[5..] == s;
    ShapeHasNo(s, ':');
    NoCharNoOccurrence(s, "uuid:", 4);
    ReplaceAbsent(s, "uuid:", "");
  }

  lemma UrnStripped(s: string)
    requires UuidShape(s)
    ensures HexPart("urn:uuid:" + s) == HexPart(s)
  {
    UrnPrefixRemoved(s);
    ShapeHasNo(s, ':');
    ColonFree(s);
  }

  /** The `urn:uuid:` form is accepted by `uuid.UUID` but not by `is_valid_uuid`. */
  lemma {:induction false} UrnRejected(s: string)
    requires UuidShape(s)
    ensures ParseUuid("urn:uuid:" + s) == Some(Lower(s))
    ensures !IsValidUuidText("urn:uuid:" + s)
  {
    UrnStripped(s);
    ParseShaped(s);
  }

  /** The 32-digit form without hyphens is accepted by `uuid.UUID` but not by
      `is_valid_uuid`. */
  lemma {:induction false} HyphenlessRejected(h: string)
    requires |h| == 32 && AllHex(h)
    ensures ParseUuid(h).Some?
    ensures !IsValidUuidText(h)
  {
    assert ':' !in h && '-' !in h by {
      forall i | 0 <= i < |h| ensures h[i] != ':' && h[i] != '-' {
        assert IsHexDigit(h[i]);
      }
    }
    ColonFree(h);
    assert StripBraces(h) == h by {
      assert IsHexDigit(h[0]) && IsHexDigit(h[31]);
    }
    DropNoHyphen(h);
  }
}

=== FILE: validation.dfy ===
/** Declarative validation of an operation's inputs: the `restrictions` rules
    a Domain class declares per operation, and the two decorators that apply
    the same three checks to keyword arguments or to instance attributes. */
module Validation {
  import opened Text
  import opened Values
  import opened Exceptions

  /** One operation's rule: the `required`, `required_any` and
      `mutually_exclusive` entries (an absent entry is an empty list). */
  datatype Rule = Rule(required: seq<string>, requiredAny: seq<string>, mutuallyExclusive: seq<seq<string>>)

  /** A class's `restrictions`: operation name to rule. */
  type Restrictions = map<string, Rule>

  /** The fields of `fs` on which `keep` holds, duplicates and order kept. */
  function Select(fs: seq<string>, keep: string -> bool): (r: seq<string>)
    ensures forall f :: f in r <==> f in fs && keep(f)
    ensures IsSubsequence(r, fs)
    ensures |r| <= |fs|
    decreases |fs|
  {
    if fs == [] then []
    else
      var rest := Select(fs[1..], keep);
      if keep(fs[0]) then
        var r := [fs[0]] + rest;
        assert r[1..] == rest;
        r
      else
        assert forall f :: f in rest ==> f in fs;
        rest
  }

  /** The predicate that complements `filled`. */
  function Not(filled: string -> bool): (p: string -> bool)
    ensures forall f :: p(f) == !filled(f)
  {
    f => !filled(f)
  }

  /** The combined entry for an unsatisfied `required_any` list. */
  function AnyEntry(fields: seq<string>): string {
    "[any of: " + JoinSep(fields, ", ") + "]"
  }

  /** The single entry reported for a violated `mutually_exclusive` group. */
  function ExclusiveEntry(group: seq<string>): string {
    "[mutually exclusive violation: " + JoinSep(group, ", ") + "]"
  }

  /** A group whose filled members number more than one (a field listed twice counts twice). */
  predicate Violates(group: seq<string>, filled: string -> bool) {
    |Select(group, filled)| > 1
  }

  /** The index of the first violated group at or after `i`. */
  function FirstViolation(groups: seq<seq<string>>, filled: string -> bool, i: nat): (r: Option<nat>)
    requires i <= |groups|
    ensures r.Some? ==> i <= r.value < |groups| && Violates(groups[r.value], filled)
    ensures r.Some? ==> forall j :: i <= j < r.value ==> !Violates(groups[j], filled)
    ensures r.None? ==> forall j :: i <= j < |groups| ==> !Violates(groups[j], filled)
    decreases |groups| - i
  {
    if i == |groups| then None
    else if Violates(groups[i], filled) then Some(i)
    else FirstViolation(groups, filled, i + 1)
  }

  /** The `required` fields that are not filled, in declaration order. */
  function MissingRequired(rule: Rule, filled: string -> bool): (r: seq<string>)
    ensures forall f :: f in r <==> f in rule.required && !filled(f)
    ensures IsSubsequence(r, rule.required)
  {
    Select(rule.required, Not(filled))
  }

  /** The one `[any of: ...]` entry, when `required_any` is non-empty and none of it is filled. */
  function MissingAny(rule: Rule, filled: string -> bool): (r: seq<string>)
    ensures |r| <= 1
    ensures r != [] <==> rule.requiredAny != [] && forall f :: f in rule.requiredAny ==> !filled(f)
    ensures r != [] ==> r == [AnyEntry(rule.requiredAny)]
  {
    if rule.requiredAny != [] && Select(rule.requiredAny, filled) == [] then [AnyEntry(rule.requiredAny)]
    else
      assert rule.requiredAny != [] ==> Select(rule.requiredAny, filled)[0] in rule.requiredAny;
      []
  }

  /** Evaluate one rule: `None` when it passes, otherwise the entries of the
      `ValidationError`. */
  function Evaluate(rule: Rule, filled: string -> bool): (r: Option<seq<string>>)
    // passes exactly when every required field is filled, a non-empty
    // required_any has a filled member, and no exclusive group has two
    ensures r.None? <==>
      && (forall f :: f in rule.required ==> filled(f))
      && (rule.requiredAny == [] || exists f :: f in rule.requiredAny && filled(f))
      && (forall g :: g in rule.mutuallyExclusive ==> !Violates(g, filled))
    // the first violated exclusive group is the whole report, whatever else is missing
    ensures forall i ::
      (0 <= i < |rule.mutuallyExclusive| && Violates(rule.mutuallyExclusive[i], filled)
       && (forall j :: 0 <= j < i ==> !Violates(rule.mutuallyExclusive[j], filled)))
      ==> r == Some([ExclusiveEntry(rule.mutuallyExclusive[i])])
    // otherwise the unfilled required fields come first, then the any-of entry
    ensures (forall g :: g in rule.mutuallyExclusive ==> !Violates(g, filled)) && r.Some? ==>
              r.value == MissingRequired(rule, filled) + MissingAny(rule, filled)
  {
    match FirstViolation(rule.mutuallyExclusive, filled, 0)
    case Some(i) => Some([ExclusiveEntry(rule.mutuallyExclusive[i])])
    case None =>
      var req := MissingRequired(rule, filled);
      var missing := req + MissingAny(rule, filled);
      if missing == [] then None
      else
        assert req != [] ==> req[0] in rule.required && !filled(req[0]);
        Some(missing)
  }

  /** `getattr(domain, f, None) is not None` */
  function AttrFilled(attrs: seq<Attr>): (p: string -> bool)
    ensures forall f :: p(f) == (Get(attrs, f) != VNone)
  {
    f => Get(attrs, f) != VNone
  }

  /** `f in kwargs and kwargs[f] is not None` */
  function KwargFilled(kwargs: seq<Attr>): (p: string -> bool)
    ensures forall f :: p(f) == (Has(kwargs, f) && Get(kwargs, f) != VNone)
  {
    f => Has(kwargs, f) && Get(kwargs, f) != VNone
  }

  /** The outcome of a failed rule as the error the operation raises. */
  function Raise(operation: string, report: Option<seq<string>>): (r: Result<()>)
    ensures r.Ok? <==> report.None?
    ensures r.Err? ==> r.error == ValidationFailed(operation, report.value)
  {
    match report
    case None => Ok(())
    case Some(m) => Err(ValidationFailed(operation, m))
  }

  /** `ValidationObserver.validate(domain, operation)` over the instance
      attributes `attrs` and the class's `restrictions`. */
  function Validate(restrictions: Restrictions, operation: string, attrs: seq<Attr>): (r: Result<()>)
    ensures operation !in restrictions ==> r.Ok?
    ensures r.Err? ==> r.error.ValidationFailed? && r.error.operation == operation
    ensures operation in restrictions ==>
      var rule := restrictions[operation];
      (r.Ok? <==>
        && (forall f :: f in rule.required ==> Get(attrs, f) != VNone)
        && (rule.requiredAny == [] || exists f :: f in rule.requiredAny && Get(attrs, f) != VNone)
        && (forall g :: g in rule.mutuallyExclusive ==> !Violates(g, AttrFilled(attrs))))
  {
    if operation !in restrictions then Ok(())
    else Raise(operation, Evaluate(restrictions[operation], AttrFilled(attrs)))
  }

  /** A required field that is absent or None is reported under its own name,
      unless an exclusive group is violated. */
  lemma RequiredReported(restrictions: Restrictions, operation: string, attrs: seq<Attr>, f: string)
    requires operation in restrictions
    requires f in restrictions[operation].required && Get(attrs, f) == VNone
    requires forall g :: g in restrictions[operation].mutuallyExclusive ==> !Violates(g, AttrFilled(attrs))
    ensures Validate(restrictions, operation, attrs).Err?
    ensures f in Validate(restrictions, operation, attrs).error.missing
  {
    var rule := restrictions[operation];
    assert f in MissingRequired(rule, AttrFilled(attrs));
  }

  /** `validate_args`: the same rule over the keyword arguments of a call.
      Positional arguments are not looked at. */
  function ValidateArgs(rule: Rule, positional: seq<Value>, kwargs: seq<Attr>, funcName: string): (r: Result<()>)
    ensures r.Err? ==> r.error.ValidationFailed? && r.error.operation == funcName
    ensures r.Ok? <==>
      && (forall f :: f in rule.required ==> Has(kwargs, f) && Get(kwargs, f) != VNone)
      && (rule.requiredAny == [] || exists f :: f in rule.requiredAny && Has(kwargs, f) && Get(kwargs, f) != VNone)
      && (forall g :: g in rule.mutuallyExclusive ==> !Violates(g, KwargFilled(kwargs)))
    // a required field that was passed only positionally fails the check
    ensures forall f :: f in rule.required && !Has(kwargs, f) ==> r.Err?
  {
    Raise(funcName, Evaluate(rule, KwargFilled(kwargs)))
  }

  /** `validate_attributes`: the same rule over the instance attributes, with
      the decorated function's name as the operation. */
  function ValidateAttributes(rule: Rule, attrs: seq<Attr>, funcName: string): (r: Result<()>)
    ensures r.Err? ==> r.error.ValidationFailed? && r.error.operation == funcName
    ensures r.Ok? <==>
      && (forall f :: f in rule.required ==> Has(attrs, f) && Get(attrs, f) != VNone)
      && (rule.requiredAny == [] || exists f :: f in rule.requiredAny && Has(attrs, f) && Get(attrs, f) != VNone)
      && (forall g :: g in rule.mutuallyExclusive ==> !Violates(g, KwargFilled(attrs)))
  {
    Raise(funcName, Evaluate(rule, KwargFilled(attrs)))
  }

  /** The attribute decorator and the restrictions-driven check agree: an
      absent attribute and a None attribute are the same to both. */
  lemma {:induction false} AttributesAgreeWithValidate(rule: Rule, attrs: seq<Attr>, name: string)
    ensures ValidateAttributes(rule, attrs, name) == Validate(map[name := rule], name, attrs)
  {
    var p := KwargFilled(attrs);
    var q := AttrFilled(attrs);
    assert forall f :: p(f) == q(f) by {
      forall f ensures p(f) == q(f) {
        if !Has(attrs, f) {
          assert Find(attrs, f).None?;
        }
      }
    }
    SameFilledSameReport(rule, p, q);
  }

  /** Two presence tests that agree everywhere give the same report. */
  lemma {:induction false} SameFilledSameReport(rule: Rule, p: string -> bool, q: string -> bool)
    requires forall f :: p(f) == q(f)
    ensures Evaluate(rule, p) == Evaluate(rule, q)
  {
    SameSelect(rule.required, Not(p), Not(q));
    SameSelect(rule.requiredAny, p, q);
    forall g | g in rule.mutuallyExclusive ensures Select(g, p) == Select(g, q) {
      SameSelect(g, p, q);
    }
    SameFirstViolation(rule.mutuallyExclusive, p, q, 0);
  }

  lemma {:induction false} SameSelect(fs: seq<string>, p: string -> bool, q: string -> bool)
    requires forall f :: p(f) == q(f)
    ensures Select(fs, p) == Select(fs, q)
    decreases |fs|
  {
    if fs != [] {
      SameSelect(fs[1..], p, q);
    }
  }

  lemma {:induction false} SameFirstViolation(groups: seq<seq<string>>, p: string -> bool, q: string -> bool, i: nat)
    requires i <= |groups|
    requires forall f :: p(f) == q(f)
    ensures FirstViolation(groups, p, i) == FirstViolation(groups, q, i)
    decreases |groups| - i
  {
    if i < |groups| {
      SameSelect(groups[i], p, q);
      SameFirstViolation(groups, p, q, i + 1);
    }
  }
}

=== FILE: values.dfy ===
/** The values the ORM moves around: Python scalars, UUIDs, temporal values,
    dicts, lists and objects. An object or dict is an ordered attribute list
    (`__dict__` / dict insertion order), because the order of attributes decides
    the order of columns in the generated SQL text. */
module Values {
  import opened Text

  datatype Option<+T> = None | Some(value: T) {
    /** `x if x is not None else d` */
    function GetOr(d: T): T {
      if Some? then value else d
    }
  }

  /** The positions of the four hyphens in the 8-4-4-4-12 layout. */
  predicate IsHyphenPos(i: int) {
    i == 8 || i == 13 || i == 18 || i == 23
  }

  /** `str(uuid.UUID(...))`: 8-4-4-4-12 lower-case hexadecimal digits. */
  predicate IsCanonicalUuid(s: string) {
    && |s| == 36
    && forall i :: 0 <= i < 36 ==> if IsHyphenPos(i) then s[i] == '-' else IsLowerHexDigit(s[i])
  }

  /** The text of a `uuid.UUID` value; a UUID is fully determined by it. */
  type UuidText = s: string | IsCanonicalUuid(s) witness "00000000-0000-0000-0000-000000000000"

  /** Which kind of Python object an attribute bag belongs to. `cls` is the
      class name; `Dto` and `Domain` subclasses are told apart because several
      operations test `isinstance(x, Dto)` or `isinstance(x, Domain)`. */
  datatype Kind = DomainKind(cls: string) | DtoKind(cls: string) | PlainKind

  datatype Value =
    | VNone
    | VBool(b: bool)
    | VInt(i: int)
    | VStr(s: string)
    | VUuid(u: UuidText)
    | VDateTime(year: nat, month: nat, day: nat, hour: nat, minute: nat, second: nat)
    | VDate(dYear: nat, dMonth: nat, dDay: nat)
    | VTime(tHour: nat, tMinute: nat, tSecond: nat)
      /** Any other Python scalar object, carried by its `str()` text. */
    | VOther(text: string)
    | VDict(entries: seq<Attr>)
    | VList(items: seq<Value>)
      /** An object with a `__dict__`: its attributes in insertion order. */
    | VObj(kind: Kind, attrs: seq<Attr>)

  datatype Attr = Attr(key: string, val: Value)

  /** Not a container: its `str()` text is modelled by `PyStr`. */
  predicate IsScalar(v: Value) {
    !(v.VDict? || v.VList? || v.VObj?)
  }

  /** Every attribute holds a scalar: the shape of a table row or a DTO. */
  predicate Flat(a: seq<Attr>) {
    forall i :: 0 <= i < |a| ==> IsScalar(a[i].val)
  }

  /** A database row, or the attributes of a DTO. */
  type Row = a: seq<Attr> | Flat(a) witness []

  /** Python truthiness (`if v:`). Objects without `__bool__`/`__len__`, UUIDs
      and temporal values are always true. */
  predicate Truthy(v: Value) {
    match v
    case VNone => false
    case VBool(b) => b
    case VInt(i) => i != 0
    case VStr(s) => s != ""
    case VDict(e) => e != []
    case VList(xs) => xs != []
    case _ => true
  }

  /** `str(v)` for scalar values. */
  function PyStr(v: Value): string
    requires IsScalar(v)
  {
    match v
    case VNone => "None"
    case VBool(b) => if b then "True" else "False"
    case VInt(i) => IntToString(i)
    case VStr(s) => s
    case VUuid(u) => u
    case VDateTime(y, mo, d, h, mi, s) => DateText(y, mo, d) + " " + ClockText(h, mi, s)
    case VDate(y, mo, d) => DateText(y, mo, d)
    case VTime(h, mi, s) => ClockText(h, mi, s)
    case VOther(t) => t
  }

  /** `%Y-%m-%d` */
  function DateText(y: nat, mo: nat, d: nat): string {
    Pad(y, 4) + "-" + Pad(mo, 2) + "-" + Pad(d, 2)
  }

  /** `%H:%M:%S` */
  function ClockText(h: nat, mi: nat, s: nat): string {
    Pad(h, 2) + ":" + Pad(mi, 2) + ":" + Pad(s, 2)
  }

  // ---------------------------------------------------------------------------
  // Attribute lists: the `__dict__` of an object or the items of a dict
  // ---------------------------------------------------------------------------

  /** The keys, in order. */
  function Keys(a: seq<Attr>): (ks: seq<string>)
    ensures |ks| == |a|
    decreases |a|
  {
    if a == [] then [] else [a[0].key] + Keys(a[1..])
  }

  lemma KeysIndex(a: seq<Attr>, i: int)
    requires 0 <= i < |a|
    ensures Keys(a)[i] == a[i].key
    decreases |a|
  {
    if i > 0 {
      KeysIndex(a[1..], i - 1);
    }
  }

  /** `hasattr(obj, k)` on the instance attributes / `k in d` */
  predicate Has(a: seq<Attr>, k: string) {
    k in Keys(a)
  }

  /** A non-empty list holds its first key and the keys of the rest. */
  lemma HasCons(a: seq<Attr>)
    requires a != []
    ensures forall k :: Has(a, k) <==> a[0].key == k || Has(a[1..], k)
  {
    assert Keys(a) == [a[0].key] + Keys(a[1..]);
  }

  /** Distinct keys, as in every Python dict. */
  predicate NoDup(a: seq<Attr>) {
    forall i, j :: 0 <= i < j < |a| ==> a[i].key != a[j].key
  }

  /** The value stored under `k`, if any. */
  function Find(a: seq<Attr>, k: string): (r: Option<Value>)
    ensures r.Some? <==> Has(a, k)
    ensures r.Some? ==> Attr(k, r.value) in a
    decreases |a|
  {
    if a == [] then None
    else if a[0].key == k then Some(a[0].val)
    else Find(a[1..], k)
  }

  /** `getattr(obj, k, None)` / `d.get(k)` */
  function Get(a: seq<Attr>, k: string): Value {
    match Find(a, k)
    case Some(v) => v
    case None => VNone
  }

  /** `setattr(obj, k, v)` / `d[k] = v`: an existing key keeps its position,
      a new key goes last. */
  function Put(a: seq<Attr>, k: string, v: Value): (r: seq<Attr>)
    ensures Find(r, k) == Some(v)
    ensures forall k' :: k' != k ==> Find(r, k') == Find(a, k')
    ensures Has(a, k) ==> Keys(r) == Keys(a)
    ensures !Has(a, k) ==> Keys(r) == Keys(a) + [k]
    ensures forall x :: x in r ==> x in a || x == Attr(k, v)
    ensures Has(a, k) ==> |r| == |a| && forall j :: 0 <= j < |a| ==> r[j] == a[j] || r[j] == Attr(k, v)
    decreases |a|
  {
    if a == [] then [Attr(k, v)]
    else if a[0].key == k then [Attr(k, v)] + a[1..]
    else
      var rest := Put(a[1..], k, v);
      var r := [a[0]] + rest;
      assert r[1..] == rest;
      r
  }

  /** Storing a scalar keeps an attribute list flat. */
  lemma PutFlat(a: seq<Attr>, k: string, v: Value)
    requires Flat(a) && IsScalar(v)
    ensures Flat(Put(a, k, v))
  {
    var r := Put(a, k, v);
    forall i | 0 <= i < |r| ensures IsScalar(r[i].val) {
      assert r[i] in r;
    }
  }

  /** The value under any key of a flat list is a scalar (None when absent). */
  lemma GetFlat(a: seq<Attr>, k: string)
    requires Flat(a)
    ensures IsScalar(Get(a, k))
  {
    if Find(a, k).Some? {
      var j :| 0 <= j < |a| && a[j] == Attr(k, Find(a, k).value);
    }
  }

  /** Storing under a key keeps the keys distinct. */
  lemma PutNoDup(a: seq<Attr>, k: string, v: Value)
    requires NoDup(a)
    ensures NoDup(Put(a, k, v))
  {
    var r := Put(a, k, v);
    forall i, j | 0 <= i < j < |r| ensures r[i].key != r[j].key {
      KeysIndex(r, i);
      KeysIndex(r, j);
      if Has(a, k) {
        KeysIndex(a, i);
        KeysIndex(a, j);
      } else {
        assert Keys(r) == Keys(a) + [k];
        if j < |a| {
          KeysIndex(a, i);
          KeysIndex(a, j);
        } else {
          KeysIndex(a, i);
          assert Keys(a)[i] in Keys(a);
        }
      }
    }
  }

  /** `delattr(obj, k)` / `del d[k]` (no error when absent: callers check first). */
  function Del(a: seq<Attr>, k: string): (r: seq<Attr>)
    ensures !Has(r, k)
    ensures forall k' :: k' != k ==> Find(r, k') == Find(a, k')
    ensures |r| <= |a|
    ensures forall x :: x in r ==> x in a
    decreases |a|
  {
    if a == [] then []
    else
      var rest := Del(a[1..], k);
      if a[0].key == k then rest
      else
        var r := [a[0]] + rest;
        assert r[1..] == rest;
        r
  }

  /** Delete every key of `ks`, in order. */
  function DelAll(a: seq<Attr>, ks: seq<string>): (r: seq<Attr>)
    ensures forall k :: k in ks ==> !Has(r, k)
    ensures forall k :: k !in ks ==> Find(r, k) == Find(a, k)
    ensures forall x :: x in r ==> x in a
    decreases |ks|
  {
    if ks == [] then a
    else
      var d := Del(a, ks[0]);
      var r := DelAll(d, ks[1..]);
      assert forall k :: k in ks ==> !Has(r, k) by {
        forall k | k in ks ensures !Has(r, k) {
          if k !in ks[1..] {
            assert k == ks[0];
            assert Find(r, k) == Find(d, k);
          }
        }
      }
      r
  }

  /** Deleting an absent key changes nothing. */
  lemma {:induction false} DelAbsent(a: seq<Attr>, k: string)
    requires !Has(a, k)
    ensures Del(a, k) == a
    decreases |a|
  {
    if a != [] {
      assert Keys(a) == [a[0].key] + Keys(a[1..]);
      DelAbsent(a[1..], k);
    }
  }

  /** Deleting keys none of which is present changes nothing. */
  lemma {:induction false} DelAllAbsent(a: seq<Attr>, ks: seq<string>)
    requires forall k :: k in ks ==> !Has(a, k)
    ensures DelAll(a, ks) == a
    decreases |ks|
  {
    if ks != [] {
      DelAbsent(a, ks[0]);
      DelAllAbsent(a, ks[1..]);
    }
  }

  // ---------------------------------------------------------------------------
  // Nesting depth of objects
  // ---------------------------------------------------------------------------

  /** How many objects deep a value goes: 0 for scalars, 1 for an object whose
      attributes are all scalars, and so on. Lists and dicts add no level. */
  function Depth(v: Value): nat
    decreases v, 1
  {
    match v
    case VObj(_, a) => 1 + DepthAll(a)
    case VDict(e) => DepthAll(e)
    case VList(xs) => DepthList(xs)
    case _ => 0
  }

  /** The deepest attribute value. */
  function DepthAll(a: seq<Attr>): nat
    decreases a, 0
  {
    if a == [] then 0
    else
      var x := Depth(a[0].val);
      var y := DepthAll(a[1..]);
      if x >= y then x else y
  }

  function DepthList(xs: seq<Value>): nat
    decreases xs, 0
  {
    if xs == [] then 0
    else
      var x := Depth(xs[0]);
      var y := DepthList(xs[1..]);
      if x >= y then x else y
  }

  /** The deepest attribute is at most `b` exactly when every attribute is. */
  lemma {:induction false} DepthAllBound(a: seq<Attr>, b: nat)
    ensures DepthAll(a) <= b <==> forall i :: 0 <= i < |a| ==> Depth(a[i].val) <= b
    decreases |a|
  {
    if a != [] {
      DepthAllBound(a[1..], b);
      assert forall i :: 0 < i < |a| ==> a[i] == a[1..][i - 1];
    }
  }

  /** The deepest list item is at most `b` exactly when every item is. */
  lemma {:induction false} DepthListBound(xs: seq<Value>, b: nat)
    ensures DepthList(xs) <= b <==> forall i :: 0 <= i < |xs| ==> Depth(xs[i]) <= b
    decreases |xs|
  {
    if xs != [] {
      DepthListBound(xs[1..], b);
      assert forall i :: 0 < i < |xs| ==> xs[i] == xs[1..][i - 1];
    }
  }

  /** Attribute by attribute no deeper: no deeper as a whole. */
  lemma DepthAllMono(a: seq<Attr>, b: seq<Attr>)
    requires |a| == |b|
    requires forall i :: 0 <= i < |a| ==> Depth(a[i].val) <= Depth(b[i].val)
    ensures DepthAll(a) <= DepthAll(b)
  {
    DepthAllBound(b, DepthAll(b));
    DepthAllBound(a, DepthAll(b));
  }

  /** A flat list has depth 0. */
  lemma FlatDepth(a: seq<Attr>)
    requires Flat(a)
    ensures DepthAll(a) == 0
  {
    DepthAllBound(a, 0);
  }
}
